=== FILE: README.md ===
# Compliance survey core, in Dafny

This project models the deterministic logic of a compliance-cost survey
application used for a regulatory cost assessment (RCA) of businesses in
Zambia. Interviewers fill a four-section questionnaire:
- A: the business profile;
- B: the licences and procedures the business went through, with fees,
  days and complexity;
- C: time allocation;
- D: reform priorities.

Each interview is one row of the `responses` table. It is saved as a draft
and later submitted under a business name no other interview uses. An
administrator can edit, revert or delete a submitted interview. The
analytics screen flattens the submitted procedure lists into one table,
groups that table by procedure, and summarises it by sector.

The model keeps the application's logic and leaves out its surroundings:
- The table is a `map<string, Row>` keyed by `interview_id`. Read queries
  whose order comes from the database take the rows as a sequence in scan
  order.
- The code uses two databases: the interviewer side (`save_draft`, the
  duplicate check, `submit_final`) goes through `execute_query` to a SQLite
  Cloud database (app.py:61-72), while `DraftManager`, `InterviewEditor` and
  `ComplianceAnalytics` each open a local SQLite file (draft_manager.py:10,
  interview_editor.py:10, analytics_dashboard.py:13). The model gives all of
  them one shared table.
- The list-valued columns (`procedure_data`, `isic_codes`,
  `reform_priorities`) are JSON text. They are modelled as a sum type: SQL
  NULL, a JSON list, the text `null`, a JSON string nesting another column
  text, or malformed text (possibly empty).
- The form holds its reform priorities either as a list (after Section D)
  or as the raw column text a draft load left there.
- The form values that the progress calculator inspects form a second sum
  type: absent, a text that does or does not decode, a text that decodes to
  a string, or a non-text Python value.
- The clock, the logged-in user, the current section, freshly generated
  interview ids and the bulk form's float-adjusted numbers are parameters.
- Money is `real`, so every sum and average is exact.

Modules, one per concern:
- `Basics`: options and map lookup.
- `Sequences`: filter, map, count, sort and sum over sequences.
- `JsonColumns`: the list columns and their decode with fallback.
- `Records`: rows, procedures and form data.
- `Metrics`: totals and risk score.
- `Progress`: draft progress.
- `Drafts`: `DraftManager`.
- `Interviews`: save, the duplicate-name gate and submit.
- `Editor`: `interview_editor.py`.
- `ProcedureEntry`: the Section B builders.
- `Reforms`: the Section D list.
- `Analytics`: `ComplianceAnalytics`.

## Model

| member | source | states |
|---|---|---|
| JsonColumns.Encode | app.py:373-387 | a list the form holds is written as a JSON list, never NULL or `null`, that the guarded decode reads back as exactly that list |
| JsonColumns.EncodeReforms | app.py:386 | a reform list is written so that the guarded decode gives it back; a value left by a draft load is never written as a list and so reads back as the empty list: None is written as `null` and nothing else is, and a loaded text becomes a JSON string whose content is that text |
| JsonColumns.ReformsRoundTrip | app.py:386 | a reform list survives the write and the guarded decode unchanged |
| JsonColumns.ReloadedReformsNest | app.py:386 | a loaded reform text that is written back is never a JSON list again; it is `null` or nests the old text one level deeper |
| Progress.ColumnText | draft_manager.py:233 | the form value after a load is None exactly for a NULL column, and a stored list stays decodable text; the progress check's decode finds something non-empty in it exactly when the column's guarded decode is a non-empty list, or the column is a JSON string whose text is not empty |
| JsonColumns.DecodeEncode | draft_manager.py:236-243 | reading back a column the application wrote gives the written list unchanged |
| JsonColumns.DecodeFallsBackToEmpty | interview_editor.py:405-412 | a NULL, `null`, `[]` or malformed column reads as the empty list without raising |
| Metrics.SumTotals | app.py:373-375 | the accumulated cost and days equal the reference sums over the list, a missing key counting 0; both are 0 for an empty list |
| Metrics.TotalCostAppend | app.py:374 | total cost is additive over concatenated procedure lists |
| Metrics.TotalTimeAppend | app.py:375 | total time is additive over concatenated procedure lists |
| Metrics.TotalCostNonNegative | app.py:374 | entries with non-negative costs give a non-negative total cost |
| Metrics.TotalTimeNonNegative | app.py:375 | entries with non-negative days give a non-negative total time |
| Metrics.RiskScore | app.py:378 | the score never exceeds 10; it is non-negative for non-negative inputs and non-positive for non-positive ones |
| Metrics.RiskScoreMonotone | app.py:378 | more cost or more time never lowers the score |
| Metrics.RiskScoreSaturates | app.py:378 | the score equals 10 exactly when the unclamped value reaches 10 |
| Metrics.ComputeMetrics | app.py:373-378 | the three derived columns; risk at most 10; an empty list gives (0, 0, 0) |
| Metrics.ComputeMetricsInRange | app.py:373-378 | with non-negative costs and days, both totals are non-negative and the risk lies in [0, 10] |
| Metrics.WorkedExample | app.py:373-378 | fees 1000+0 over 14 days and 500+200 over 7 days give cost 1700, 21 days and a risk between 0.745 and 0.746 |
| Progress.SectionsCompleted | draft_manager.py:88-117 | at most 4 sections count; none counts iff all four checks fail; all four count iff all four checks pass |
| Progress.CalculateProgress | draft_manager.py:119-123 | progress is 20 * (completed sections + 1), always within [20, 100] |
| Progress.ProgressIgnoresSection | draft_manager.py:86-123 | the current-section argument never changes the result |
| Progress.ProgressStep | draft_manager.py:119-123 | one more completed section adds exactly 20 points |
| Progress.EmptyFormProgress | draft_manager.py:86-123 | an empty form scores 20 |
| Progress.SectionAOnlyProgress | draft_manager.py:93-94 | a business name and a contact person, and nothing else, give 40 |
| Progress.ListSectionIncomplete | draft_manager.py:97-103 | absent, non-text, undecodable, `null` and empty-list values never complete section B or D, and raise nothing |
| Progress.NonEmptyListCompletes | draft_manager.py:97-101 | a text decoding to a non-empty list completes its section |
| Progress.ZeroTimeCountsAsPresent | draft_manager.py:106-108 | time allocations of 0 count as present, so section C completes |
| Progress.ReformsForm | draft_manager.py:111-116 | a reform list in the form never completes section D; a loaded text is judged by what it decodes to |
| Progress.SaveProgress | app.py:380-382 | the progress `save_draft` stores is 20 per counted section among A, C and D plus 20, within [20, 80]; with the reforms held as a list it is at most 60 |
| Progress.SaveProgressIgnoresLists | app.py:382 | the stored progress is the same whatever procedure list the form holds, and whatever reform list when it holds one |
| Progress.LoadedReformsCount | draft_manager.py:111-116 | a loaded reform text completes section D iff it is a non-empty list or a JSON string with some content; NULL, `null` and malformed text never do |
| Drafts.GetUserDrafts | draft_manager.py:12-25 | exactly the user's drafts, as a permutation of the matching rows, newest `last_modified` first |
| Drafts.UpdateDraftProgress | draft_manager.py:60-70 | only current_section, draft_progress and last_modified of the target row change; an unknown id changes nothing |
| Drafts.DeleteDraft | draft_manager.py:75-81 | the row disappears iff it exists and is a draft; every other row stays as it was |
| Drafts.DeleteDraftKeepsSubmitted | draft_manager.py:79 | deleting a submitted interview as a draft leaves the table unchanged |
| Drafts.LoadDraft | draft_manager.py:197-256 | an unknown id loads nothing; otherwise the form holds every questionnaire column as stored (None for NULL) and the raw reform text, but no procedure or ISIC list; the session lists are the decoded columns and the section is the stored one |
| Drafts.LoadKeepsNull | draft_manager.py:54 | a NULL questionnaire column loads as None rather than as the `.get` default |
| Drafts.LoadFallsBackToEmpty | draft_manager.py:236-252 | a missing, `null`, `[]` or malformed procedure or ISIC column loads as an empty list |
| Drafts.LoadedReformsCountIffNonEmpty | draft_manager.py:233 | after a load, section D counts exactly when the stored reform list is non-empty |
| Drafts.LoadDraftIntended | draft_manager.py:197-256 | the corrected load: the form also carries the decoded procedure, ISIC and reform lists, equal to the session's lists |
| Interviews.FormAnswers | app.py:413-444 | the saved row holds exactly the questionnaire columns; each holds the form's answer when the form has that key and the column's `.get` default otherwise |
| Interviews.SaveDraft | app.py:366-525 | returns the given id or a fresh one; only that row changes, and a table whose rows sit under their own ids stays so; a new id inserts a draft stamped `now`; a known id rewrites data, metrics, timestamps and progress but not status or submission date; the row holds the form's answers or their defaults, lists that read back as the form's, the reform value as `json.dumps` gives it, the metrics of the form's procedures and the save-time progress (20-80, at most 60 for a reform list) |
| Interviews.SaveDraftKeepsMetricsConsistent | app.py:373-386 | the metrics a save stores are those of the procedure list it stores, so the editor's consistency between the two holds for the saved row and, if it held for every row before, for every row after |
| Interviews.ResavedRow | app.py:394-452 | the UPDATE branch changes only the rewritten columns (answers, lists, metrics, last_modified, created_by, current_section, draft_progress); the written row carries the save's stamps, the form's answers or their defaults, lists that read back as the form's, the metrics of the form's procedures with a bounded risk score, and the save-time progress within 20-80, at most 60 for a reform list |
| Interviews.NewDraftRow | app.py:453-517 | the INSERT branch writes a draft under the given id whose submission date is the save time, with the same contents guarantees |
| Interviews.SaveKeepsSubmission | app.py:394-455 | re-saving a submitted interview keeps it submitted, with its submission date |
| Interviews.SaveIdempotent | app.py:366-521 | saving the same form again under the returned id changes only last_modified |
| Interviews.LoadAfterSave | draft_manager.py:199-256 | loading a saved interview gives back the form's answers, lists and section, and the reform value as the text written; for a reform list, section D then counts iff it is non-empty |
| Interviews.ReloadedSaveLosesLists | app.py:373-386 | saving the form a load left behind writes an empty procedure list and no ISIC codes, and wraps a stored reform list in a JSON string |
| Interviews.ReloadedSaveDropsProcedures | app.py:373 | a draft with two procedures, reloaded and saved, stores no procedures although the session still lists both |
| Interviews.ReloadedSaveKeepsLists | app.py:373-386 | with the corrected load, a reload followed by a save keeps all three stored lists |
| Interviews.CheckDuplicateBusinessName | app.py:527-542 | true iff some row, of any status and other than the current interview, has this business name |
| Interviews.SubmitFinal | app.py:544-562 | refused with no change iff there is a name and it is a duplicate; otherwise only status and submission date of the row change; a missing id changes nothing |
| Interviews.FormBusinessName | app.py:547 | the name the duplicate query binds is exactly the text `save_draft` stores in the business_name column for the same form, and there is no name when that column would not hold a text (None) |
| Interviews.NullNameNeverDuplicate | app.py:530-532 | a business name of None matches no row, so it never blocks a submission |
| Interviews.DuplicateNameGate | app.py:547-550 | another interview with the name blocks the submission and the draft stays a draft |
| Interviews.OwnNameIsNoDuplicate | app.py:530-532 | the interview's own row never counts against it, so the submission goes through |
| Interviews.SubmitKeepsNamesUnique | app.py:544-559 | submitting under the row's own name keeps submitted business names pairwise distinct |
| Interviews.SaveAndSubmit | app.py:1715-1718 | saving then submitting adds at most the saved id to the table; the submission is refused exactly when the form names a business that another submitted row already has, and then the saved draft stays as saved; otherwise the saved row becomes submitted at that time with its other columns as saved; every other row is as before |
| Interviews.SaveAndSubmitKeepsNamesUnique | app.py:1715-1718 | the Section D submit button keeps submitted business names unique, accepted or refused |
| Interviews.ResaveCanDuplicateSubmittedName | app.py:394-455 | re-saving a submitted interview under another submitted interview's name breaks uniqueness, since `save_draft` itself runs no duplicate check; of its callers only the Section A save checks first (app.py:892-894), and the Section B-D saves do not |
| Editor.GetSubmittedInterviews | interview_editor.py:31-41 | exactly the submitted rows, as a permutation, latest submission first |
| Editor.UpdateInterview | interview_editor.py:61-82 | succeeds iff the patch names at least one column, all of them questionnaire columns, procedure_data or metrics; then exactly the named columns and last_modified change on the target row and nothing else anywhere |
| Editor.PatchRow | interview_editor.py:68-72 | the named columns take the patch values and last_modified is stamped; every other column keeps its value |
| Editor.UpdateKeepsMetrics | interview_editor.py:68-73 | a patch that does not name the metrics does not recompute them |
| Editor.RevertToDraft | interview_editor.py:108-128 | status becomes draft and last_modified is stamped; the submission date and all other data stay |
| Editor.DeleteInterview | interview_editor.py:595-600 | the row is removed whatever its status; all other rows stay |
| Editor.EditSingleProcedure | interview_editor.py:483-491 | the six edited fields of one entry take the form's values; the list length, the other entries and the unedited fields stay |
| Editor.EditWithCurrentValuesIsIdentity | interview_editor.py:483-491 | submitting the form unchanged leaves the list unchanged |
| Editor.EditIdempotent | interview_editor.py:483-491 | the same edit twice equals the edit once |
| Editor.EditStoredProcedure | interview_editor.py:483-494 | the stored list becomes the edited list; only procedure_data and last_modified change |
| Editor.EditLeavesMetricsStale | interview_editor.py:488-494 | an edit that moves the total cost leaves the stored totals no longer matching the list |
| Editor.RecalculateTotals | interview_editor.py:501-516 | the stored metrics become those of the given list (the totals are its sums, risk at most 10); only the metric columns and last_modified change |
| Editor.RecalculateRestoresConsistency | interview_editor.py:501-516 | recomputing from the stored list makes the totals match it |
| Editor.EditThenRecalculate | interview_editor.py:483-516 | an edit followed by a recalculation leaves consistent totals |
| Editor.IssuesCharacterised | interview_editor.py:521-535 | errors are only missing names or authorities and warnings only negative fees or days, each about a real entry; both lists are empty iff every entry is valid |
| Editor.IssuesComplete | interview_editor.py:526-535 | every missing name or authority and every negative fee or day count gets its message, numbered from 1 |
| Editor.ValidateProcedures | interview_editor.py:521-548 | the loop's lists equal the reference lists; the data is valid iff every entry is valid, so an empty list is valid |
| ProcedureEntry.ComplexityScore | app.py:1097-1100 | the five labels map into 1..5 |
| ProcedureEntry.ComplexityScoreOrdered | app.py:1097-1100 | the mapping is injective, with Very Simple lowest and Very Complex highest |
| ProcedureEntry.SplitDays | app.py:1108-1109 | preparation and waiting days are both at least 1; they add up to the total iff the total is at least the divisor |
| ProcedureEntry.SplitDaysShares | app.py:1108-1109 | preparation is the floor share and never exceeds waiting |
| ProcedureEntry.QuickProcedure | app.py:1102-1126 | refused iff the name or the authority is empty; otherwise the cost is the fee, unofficial payments 0, the days as given, complexity in 1..5 |
| ProcedureEntry.QuickEntryAdds | app.py:1103-1125 | a quick entry with non-negative cost and days passes validation and adds exactly its cost and days to the totals |
| ProcedureEntry.DetailedProcedure | app.py:1238-1276 | refused iff the name or the authority is empty; support cost and reason only when support was hired; the documents are the filled boxes in their order, blank ones dropped |
| ProcedureEntry.SectorLicenses | app.py:1342 | only Agribusiness and Construction have templates |
| ProcedureEntry.SectorTemplateProcedure | app.py:1408-1427 | the entry carries the template's name, authority, cost and days, split in thirds |
| ProcedureEntry.CommonNationalProcedure | app.py:1449-1468 | the entry carries the template's cost and days split in halves, is one-time, and has no documents and one follow-up |
| ProcedureEntry.BulkProcedure | app.py:1373-1391 | the entry carries the adjusted cost, and days clamped to at least 1 |
| ProcedureEntry.AppendMissing | app.py:1405-1429 | existing entries keep their place and order; the count added equals the number of entries appended |
| ProcedureEntry.AppendMissingFromCandidates | app.py:1405-1429 | every appended entry is one of the candidates |
| ProcedureEntry.AppendMissingFresh | app.py:1406-1407 | no appended entry repeats a name already listed, including names appended earlier in the batch |
| ProcedureEntry.AppendMissingCovers | app.py:1405-1429 | afterwards every candidate's name is listed |
| ProcedureEntry.AppendMissingKeepsDistinct | app.py:1405-1429 | a list without duplicate names stays without duplicate names |
| ProcedureEntry.AppendMissingNothingNew | app.py:1406-1407 | a batch whose names are all listed adds nothing |
| ProcedureEntry.AppendMissingIdempotent | app.py:1405-1429 | pressing a template button twice adds nothing the second time |
| ProcedureEntry.AddAllSectorTemplates | app.py:1401-1431 | a sector without templates adds nothing; otherwise every template name ends up listed, with no duplicates introduced |
| ProcedureEntry.AddNationalTemplates | app.py:1445-1472 | every licence name ends up listed, at most one entry per licence is added, and no duplicates are introduced |
| ProcedureEntry.AddCommonNational | app.py:1434-1472 | the PACRA and ZRA registrations end up listed, at most two are added, and the sector is not read |
| ProcedureEntry.Checked | app.py:1345-1347 | exactly the sector's licences whose boxes are ticked |
| ProcedureEntry.BulkAdd | app.py:1361-1398 | no templates or nothing ticked adds nothing; otherwise every ticked licence ends up listed, with no duplicates introduced |
| ProcedureEntry.BulkAddTemplates | app.py:1361-1396 | for any licence list: nothing ticked adds nothing; every ticked licence ends up listed; the list only grows at its end, without introducing duplicate names |
| ProcedureEntry.ManagerEditProcedure | app.py:1552-1560 | five fields of one entry change and everything else stays; the entry's cost becomes fee plus unofficial payment |
| ProcedureEntry.ManagerEditTotalCost | app.py:1552-1560 | the total cost moves by exactly the entry's change in cost; the total time stays |
| ProcedureEntry.RemoveProcedureAt | app.py:1526-1527 | the entries before the index stay, those after it shift down by one, and exactly that entry is gone |
| ProcedureEntry.RemoveTotals | app.py:1526-1527 | deleting an entry takes exactly its cost and days off the totals |
| Reforms.Strip | app.py:1699 | the result has no surrounding whitespace and is empty iff the line is all whitespace |
| Reforms.StripIsSlice | app.py:1699 | the result is one slice of the line with only whitespace around it |
| Reforms.StrippedIsFixed | app.py:1699 | stripping a stripped line changes nothing, so stripping is idempotent |
| Reforms.Split | app.py:1699 | at least one piece, and no piece contains the separator |
| Reforms.JoinSplit | app.py:1699 | joining the pieces with the separator gives the text back |
| Reforms.SplitCount | app.py:1699 | there is one piece more than separators in the text |
| Reforms.StripNonBlank | app.py:1699 | every kept line is non-empty, stripped, and the strip of some line; every line that strips to non-empty is kept |
| Reforms.StripNonBlankAppend | app.py:1699 | cleaning works line by line and keeps the order |
| Reforms.BlankTextAddsNothing | app.py:1699 | whitespace-only lines contribute nothing |
| Reforms.CustomReforms | app.py:1697-1700 | each custom entry is non-empty, stripped and free of newlines; every non-blank line appears; at most one entry per line |
| Reforms.Selected | app.py:1667-1700 | for any option list (Section D passes its fourteen fixed options, see `SelectedReforms`): the ticked options come first in option order, then the custom lines; an entry is present iff it is a ticked option or a custom line |
| Reforms.NothingTicked | app.py:1685-1700 | with nothing ticked the list is exactly the custom lines |
| Reforms.NothingSelected | app.py:1685-1700 | nothing ticked and a blank text box give an empty list |
| Analytics.RowEntries | analytics_dashboard.py:48-54 | one entry per decoded procedure, in list order, each stamped with the row's id, name, district, sector and size |
| Analytics.FlattenFromRows | analytics_dashboard.py:44-54 | every flattened entry is a procedure of some row, stamped with that row |
| Analytics.FlattenAppend | analytics_dashboard.py:44-54 | flattening works row by row, in row order |
| Analytics.FlattenCount | analytics_dashboard.py:44-54 | the flattened table has exactly as many entries as the decoded lists together |
| Analytics.FlattenComplete | analytics_dashboard.py:44-54 | every decoded procedure of every row appears in the flattened table |
| Analytics.BlankRowContributesNothing | analytics_dashboard.py:45-56 | a row whose list is missing, `null`, `[]` or undecodable adds nothing and does not disturb the others |
| Analytics.GetAnalyticsDataIntended | analytics_dashboard.py:39-56 | exactly the submitted rows; each procedure comes from a submitted row |
| Analytics.GetAnalyticsData | analytics_dashboard.py:34-63 | only submitted rows and their procedures; every submitted row is returned when no submitted row is malformed |
| Analytics.AsWrittenAgreesWithoutMalformed | analytics_dashboard.py:34-60 | without a malformed submitted row, the as-written and intended readings agree |
| Analytics.MalformedRowHidesOthers | analytics_dashboard.py:34-63 | one malformed submitted row empties the whole result, while the intended reading still returns the good row's procedure |
| Analytics.GroupSize | analytics_dashboard.py:72-83 | a procedure's group has as many entries as the table has entries with that name |
| Analytics.GroupEntry | analytics_dashboard.py:75-87 | one matrix row: its frequency is the number of entries with the name; the authority is that of the first such entry; the official fee, time, complexity, preparation and waiting averages are the NaN-skipping means of those columns over the entries with the name, and so are the unofficial and combined averages when the table has an `unofficial_payments` column; each average is NaN iff no entry of the group has the value; without that column the unofficial average is 0; the mode is a value of the group that no other value outnumbers; an empty group gives 'Unknown' |
| Analytics.GroupAuthority | analytics_dashboard.py:77 | the authority of the table's first entry with the name, 'Unknown' for none |
| Analytics.GroupMean | analytics_dashboard.py:78-85 | a group average is NaN iff no entry of the group has the value; otherwise it times the number of values present equals their sum; a value every entry has gives an average iff the group is non-empty |
| Analytics.GroupMode | analytics_dashboard.py:86 | the group's most frequent application mode, 'Unknown' for an empty group |
| Analytics.MissingColumnTotal | analytics_dashboard.py:79-80 | without an `unofficial_payments` column, a group's total average is present iff the table's first entry is in the group and has a fee, and then it is that fee |
| Analytics.GroupMeanWithin | analytics_dashboard.py:78-85 | any group average lies between any bounds that every value of that column in the group keeps |
| Analytics.GroupFeeWithin | analytics_dashboard.py:78 | a matrix row's average official fee lies between any bounds that every fee of the group keeps |
| Analytics.ProcedureNames | analytics_dashboard.py:72-74 | the group keys are pairwise distinct, and a name is a key iff some entry carries it |
| Analytics.Mean | analytics_dashboard.py:78-85 | the mean is NaN iff every value is NaN; otherwise it times the number of values present equals their sum |
| Analytics.MeanWithin | analytics_dashboard.py:78-85 | a mean lies within any bounds of the values present |
| Analytics.Mode | analytics_dashboard.py:86 | the mode occurs in the column, no value is more frequent, and a tie goes to the smallest text |
| Analytics.SortByAvgTotal | analytics_dashboard.py:90 | a permutation of the rows, non-increasing by average total cost, NaN last |
| Analytics.EntryForName | analytics_dashboard.py:75-83 | a group's row is about that procedure, and its frequency is the procedure's count |
| Analytics.CreateComplianceMatrix | analytics_dashboard.py:65-90 | an empty table gives an empty matrix; one row per distinct name; every procedure has a row; every row is the group row of its name (frequency, authority, means and mode as for one group); sorted by average total cost, NaN last |
| Analytics.FrequenciesSumToCount | analytics_dashboard.py:72-83 | the frequencies sum to the size of the flattened table |
| Analytics.Sectors | analytics_dashboard.py:99 | each sector value once, NULL included, and exactly the values some row carries |
| Analytics.SectorBusinesses | analytics_dashboard.py:99-104 | a sector has businesses iff it is not NULL and some row carries it |
| Analytics.FirstMaxFee | analytics_dashboard.py:114 | NaN iff every fee is NaN; otherwise the first entry with the largest fee |
| Analytics.SectorEntryFor | analytics_dashboard.py:99-115 | a sector row exists iff the sector has businesses; its count is that positive number, procedures per business times that count is the sector's number of procedures, the three averages are the means over the sector's businesses, and the two named procedures are those of the sector's procedures |
| Analytics.MostCommonProcedure | analytics_dashboard.py:113 | 'None' for a sector without procedures; otherwise a name of one of its procedures that no other name outnumbers, the smallest text among equally frequent names |
| Analytics.HighestCostProcedure | analytics_dashboard.py:114 | 'None' for a sector without procedures; otherwise no name exactly when every official fee is NaN, and else the name of the first entry carrying the highest fee |
| Analytics.CreateSectorAnalysis | analytics_dashboard.py:92-117 | empty if either frame is empty; exactly one row per non-NULL sector present; positive counts; procedures per business, averages and named procedures as for one sector |
| Analytics.SectorRiskWithin | analytics_dashboard.py:111 | a sector's average risk stays within any bounds every row's risk keeps |
| Analytics.SectorCostWithin | analytics_dashboard.py:109 | a sector's average total cost stays within any bounds every row's total cost keeps |
| Analytics.SectorTimeWithin | analytics_dashboard.py:110 | a sector's average total time stays within any bounds every row's total time keeps |
| Analytics.MatrixCountsEverySubmittedProcedure | analytics_dashboard.py:28-90 | the matrix frequencies add up to the number of procedures recorded in submitted interviews |

## Left out

- Streamlit rendering, forms, reruns and session plumbing. The form data, section, user, clock and generated ids are parameters instead.
- Database connections, schema creation and migrations, `ensure_table_exists`, and the admin, session and edit logging tables. These are I/O or side effects without a behavioural contract. The model assumes that the table exists.
- Login, credentials, exports (CSV, Excel, JSON) and the Plotly charts. These are presentation.
- Wall-clock generation of interview ids and their collisions (app.py:564-566). A fresh id is a parameter.
- Concurrency and last-write-wins races. The code does not guard against them.
- The split between the SQLite Cloud database and the local SQLite file. The model assumes that both sides see one shared table; with two separate databases, drafts saved by the interviewer side would not be visible to the draft manager, the editor or the analytics.
- Editor.UpdateInterview: a patch naming status, isic_codes, reform_priorities, created_by, current_section, draft_progress or submission_date would succeed in the code. The model reports it as malformed, because none of the editor's screens sends such a key (interview_editor.py:294, 397, 497, 515).
- Interviews.FormBusinessName: a business name that is a number would be compared by SQLite as text. The model treats it as matching no row; neither the form nor a loaded TEXT column produces one.
- JsonColumns.DecodeOrEmpty: a column holding a JSON string decodes in Python to a str, not a list, in the draft and editor readers; the model reads such a column as the empty list. The analytics query differs: `json_extract(procedure_data, '$')` strips the string's quotes, so `json.loads` at analytics_dashboard.py:47 would decode a quoted list. The application never writes a quoted procedure_data (only reform_priorities can be quoted, after a draft load), so Analytics.RowEntries reads only lists. Drafts.LoadDraftIntended likewise decodes a quoted reform column as the empty list.
- ProcedureEntry.ManagerEditProcedure: the edit form is filled from the entry itself (app.py:1539-1544), and Streamlit raises before the form appears when the complexity lies outside the slider's 1-5, as for the Construction templates (complexity 7 and 6, app.py:1309-1314), or when the official fee is a Python int, as for every bulk-added template (app.py:1415, 1456), because `number_input` refuses an int value next to the float `min_value=0.0`. The model has no int/float distinction and no widget bounds; it applies the edit as if the form had appeared.
- Editor.EditSingleProcedure: the slider at interview_editor.py:476-482 likewise raises for a stored complexity outside 1-5, and the exception escapes `edit_compliance_procedures` (interview_editor.py:204). The model applies the edit regardless. The fee field converts with `float(...)` and does not raise.
- The truncated tail of analytics_dashboard.py from line 343. That part is not part of this model.
- `get_all_drafts` and `load_draft` as separate admin views. They are the unfiltered draft list and the row lookup inside `LoadDraft`.
- ProcedureEntry.BulkProcedure: the percentage adjustments of the bulk form are floating point (`base * (1 + pct / 100)` and `int(...)`, app.py:1366-1370). Their results are parameters, `adjustedCost` and `truncatedDays`.
- ProcedureEntry.SectorTemplateProcedure: the `.get(..., 30)`, `.get(..., 0)` and `.get(..., 3)` defaults of the templates never apply, because every template has those keys. They are not modelled.
- Drafts.LoadDraft: the `'A'` default of `current_section` never applies, because the row always has that column.
- Floating-point rounding in sums and pandas means is not modelled: money and averages are exact reals.
- Drafts.GetUserDrafts: rows with equal timestamps come back from SQLite in an unspecified order. The model keeps scan order, so its contract states the permutation and the ordering, and fixes nothing about ties.
- Editor.GetSubmittedInterviews: as for Drafts.GetUserDrafts, ties in submission date are unspecified in SQLite and kept in scan order here.
- Analytics.SortByAvgTotal: pandas' default sort is not stable, and `groupby` orders the groups by name first. The model keeps groups in order of first appearance and sorts stably. The contract states only what holds either way.
- Analytics.CreateComplianceMatrix: when no flattened procedure carries `official_fees`, pandas raises a KeyError. The model treats a missing fee as NaN for every entry. When no entry carries `unofficial_payments`, the `Series([0])` fallback aligns by index; `MissingColumnTotal` models this.
- Analytics.FirstMaxFee: `idxmax` on an all-NaN column raises in recent pandas. The model returns `None`, recorded as no highest-cost procedure.
- Analytics.Sectors: sector values are compared with the model's equality on scalars. Python's cross-type equality, such as `1 == 1.0`, is not modelled.
- Analytics.Sectors: the order of the sectors is not stated. pandas' `unique()` keeps the order of first appearance, and so does the model's definition, but the contract promises only that each present value appears once.
- Analytics.HighestCostProcedure: when every official fee of a non-empty sector is NaN, `idxmax` raises in recent pandas (older versions return NaN and the following `.loc` raises). The model returns no name (`None`) for that case instead of modelling the exception.
- Metrics.RiskScore: the code clamps only from above. The model follows the code and states `>= 0` only for non-negative cost and time.

## Findings

| source | as written | input that shows it | evidently intended | confidence | as-written member | corrected member |
|---|---|---|---|---|---|---|
| draft_manager.py:203-233 | `load_draft_into_session` puts no 'procedure_data' or 'isic_codes' key in the form and leaves the reform column's raw text there; `save_draft` then writes `data.get('procedure_data', [])`, `data.get('isic_codes', [])` and `json.dumps` of that text (app.py:373, 385-386) | load a draft with two procedures and a reform list `["a"]`, then press "Save Section C": the row's procedure_data becomes `[]`, its totals 0, its isic_codes `[]`, and its reform_priorities the JSON string `"[\"a\"]"` | the load puts the decoded procedure, ISIC and reform lists into the form, so that a save writes back what was stored | medium, not executed | Interviews.ReloadedSaveLosesLists with Drafts.LoadDraft (shown by Interviews.ReloadedSaveDropsProcedures) | Drafts.LoadDraftIntended (proved by Interviews.ReloadedSaveKeepsLists) |
| analytics_dashboard.py:34-40 | the query evaluates `json_extract(r.procedure_data, '$')` for every submitted row; SQLite raises on text that is not JSON, so the outer handler returns two empty frames and the per-row `try ... except: continue` (lines 46-56) never runs | two submitted rows: one whose `procedure_data` is `[{...one procedure...}]`, one whose `procedure_data` is text that is not JSON | skip the malformed row, return every submitted row, and return the good row's procedure | medium, not executed | Analytics.GetAnalyticsData (shown by Analytics.MalformedRowHidesOthers) | Analytics.GetAnalyticsDataIntended (used by Analytics.MatrixCountsEverySubmittedProcedure) |

=== FILE: analytics.dfy ===
/**
 The analytics side of the survey (`ComplianceAnalytics` in
 analytics_dashboard.py): the submitted interviews, their procedure lists
 flattened into one table with each procedure stamped with its interview's
 identity and profile, the per-procedure compliance matrix, and the per-sector
 summary.

 A pandas NaN (a missing key in a decoded procedure, the mean of nothing) is
 `None` here.
 */
module Analytics {
  import opened Basics
  import opened JsonColumns
  import opened Records
  import opened Sequences

  /** One row of `procedures_df`: a decoded procedure plus the five parent columns copied into it. */
  datatype Annotated = Annotated(
    proc: Procedure,
    interviewId: string,
    businessName: Scalar,
    district: Scalar,
    primarySector: Scalar,
    businessSize: Scalar)

  function Annotate(r: Row, p: Procedure): Annotated {
    Annotated(p, r.interviewId, Field(r, "business_name"), Field(r, "district"),
      Field(r, "primary_sector"), Field(r, "business_size"))
  }

  /** `a` is one of `r`'s procedures, carrying `r`'s interview id, business name, district, sector and size. */
  ghost predicate FromRow(a: Annotated, r: Row) {
    a.proc in DecodeOrEmpty(r.procedureData) && a == Annotate(r, a.proc)
  }

  /**
   What one row adds to `procedures_data`: its decoded list in list order. An
   empty, 'null' or '[]' column adds nothing.
   */
  function RowEntries(r: Row): (es: seq<Annotated>)
    ensures |es| == |DecodeOrEmpty(r.procedureData)|
    ensures forall k :: 0 <= k < |es| ==> es[k].proc == DecodeOrEmpty(r.procedureData)[k] && FromRow(es[k], r)
  {
    Map(DecodeOrEmpty(r.procedureData), (p: Procedure) => Annotate(r, p))
  }

  /** The flattening loop of `get_analytics_data`: row order, then list order. */
  function Flatten(rows: seq<Row>): seq<Annotated> {
    Concat(rows, RowEntries)
  }

  /** Every flattened entry is a procedure of one of the rows, stamped with that row. */
  lemma FlattenFromRows(rows: seq<Row>)
    ensures forall k :: 0 <= k < |Flatten(rows)| ==> exists i :: 0 <= i < |rows| && FromRow(Flatten(rows)[k], rows[i])
  {
    var flat := Flatten(rows);
    forall k | 0 <= k < |flat| ensures exists i :: 0 <= i < |rows| && FromRow(flat[k], rows[i]) {
      ConcatFrom(rows, RowEntries, k);
      var i, j :| 0 <= i < |rows| && 0 <= j < |RowEntries(rows[i])| && flat[k] == RowEntries(rows[i])[j];
      assert FromRow(RowEntries(rows[i])[j], rows[i]);
    }
  }

  /** Flattening works row by row. */
  lemma FlattenAppend(a: seq<Row>, b: seq<Row>)
    ensures Flatten(a + b) == Flatten(a) + Flatten(b)
  {
    ConcatAppend(a, b, RowEntries);
  }

  /** The number of procedures a row's column decodes to. */
  function ProcCount(r: Row): int {
    |DecodeOrEmpty(r.procedureData)|
  }

  /** The flattened table has exactly as many entries as the decoded lists together. */
  lemma {:induction false} FlattenCount(rows: seq<Row>)
    ensures |Flatten(rows)| == SumInt(rows, ProcCount)
  {
    if rows != [] {
      FlattenCount(rows[1..]);
    }
  }

  /** Every decoded procedure of every row is in the flattened table, stamped with that row. */
  lemma {:induction false} FlattenComplete(rows: seq<Row>, r: Row, p: Procedure)
    requires r in rows && p in DecodeOrEmpty(r.procedureData)
    ensures Annotate(r, p) in Flatten(rows)
  {
    var head := RowEntries(rows[0]);
    if r == rows[0] {
      var k :| 0 <= k < |DecodeOrEmpty(r.procedureData)| && DecodeOrEmpty(r.procedureData)[k] == p;
      assert head[k] == Annotate(r, p);
    } else {
      assert r in rows[1..];
      FlattenComplete(rows[1..], r, p);
      var k :| 0 <= k < |Flatten(rows[1..])| && Flatten(rows[1..])[k] == Annotate(r, p);
      assert Flatten(rows)[|head| + k] == Annotate(r, p);
    }
  }

  /** A row whose column is missing, 'null', '[]' or undecodable contributes nothing and leaves the others as they are. */
  lemma BlankRowContributesNothing(a: seq<Row>, r: Row, b: seq<Row>)
    requires DecodeOrEmpty(r.procedureData) == []
    ensures Flatten(a + [r] + b) == Flatten(a + b)
  {
    assert RowEntries(r) == [];
    ConcatSkipEmpty(a, r, b, RowEntries);
  }

  /** `WHERE r.status = 'submitted'` */
  predicate IsSubmitted(r: Row) {
    r.status == Submitted
  }

  /** The two frames `get_analytics_data` returns: the submitted rows and the flattened procedures. */
  datatype AnalyticsData = AnalyticsData(rows: seq<Row>, procedures: seq<Annotated>)

  /**
   `get_analytics_data` as its per-row `try ... except: continue` intends:
   every submitted row, and the procedures of every submitted row whose column
   decodes, a malformed column contributing nothing.
   */
  function GetAnalyticsDataIntended(table: seq<Row>): (d: AnalyticsData)
    ensures forall i :: 0 <= i < |d.rows| ==> d.rows[i] in table && d.rows[i].status == Submitted
    ensures forall i :: 0 <= i < |table| && table[i].status == Submitted ==> table[i] in d.rows
    ensures forall k :: 0 <= k < |d.procedures| ==>
      exists r :: r in table && r.status == Submitted && FromRow(d.procedures[k], r)
  {
    var rows := Filter(table, IsSubmitted);
    var flat := Flatten(rows);
    FlattenFromRows(rows);
    assert forall k :: 0 <= k < |flat| ==> exists r :: r in table && r.status == Submitted && FromRow(flat[k], r) by {
      forall k | 0 <= k < |flat| ensures exists r :: r in table && r.status == Submitted && FromRow(flat[k], r) {
        var i :| 0 <= i < |rows| && FromRow(flat[k], rows[i]);
        assert rows[i] in table && IsSubmitted(rows[i]);
      }
    }
    AnalyticsData(rows, flat)
  }

  /** Some row's procedure column is text that is not JSON. */
  predicate HasMalformed(rows: seq<Row>) {
    exists i :: 0 <= i < |rows| && rows[i].procedureData.Malformed?
  }

  /**
   `get_analytics_data` as written: the query itself evaluates
   `json_extract(r.procedure_data, '$')` for every submitted row, and SQLite
   raises on text that is not JSON, so one malformed submitted row fails the
   whole query and the outer handler returns two empty frames.
   */
  function GetAnalyticsData(table: seq<Row>): (d: AnalyticsData)
    ensures forall i :: 0 <= i < |d.rows| ==> d.rows[i] in table && d.rows[i].status == Submitted
    ensures forall k :: 0 <= k < |d.procedures| ==>
      exists r :: r in table && r.status == Submitted && FromRow(d.procedures[k], r)
    ensures !HasMalformed(Filter(table, IsSubmitted)) ==>
      forall i :: 0 <= i < |table| && table[i].status == Submitted ==> table[i] in d.rows
  {
    if HasMalformed(Filter(table, IsSubmitted)) then AnalyticsData([], [])
    else GetAnalyticsDataIntended(table)
  }

  /** Without a malformed submitted row the query succeeds and both readings agree. */
  lemma AsWrittenAgreesWithoutMalformed(table: seq<Row>)
    requires forall i :: 0 <= i < |table| && table[i].status == Submitted ==> !table[i].procedureData.Malformed?
    ensures GetAnalyticsData(table) == GetAnalyticsDataIntended(table)
  {
    var rows := Filter(table, IsSubmitted);
    forall i | 0 <= i < |rows| ensures !rows[i].procedureData.Malformed? {
      var j :| 0 <= j < |table| && table[j] == rows[i];
    }
  }

  /**
   One malformed submitted row hides every other interview: with a good
   submitted row holding one procedure next to it, the as-written reading
   returns nothing while the intended one returns that procedure.
   */
  lemma MalformedRowHidesOthers(good: Row, bad: Row, p: Procedure)
    requires good.status == Submitted && good.procedureData == EncodedList([p])
    requires bad.status == Submitted && bad.procedureData.Malformed?
    ensures GetAnalyticsData([good, bad]) == AnalyticsData([], [])
    ensures GetAnalyticsDataIntended([good, bad]).procedures == [Annotate(good, p)]
  {
    var rows := Filter([good, bad], IsSubmitted);
    assert rows == [good, bad] by {
      assert [good, bad][1..] == [bad];
      assert Filter([bad], IsSubmitted) == [bad] + Filter([], IsSubmitted);
    }
    assert rows[1].procedureData.Malformed?;
    assert Flatten(rows) == RowEntries(good) + Flatten([bad]) by {
      assert rows[1..] == [bad];
    }
    assert Flatten([bad]) == RowEntries(bad) + Flatten([bad][1..]);
  }

  // create_compliance_matrix

  /** Some entry of `xs` is a procedure called `name`. */
  ghost predicate NameOccurs(xs: seq<Annotated>, name: string) {
    exists k :: 0 <= k < |xs| && xs[k].proc.name == name
  }

  function Named(name: string): Annotated -> bool {
    (e: Annotated) => e.proc.name == name
  }

  /** `procedures_df.groupby('procedure')`'s group for `name`: its entries in table order. */
  function Group(flat: seq<Annotated>, name: string): seq<Annotated> {
    Filter(flat, Named(name))
  }

  /** Reference count of the entries called `name`, taken from the back. */
  function CountName(xs: seq<Annotated>, name: string): nat {
    if xs == [] then 0
    else CountName(xs[..|xs| - 1], name) + (if xs[|xs| - 1].proc.name == name then 1 else 0)
  }

  /** A group holds every entry with its name and nothing else, so its size is the count. */
  lemma {:induction false} GroupSize(xs: seq<Annotated>, name: string)
    ensures |Group(xs, name)| == CountName(xs, name)
  {
    if xs != [] {
      var ys, x := xs[..|xs| - 1], xs[|xs| - 1];
      GroupSize(ys, name);
      assert xs == ys + [x];
      FilterAppend(ys, [x], Named(name));
      assert [x][1..] == [];
    }
  }

  lemma {:induction false} CountNamePositive(xs: seq<Annotated>, name: string)
    requires NameOccurs(xs, name)
    ensures CountName(xs, name) > 0
  {
    var ys := xs[..|xs| - 1];
    if xs[|xs| - 1].proc.name != name {
      var k :| 0 <= k < |xs| && xs[k].proc.name == name;
      assert ys[k].proc.name == name;
      CountNamePositive(ys, name);
    }
  }

  /** The distinct procedure names of `xs`, in order of first appearance. */
  function ProcedureNames(xs: seq<Annotated>): (names: seq<string>)
    ensures forall i, j :: 0 <= i < j < |names| ==> names[i] != names[j]
    ensures forall n :: n in names <==> NameOccurs(xs, n)
  {
    if xs == [] then []
    else
      var ys := xs[..|xs| - 1];
      var d := ProcedureNames(ys);
      var last := xs[|xs| - 1].proc.name;
      assert forall n :: NameOccurs(xs, n) <==> n == last || NameOccurs(ys, n) by {
        forall n ensures NameOccurs(xs, n) <==> n == last || NameOccurs(ys, n) {
          if NameOccurs(ys, n) {
            var k :| 0 <= k < |ys| && ys[k].proc.name == n;
            assert xs[k] == ys[k];
          }
          if NameOccurs(xs, n) && n != last {
            var k :| 0 <= k < |xs| && xs[k].proc.name == n;
            assert ys[k] == xs[k];
          }
        }
      }
      if last in d then d else d + [last]
  }

  /** Sum of a list of amounts. */
  function Sum(xs: seq<real>): real {
    if xs == [] then 0.0 else xs[0] + Sum(xs[1..])
  }

  function Average(xs: seq<real>): real
    requires xs != []
  {
    Sum(xs) / |xs| as real
  }

  lemma {:induction false} SumWithin(xs: seq<real>, lo: real, hi: real)
    requires forall i :: 0 <= i < |xs| ==> lo <= xs[i] <= hi
    ensures lo * |xs| as real <= Sum(xs) <= hi * |xs| as real
  {
    if xs != [] {
      SumWithin(xs[1..], lo, hi);
    }
  }

  /** An average lies between any lower and upper bound of what it averages. */
  lemma AverageWithin(xs: seq<real>, lo: real, hi: real)
    requires xs != []
    requires forall i :: 0 <= i < |xs| ==> lo <= xs[i] <= hi
    ensures lo <= Average(xs) <= hi
  {
    SumWithin(xs, lo, hi);
    var n := |xs| as real;
    var a := Average(xs);
    assert a * n == Sum(xs);
    ScaleBelow(lo, a, n);
    ScaleBelow(a, hi, n);
  }

  /** Dividing by a positive count keeps the order: `x * n <= y * n` gives `x <= y`. */
  lemma ScaleBelow(x: real, y: real, n: real)
    requires n > 0.0 && x * n <= y * n
    ensures x <= y
  {
    assert (y - x) * n >= 0.0;
  }

  /** The values that are not NaN, in order. */
  function Present(xs: seq<Option<real>>): (vs: seq<real>)
    ensures forall v :: v in vs <==> Some(v) in xs
  {
    if xs == [] then []
    else
      var rest := Present(xs[1..]);
      assert xs == [xs[0]] + xs[1..];
      match xs[0]
      case Some(v) => [v] + rest
      case None => rest
  }

  /** `a` is the mean of the non-empty `vs`: `a` times their number is their sum. */
  ghost predicate MeanOf(a: real, vs: seq<real>) {
    vs != [] && a * |vs| as real == Sum(vs)
  }

  /** pandas `Series.mean()`: NaN values are skipped, and the mean of nothing is NaN. */
  function Mean(xs: seq<Option<real>>): (m: Option<real>)
    ensures m.None? <==> forall i :: 0 <= i < |xs| ==> xs[i].None?
    ensures m.Some? ==> MeanOf(m.value, Present(xs))
  {
    var vs := Present(xs);
    assert vs == [] <==> forall i :: 0 <= i < |xs| ==> xs[i].None? by {
      if vs != [] {
        assert Some(vs[0]) in xs;
      }
      if exists i :: 0 <= i < |xs| && xs[i].Some? {
        var i :| 0 <= i < |xs| && xs[i].Some?;
        assert xs[i].value in vs;
      }
    }
    if vs == [] then None
    else
      assert MeanOf(Average(vs), vs);
      Some(Average(vs))
  }

  /** A mean lies within any bounds of the values that are present. */
  lemma MeanWithin(xs: seq<Option<real>>, lo: real, hi: real)
    requires forall i :: 0 <= i < |xs| && xs[i].Some? ==> lo <= xs[i].value <= hi
    ensures Mean(xs).Some? ==> lo <= Mean(xs).value <= hi
  {
    var vs := Present(xs);
    if vs != [] {
      forall i | 0 <= i < |vs| ensures lo <= vs[i] <= hi {
        assert Some(vs[i]) in xs;
      }
      AverageWithin(vs, lo, hi);
    }
  }

  /** Python's `<=` on texts: code point by code point, a proper prefix first. */
  predicate TextLe(a: string, b: string) {
    a == [] || (b != [] && (a[0] < b[0] || (a[0] == b[0] && TextLe(a[1..], b[1..]))))
  }

  lemma {:induction false} TextLeReflexive(a: string)
    ensures TextLe(a, a)
  {
    if a != [] {
      TextLeReflexive(a[1..]);
    }
  }

  lemma {:induction false} TextLeTotal(a: string, b: string)
    ensures TextLe(a, b) || TextLe(b, a)
  {
    if a != [] && b != [] && a[0] == b[0] {
      TextLeTotal(a[1..], b[1..]);
    }
  }

  lemma {:induction false} TextLeTransitive(a: string, b: string, c: string)
    requires TextLe(a, b) && TextLe(b, c)
    ensures TextLe(a, c)
  {
    if a != [] && a[0] == b[0] && b[0] == c[0] {
      TextLeTransitive(a[1..], b[1..], c[1..]);
    }
  }

  /** `a` is at least as good a mode as `b` in `xs`: more frequent, or as frequent and not larger. */
  predicate Precedes(xs: seq<string>, a: string, b: string) {
    Count(xs, a) > Count(xs, b) || (Count(xs, a) == Count(xs, b) && TextLe(a, b))
  }

  /** The best mode candidate among `cands`. */
  function PickMode(xs: seq<string>, cands: seq<string>): (m: string)
    requires cands != []
    ensures m in cands
    ensures forall c :: c in cands ==> Precedes(xs, m, c)
  {
    if |cands| == 1 then
      TextLeReflexive(cands[0]);
      cands[0]
    else
      var first := cands[0];
      var b := PickMode(xs, cands[1..]);
      assert forall c :: c in cands ==> c == first || c in cands[1..] by {
        forall c | c in cands ensures c == first || c in cands[1..] {
          var j :| 0 <= j < |cands| && cands[j] == c;
          if j > 0 {
            assert cands[1..][j - 1] == c;
          }
        }
      }
      if Precedes(xs, first, b) then
        assert forall c :: c in cands ==> Precedes(xs, first, c) by {
          forall c | c in cands ensures Precedes(xs, first, c) {
            if c == first {
              TextLeReflexive(c);
            } else if Count(xs, first) == Count(xs, b) && Count(xs, b) == Count(xs, c) {
              TextLeTransitive(first, b, c);
            }
          }
        }
        first
      else
        TextLeTotal(first, b);
        b
  }

  /**
   `series.mode().iloc[0]`: the most frequent value; `mode()` lists tied values
   in ascending order, so a tie goes to the smallest text.
   */
  function Mode(xs: seq<string>): (m: string)
    requires xs != []
    ensures m in xs
    ensures forall y :: y in xs ==> Count(xs, y) <= Count(xs, m)
    ensures forall y :: y in xs && Count(xs, y) == Count(xs, m) ==> TextLe(m, y)
  {
    PickMode(xs, xs)
  }

  /** One row of the compliance matrix; `None` is a NaN cell. */
  datatype MatrixEntry = MatrixEntry(
    procedure: string,
    authority: string,
    avgOfficialCost: Option<real>,
    avgUnofficialCost: Option<real>,
    avgTotalCost: Option<real>,
    avgTimeDays: Option<real>,
    avgComplexity: Option<real>,
    frequency: nat,
    avgPrepDays: Option<real>,
    avgWaitDays: Option<real>,
    mostCommonMode: string)

  function OfficialFees(e: Annotated): Option<real> { e.proc.officialFees }
  function UnofficialPayments(e: Annotated): Option<real> { e.proc.unofficialPayments }
  function TotalDays(e: Annotated): Option<real> {
    match e.proc.totalDays
    case Some(d) => Some(d as real)
    case None => None
  }
  function Complexity(e: Annotated): Option<real> { Some(e.proc.complexity as real) }
  function PrepDays(e: Annotated): Option<real> { Some(e.proc.prepDays as real) }
  function WaitDays(e: Annotated): Option<real> { Some(e.proc.waitDays as real) }
  function ApplicationMode(e: Annotated): string { e.proc.applicationMode }

  /** `official_fees + unofficial_payments` of one entry, NaN when either is. */
  function CombinedCost(e: Annotated): Option<real> {
    if e.proc.officialFees.Some? && e.proc.unofficialPayments.Some? then
      Some(e.proc.officialFees.value + e.proc.unofficialPayments.value)
    else None
  }

  /** `procedures_df` has an 'unofficial_payments' column: some entry carries the key. */
  predicate UnofficialColumn(flat: seq<Annotated>) {
    exists k :: 0 <= k < |flat| && flat[k].proc.unofficialPayments.Some?
  }

  /**
   `group.get('unofficial_payments', pd.Series([0]))` when the column is absent
   from the whole table: a one-element series at index 0, which pandas aligns
   with the group by index, so only the table's first entry, when it is in the
   group, gets a total; every other entry's total is NaN.
   */
  function MissingColumnTotal(flat: seq<Annotated>, name: string): (t: Option<real>)
    ensures t.Some? <==> flat != [] && flat[0].proc.name == name && flat[0].proc.officialFees.Some?
    ensures t.Some? ==> t.value == flat[0].proc.officialFees.value
  {
    if flat != [] && flat[0].proc.name == name then
      MeanOfOne(OfficialFees(flat[0]));
      Mean([OfficialFees(flat[0])])
    else None
  }

  /** The group's first entry in table order carries the authority `auth`. */
  ghost predicate FirstAuthority(flat: seq<Annotated>, name: string, auth: string) {
    exists k :: 0 <= k < |flat| && flat[k].proc.name == name && flat[k].proc.authority == auth
      && (forall j :: 0 <= j < k ==> flat[j].proc.name != name)
  }

  /** No entry of the group has a value under `f`: pandas' mean of it is NaN. */
  ghost predicate AllMissing(flat: seq<Annotated>, name: string, f: Annotated -> Option<real>) {
    forall k :: 0 <= k < |flat| && flat[k].proc.name == name ==> f(flat[k]).None?
  }

  /**
   Each average of the row is pandas' NaN-skipping mean of that column over the
   entries named `name`; the two payment averages only when the table has an
   `unofficial_payments` column.
   */
  ghost predicate GroupColumnMeans(flat: seq<Annotated>, name: string, e: MatrixEntry) {
    var g := Group(flat, name);
    && e.avgOfficialCost == Mean(Map(g, OfficialFees))
    && e.avgTimeDays == Mean(Map(g, TotalDays))
    && e.avgComplexity == Mean(Map(g, Complexity))
    && e.avgPrepDays == Mean(Map(g, PrepDays))
    && e.avgWaitDays == Mean(Map(g, WaitDays))
    && (UnofficialColumn(flat) ==>
          && e.avgUnofficialCost == Mean(Map(g, UnofficialPayments))
          && e.avgTotalCost == Mean(Map(g, CombinedCost)))
  }

  /**
   The matrix row of one group, with the code's 'Unknown' fallbacks for an
   empty group: the authority of the group's first entry, NaN-skipping means,
   a frequency equal to the number of entries with that name, and the group's
   most frequent application mode.
   */
  function GroupEntry(flat: seq<Annotated>, name: string): (e: MatrixEntry)
    ensures e.procedure == name
    ensures e.frequency == CountName(flat, name)
    ensures e.frequency > 0 ==> FirstAuthority(flat, name, e.authority)
    ensures e.frequency == 0 ==> e.authority == "Unknown" && e.mostCommonMode == "Unknown"
    ensures e.avgOfficialCost.None? <==> AllMissing(flat, name, OfficialFees)
    ensures e.avgTimeDays.None? <==> AllMissing(flat, name, TotalDays)
    ensures GroupColumnMeans(flat, name, e)
    ensures e.avgComplexity.Some? && e.avgPrepDays.Some? && e.avgWaitDays.Some? <==> e.frequency > 0
    ensures UnofficialColumn(flat) ==> (e.avgUnofficialCost.None? <==> AllMissing(flat, name, UnofficialPayments))
    ensures UnofficialColumn(flat) ==> (e.avgTotalCost.None? <==> AllMissing(flat, name, CombinedCost))
    ensures !UnofficialColumn(flat) ==> e.avgUnofficialCost == Some(0.0)
    ensures !UnofficialColumn(flat) ==> e.avgTotalCost == MissingColumnTotal(flat, name)
    ensures e.frequency > 0 ==>
      var modes := Map(Group(flat, name), ApplicationMode);
      && e.mostCommonMode in modes
      && forall y :: y in modes ==> Count(modes, y) <= Count(modes, e.mostCommonMode)
  {
    GroupSize(flat, name);
    MatrixEntry(
      name,
      GroupAuthority(flat, name),
      GroupMean(flat, name, OfficialFees),
      if UnofficialColumn(flat) then GroupMean(flat, name, UnofficialPayments) else Some(0.0),
      if UnofficialColumn(flat) then GroupMean(flat, name, CombinedCost) else MissingColumnTotal(flat, name),
      GroupMean(flat, name, TotalDays),
      GroupMean(flat, name, Complexity),
      |Group(flat, name)|,
      GroupMean(flat, name, PrepDays),
      GroupMean(flat, name, WaitDays),
      GroupMode(flat, name))
  }

  /** `group['authority'].iloc[0]`: the authority of the group's first entry. */
  function GroupAuthority(flat: seq<Annotated>, name: string): (a: string)
    ensures Group(flat, name) != [] ==> FirstAuthority(flat, name, a)
    ensures Group(flat, name) == [] ==> a == "Unknown"
  {
    var g := Group(flat, name);
    if g != [] then
      GroupHead(flat, name);
      g[0].proc.authority
    else "Unknown"
  }

  /** pandas' NaN-skipping mean of one column over the group. */
  function GroupMean(flat: seq<Annotated>, name: string, f: Annotated -> Option<real>): (m: Option<real>)
    ensures m.None? <==> AllMissing(flat, name, f)
    ensures (forall x :: f(x).Some?) ==> (m.Some? <==> Group(flat, name) != [])
    ensures m.Some? ==> MeanOf(m.value, Present(Map(Group(flat, name), f)))
  {
    var xs := Map(Group(flat, name), f);
    GroupMissing(flat, name, f);
    Mean(xs)
  }

  /** The group's most frequent application mode, 'Unknown' for an empty group. */
  function GroupMode(flat: seq<Annotated>, name: string): (m: string)
    ensures Group(flat, name) == [] ==> m == "Unknown"
    ensures Group(flat, name) != [] ==>
      var modes := Map(Group(flat, name), ApplicationMode);
      && m in modes
      && forall y :: y in modes ==> Count(modes, y) <= Count(modes, m)
  {
    var g := Group(flat, name);
    if g != [] then Mode(Map(g, ApplicationMode)) else "Unknown"
  }

  /** The mean of a single value is that value. */
  lemma MeanOfOne(x: Option<real>)
    ensures Mean([x]) == x
  {
    if x.Some? {
      assert Present([x]) == [x.value];
      assert Sum([x.value]) == x.value + Sum([]);
    }
  }

  /** The group's first entry is the table's first entry with that name. */
  lemma GroupHead(flat: seq<Annotated>, name: string)
    ensures Group(flat, name) != [] ==> FirstAuthority(flat, name, Group(flat, name)[0].proc.authority)
  {
    if Group(flat, name) != [] {
      FilterHead(flat, Named(name));
    }
  }

  /** A group's column is all NaN exactly when every entry with that name lacks the value. */
  lemma GroupMissing(flat: seq<Annotated>, name: string, f: Annotated -> Option<real>)
    ensures (forall i :: 0 <= i < |Group(flat, name)| ==> Map(Group(flat, name), f)[i].None?)
      <==> AllMissing(flat, name, f)
  {
    var g := Group(flat, name);
    if !AllMissing(flat, name, f) {
      var k :| 0 <= k < |flat| && flat[k].proc.name == name && f(flat[k]).Some?;
      assert Named(name)(flat[k]);
      var i :| 0 <= i < |g| && g[i] == flat[k];
      assert Map(g, f)[i].Some?;
    }
  }

  /** A group average lies between any bounds that every value of its column keeps. */
  lemma GroupMeanWithin(flat: seq<Annotated>, name: string, f: Annotated -> Option<real>, lo: real, hi: real)
    requires forall k :: 0 <= k < |flat| && flat[k].proc.name == name && f(flat[k]).Some? ==>
      lo <= f(flat[k]).value <= hi
    ensures GroupMean(flat, name, f).Some? ==> lo <= GroupMean(flat, name, f).value <= hi
  {
    var g := Group(flat, name);
    forall i | 0 <= i < |g| && Map(g, f)[i].Some?
      ensures lo <= Map(g, f)[i].value <= hi
    {
      var k :| 0 <= k < |flat| && flat[k] == g[i];
    }
    MeanWithin(Map(g, f), lo, hi);
  }

  /** Hence the average official fee of a matrix row lies between any bounds every fee of its group keeps. */
  lemma GroupFeeWithin(flat: seq<Annotated>, name: string, lo: real, hi: real)
    requires forall k :: 0 <= k < |flat| && flat[k].proc.name == name && flat[k].proc.officialFees.Some? ==>
      lo <= flat[k].proc.officialFees.value <= hi
    ensures GroupEntry(flat, name).avgOfficialCost.Some? ==> lo <= GroupEntry(flat, name).avgOfficialCost.value <= hi
  {
    GroupMeanWithin(flat, name, OfficialFees, lo, hi);
  }

  function EntryFor(flat: seq<Annotated>): string -> MatrixEntry {
    (name: string) => GroupEntry(flat, name)
  }

  function HasAvgTotal(e: MatrixEntry): bool { e.avgTotalCost.Some? }
  function AvgTotalKey(e: MatrixEntry): real { e.avgTotalCost.GetOr(0.0) }

  /** `sort_values('Avg_Total_Cost', ascending=False)`: non-increasing, NaN rows last. */
  ghost predicate ByAvgTotalDesc(m: seq<MatrixEntry>) {
    forall i, j :: 0 <= i < j < |m| && m[j].avgTotalCost.Some? ==>
      m[i].avgTotalCost.Some? && m[i].avgTotalCost.value >= m[j].avgTotalCost.value
  }

  /** The matrix sort; rows with equal averages may come out in any order in pandas and keep their order here. */
  function SortByAvgTotal(es: seq<MatrixEntry>): (m: seq<MatrixEntry>)
    ensures multiset(m) == multiset(es)
    ensures ByAvgTotalDesc(m)
  {
    SortDescMissingLast(es, HasAvgTotal, AvgTotalKey)
  }

  /**
   `create_compliance_matrix`: one row per distinct procedure name, sorted by
   average total cost, highest first and NaN last; an empty table gives an
   empty matrix.
   */
  function CreateComplianceMatrix(flat: seq<Annotated>): (m: seq<MatrixEntry>)
    ensures flat == [] ==> m == []
    ensures |m| == |ProcedureNames(flat)|
    ensures forall i :: 0 <= i < |m| ==> NameOccurs(flat, m[i].procedure)
    ensures forall k :: 0 <= k < |flat| ==> exists i :: 0 <= i < |m| && m[i].procedure == flat[k].proc.name
    ensures forall i :: 0 <= i < |m| ==> m[i].frequency == CountName(flat, m[i].procedure) > 0
    ensures forall i :: 0 <= i < |m| ==> m[i] == GroupEntry(flat, m[i].procedure)
    ensures ByAvgTotalDesc(m)
  {
    if flat == [] then []
    else
      var m := SortByAvgTotal(Map(ProcedureNames(flat), EntryFor(flat)));
      MatrixRows(flat, m);
      m
  }

  /** What any reordering of the per-name rows says about the names, frequencies and contents. */
  lemma MatrixRows(flat: seq<Annotated>, m: seq<MatrixEntry>)
    requires multiset(m) == multiset(Map(ProcedureNames(flat), EntryFor(flat)))
    ensures |m| == |ProcedureNames(flat)|
    ensures forall i :: 0 <= i < |m| ==> NameOccurs(flat, m[i].procedure)
    ensures forall k :: 0 <= k < |flat| ==> exists i :: 0 <= i < |m| && m[i].procedure == flat[k].proc.name
    ensures forall i :: 0 <= i < |m| ==> m[i].frequency == CountName(flat, m[i].procedure) > 0
    ensures forall i :: 0 <= i < |m| ==> m[i] == GroupEntry(flat, m[i].procedure)
  {
    var es := Map(ProcedureNames(flat), EntryFor(flat));
    assert |m| == |multiset(m)| == |multiset(es)| == |es|;
    MatrixRowsNamed(flat, m);
    MatrixRowsCover(flat, m);
  }

  /** The row built for `name` is about `name` and counts its entries. */
  lemma EntryForName(flat: seq<Annotated>, name: string)
    ensures EntryFor(flat)(name).procedure == name
    ensures EntryFor(flat)(name).frequency == CountName(flat, name)
  {
    GroupSize(flat, name);
  }

  lemma MatrixRowsNamed(flat: seq<Annotated>, m: seq<MatrixEntry>)
    requires multiset(m) == multiset(Map(ProcedureNames(flat), EntryFor(flat)))
    ensures forall i :: 0 <= i < |m| ==> NameOccurs(flat, m[i].procedure)
    ensures forall i :: 0 <= i < |m| ==> m[i].frequency == CountName(flat, m[i].procedure) > 0
    ensures forall i :: 0 <= i < |m| ==> m[i] == GroupEntry(flat, m[i].procedure)
  {
    var names := ProcedureNames(flat);
    var es := Map(names, EntryFor(flat));
    forall i | 0 <= i < |m|
      ensures NameOccurs(flat, m[i].procedure) && m[i].frequency == CountName(flat, m[i].procedure) > 0
      ensures m[i] == GroupEntry(flat, m[i].procedure)
    {
      assert m[i] in multiset(es);
      var t :| 0 <= t < |es| && es[t] == m[i];
      assert names[t] in names;
      EntryForName(flat, names[t]);
      CountNamePositive(flat, names[t]);
    }
  }

  lemma {:induction false} MatrixRowsCover(flat: seq<Annotated>, m: seq<MatrixEntry>)
    requires multiset(m) == multiset(Map(ProcedureNames(flat), EntryFor(flat)))
    ensures forall k :: 0 <= k < |flat| ==> exists i :: 0 <= i < |m| && m[i].procedure == flat[k].proc.name
  {
    forall k | 0 <= k < |flat| ensures exists i :: 0 <= i < |m| && m[i].procedure == flat[k].proc.name {
      MatrixRowCovers(flat, m, flat[k].proc.name);
    }
  }

  lemma MatrixRowCovers(flat: seq<Annotated>, m: seq<MatrixEntry>, n: string)
    requires multiset(m) == multiset(Map(ProcedureNames(flat), EntryFor(flat)))
    requires NameOccurs(flat, n)
    ensures exists i :: 0 <= i < |m| && m[i].procedure == n
  {
    var names := ProcedureNames(flat);
    var es := Map(names, EntryFor(flat));
    var t :| 0 <= t < |names| && names[t] == n;
    EntryForName(flat, n);
    assert es[t] in multiset(m);
    var i :| 0 <= i < |m| && m[i] == es[t];
  }

  function Frequency(e: MatrixEntry): int {
    e.frequency
  }

  /** Reference total of the counts of `names` in `xs`. */
  function SumCounts(xs: seq<Annotated>, names: seq<string>): int {
    if names == [] then 0 else CountName(xs, names[0]) + SumCounts(xs, names[1..])
  }

  lemma {:induction false} SumFrequencies(flat: seq<Annotated>, names: seq<string>)
    ensures SumInt(Map(names, EntryFor(flat)), Frequency) == SumCounts(flat, names)
  {
    if names != [] {
      SumFrequencies(flat, names[1..]);
      assert Map(names, EntryFor(flat))[1..] == Map(names[1..], EntryFor(flat));
      EntryForName(flat, names[0]);
    }
  }

  lemma {:induction false} SumCountsSnoc(ys: seq<Annotated>, e: Annotated, names: seq<string>)
    ensures SumCounts(ys + [e], names) == SumCounts(ys, names) + Count(names, e.proc.name)
  {
    assert (ys + [e])[..|ys|] == ys;
    if names != [] {
      SumCountsSnoc(ys, e, names[1..]);
    }
  }

  lemma {:induction false} SumCountsAppendName(xs: seq<Annotated>, names: seq<string>, n: string)
    ensures SumCounts(xs, names + [n]) == SumCounts(xs, names) + CountName(xs, n)
  {
    if names == [] {
      assert names + [n] == [n];
      assert [n][1..] == [];
    } else {
      assert (names + [n])[1..] == names[1..] + [n];
      SumCountsAppendName(xs, names[1..], n);
    }
  }

  lemma {:induction false} CountNameAbsent(xs: seq<Annotated>, n: string)
    requires !NameOccurs(xs, n)
    ensures CountName(xs, n) == 0
  {
    if xs != [] {
      var ys := xs[..|xs| - 1];
      forall k | 0 <= k < |ys| ensures ys[k].proc.name != n {
        assert ys[k] == xs[k];
      }
      CountNameAbsent(ys, n);
    }
  }

  /** Over the distinct names, the counts add up to the size of the table. */
  lemma {:induction false} NamesCoverTable(xs: seq<Annotated>)
    ensures SumCounts(xs, ProcedureNames(xs)) == |xs|
  {
    if xs != [] {
      var ys, e := xs[..|xs| - 1], xs[|xs| - 1];
      assert xs == ys + [e];
      NamesCoverTable(ys);
      var d := ProcedureNames(ys);
      SumCountsSnoc(ys, e, d);
      CountDistinct(d, e.proc.name);
      if e.proc.name !in d {
        SumCountsAppendName(xs, d, e.proc.name);
        CountNameAbsent(ys, e.proc.name);
      }
    }
  }

  /** Every flattened procedure is counted in exactly one matrix row: the frequencies add up to the table size. */
  lemma FrequenciesSumToCount(flat: seq<Annotated>)
    ensures SumInt(CreateComplianceMatrix(flat), Frequency) == |flat|
  {
    if flat != [] {
      var names := ProcedureNames(flat);
      var es := Map(names, EntryFor(flat));
      SumIntPermutation(CreateComplianceMatrix(flat), es, Frequency);
      SumFrequencies(flat, names);
      NamesCoverTable(flat);
    }
  }

  // create_sector_analysis

  /** Some row's primary_sector is `s`. */
  ghost predicate SectorOccurs(rows: seq<Row>, s: Scalar) {
    exists k :: 0 <= k < |rows| && Field(rows[k], "primary_sector") == s
  }

  /** `df['primary_sector'].unique()`: each value once, NULL included. */
  function Sectors(rows: seq<Row>): (ss: seq<Scalar>)
    ensures forall i, j :: 0 <= i < j < |ss| ==> ss[i] != ss[j]
    ensures forall s :: s in ss <==> SectorOccurs(rows, s)
  {
    if rows == [] then []
    else
      var ys := rows[..|rows| - 1];
      var d := Sectors(ys);
      var last := Field(rows[|rows| - 1], "primary_sector");
      assert forall s :: SectorOccurs(rows, s) <==> s == last || SectorOccurs(ys, s) by {
        forall s ensures SectorOccurs(rows, s) <==> s == last || SectorOccurs(ys, s) {
          if SectorOccurs(ys, s) {
            var k :| 0 <= k < |ys| && Field(ys[k], "primary_sector") == s;
            assert rows[k] == ys[k];
          }
          if SectorOccurs(rows, s) && s != last {
            var k :| 0 <= k < |rows| && Field(rows[k], "primary_sector") == s;
            assert ys[k] == rows[k];
          }
        }
      }
      if last in d then d else d + [last]
  }

  /** `df['primary_sector'] == sector`: comparing with NULL matches no row. */
  function InSector(sector: Scalar): Row -> bool {
    (r: Row) => sector != SNull && Field(r, "primary_sector") == sector
  }

  function ProcInSector(sector: Scalar): Annotated -> bool {
    (e: Annotated) => sector != SNull && e.primarySector == sector
  }

  /** A sector has businesses exactly when it is not NULL and some row carries it. */
  lemma SectorBusinesses(rows: seq<Row>, s: Scalar)
    ensures Filter(rows, InSector(s)) != [] <==> s != SNull && SectorOccurs(rows, s)
  {
    var bs := Filter(rows, InSector(s));
    if s != SNull && SectorOccurs(rows, s) {
      var k :| 0 <= k < |rows| && Field(rows[k], "primary_sector") == s;
      assert InSector(s)(rows[k]);
      assert rows[k] in bs;
    }
    if bs != [] {
      assert InSector(s)(bs[0]);
      var k :| 0 <= k < |rows| && rows[k] == bs[0];
    }
  }

  /** One row of the sector summary. */
  datatype SectorEntry = SectorEntry(
    sector: Scalar,
    businessCount: nat,
    avgTotalCost: real,
    avgTotalTime: real,
    avgRiskScore: real,
    proceduresPerBusiness: real,
    mostCommonProcedure: string,
    highestCostProcedure: Option<string>)

  function RowCost(r: Row): real { r.metrics.totalCost }
  function RowTime(r: Row): real { r.metrics.totalTime as real }
  function RowRisk(r: Row): real { r.metrics.riskScore }
  function ProcName(e: Annotated): string { e.proc.name }

  /**
   `official_fees.idxmax()`: the first entry with the largest official fee,
   NaN fees skipped; `None` when every fee is NaN.
   */
  function FirstMaxFee(ps: seq<Annotated>): (r: Option<nat>)
    ensures r.None? <==> forall j :: 0 <= j < |ps| ==> ps[j].proc.officialFees.None?
    ensures r.Some? ==>
      && r.value < |ps|
      && ps[r.value].proc.officialFees.Some?
      && (forall j :: 0 <= j < |ps| && ps[j].proc.officialFees.Some? ==>
            ps[j].proc.officialFees.value <= ps[r.value].proc.officialFees.value)
      && (forall j :: 0 <= j < r.value && ps[j].proc.officialFees.Some? ==>
            ps[j].proc.officialFees.value < ps[r.value].proc.officialFees.value)
  {
    if ps == [] then None
    else
      var rest := FirstMaxFee(ps[1..]);
      assert forall j :: 1 <= j < |ps| ==> ps[j] == ps[1..][j - 1];
      match ps[0].proc.officialFees
      case None => if rest.None? then None else Some(rest.value + 1)
      case Some(f) =>
        if rest.None? || f >= ps[1..][rest.value].proc.officialFees.value then Some(0)
        else Some(rest.value + 1)
  }

  /**
   The averaged and picked columns of `e` are those of its sector's businesses
   and procedures: the mean total cost, time and risk of the businesses, the
   most common procedure name and the name with the highest fee.
   */
  ghost predicate SectorColumns(rows: seq<Row>, procs: seq<Annotated>, e: SectorEntry) {
    var bs := Filter(rows, InSector(e.sector));
    var sp := Filter(procs, ProcInSector(e.sector));
    && bs != []
    && e.avgTotalCost == Average(Map(bs, RowCost))
    && e.avgTotalTime == Average(Map(bs, RowTime))
    && e.avgRiskScore == Average(Map(bs, RowRisk))
    && e.mostCommonProcedure == MostCommonProcedure(sp)
    && e.highestCostProcedure == HighestCostProcedure(sp)
  }

  /** Procedures per business times the number of businesses is the sector's number of procedures. */
  ghost predicate PerBusiness(e: SectorEntry, procedures: nat) {
    e.proceduresPerBusiness * e.businessCount as real == procedures as real
  }

  /** `len(sector_procedures) / len(sector_businesses)` in true division. */
  function ProceduresPerBusiness(procedures: nat, businesses: nat): (q: real)
    requires businesses > 0
    ensures q * businesses as real == procedures as real
  {
    procedures as real / businesses as real
  }

  /** The summary row for `sector`, or nothing when no business is in it (the loop's `continue`). */
  function SectorEntryFor(rows: seq<Row>, procs: seq<Annotated>, sector: Scalar): (r: Option<SectorEntry>)
    ensures r.None? <==> Filter(rows, InSector(sector)) == []
    ensures r.Some? ==>
      && r.value.sector == sector
      && r.value.businessCount == |Filter(rows, InSector(sector))| > 0
      && PerBusiness(r.value, |Filter(procs, ProcInSector(sector))|)
      && SectorColumns(rows, procs, r.value)
  {
    var bs := Filter(rows, InSector(sector));
    if bs == [] then None
    else
      var sp := Filter(procs, ProcInSector(sector));
      var e := SectorSummary(sector, bs, sp);
      PerBusinessHolds(e, |sp|, |bs|);
      Some(e)
  }

  lemma PerBusinessHolds(e: SectorEntry, procedures: nat, businesses: nat)
    requires businesses > 0 && e.businessCount == businesses
    requires e.proceduresPerBusiness == ProceduresPerBusiness(procedures, businesses)
    ensures PerBusiness(e, procedures)
  {
  }

  /** The summary of a sector's businesses `bs` and procedures `sp`. */
  function SectorSummary(sector: Scalar, bs: seq<Row>, sp: seq<Annotated>): (e: SectorEntry)
    requires bs != []
    ensures e.sector == sector && e.businessCount == |bs|
    ensures e.proceduresPerBusiness == ProceduresPerBusiness(|sp|, |bs|)
    ensures e.avgTotalCost == Average(Map(bs, RowCost))
    ensures e.avgTotalTime == Average(Map(bs, RowTime))
    ensures e.avgRiskScore == Average(Map(bs, RowRisk))
    ensures e.mostCommonProcedure == MostCommonProcedure(sp)
    ensures e.highestCostProcedure == HighestCostProcedure(sp)
  {
    var perBusiness := ProceduresPerBusiness(|sp|, |bs|);
    SectorEntry(
      sector,
      |bs|,
      Average(Map(bs, RowCost)),
      Average(Map(bs, RowTime)),
      Average(Map(bs, RowRisk)),
      perBusiness,
      MostCommonProcedure(sp),
      HighestCostProcedure(sp))
  }

  /**
   `sector_procedures['procedure'].mode().iloc[0]`: a procedure name of the
   sector that no other name outnumbers, the smallest text among equally
   frequent ones; 'None' for a sector without procedures.
   */
  function MostCommonProcedure(sp: seq<Annotated>): (m: string)
    ensures sp == [] ==> m == "None"
    ensures sp != [] ==> m in Map(sp, ProcName)
    ensures forall j :: 0 <= j < |sp| ==> Count(Map(sp, ProcName), sp[j].proc.name) <= Count(Map(sp, ProcName), m)
    ensures forall j :: 0 <= j < |sp| && Count(Map(sp, ProcName), sp[j].proc.name) == Count(Map(sp, ProcName), m) ==>
      TextLe(m, sp[j].proc.name)
  {
    if sp == [] then "None"
    else
      var names := Map(sp, ProcName);
      assert forall j :: 0 <= j < |sp| ==> sp[j].proc.name == names[j];
      Mode(names)
  }

  /** Entry `i` of `sp` has an official fee no other entry exceeds, and no earlier entry matches. */
  ghost predicate FirstHighestFee(sp: seq<Annotated>, i: nat) {
    && i < |sp|
    && sp[i].proc.officialFees.Some?
    && (forall j :: 0 <= j < |sp| && sp[j].proc.officialFees.Some? ==>
          sp[j].proc.officialFees.value <= sp[i].proc.officialFees.value)
    && (forall j :: 0 <= j < i && sp[j].proc.officialFees.Some? ==>
          sp[j].proc.officialFees.value < sp[i].proc.officialFees.value)
  }

  /**
   The procedure at `idxmax()` of the official fees: the name of the first
   entry carrying the highest fee; 'None' for a sector without procedures, and
   no name at all when every fee is NaN.
   */
  function HighestCostProcedure(sp: seq<Annotated>): (h: Option<string>)
    ensures sp == [] ==> h == Some("None")
    ensures sp != [] ==> (h.None? <==> forall j :: 0 <= j < |sp| ==> sp[j].proc.officialFees.None?)
    ensures sp != [] && h.Some? ==> exists i: nat :: FirstHighestFee(sp, i) && sp[i].proc.name == h.value
  {
    if sp == [] then Some("None")
    else match FirstMaxFee(sp)
      case Some(i) => assert FirstHighestFee(sp, i); Some(sp[i].proc.name)
      case None => None
  }

  function EntryAt(rows: seq<Row>, procs: seq<Annotated>): Scalar -> Option<SectorEntry> {
    (s: Scalar) => SectorEntryFor(rows, procs, s)
  }

  function SectorOf(e: SectorEntry): Scalar { e.sector }

  /**
   `create_sector_analysis`: nothing when either frame is empty; otherwise one
   row per distinct non-NULL sector of the submitted rows.
   */
  function CreateSectorAnalysis(rows: seq<Row>, procs: seq<Annotated>): (es: seq<SectorEntry>)
    ensures rows == [] || procs == [] ==> es == []
    ensures rows != [] && procs != [] ==> SectorTable(rows, procs, es)
  {
    if rows == [] || procs == [] then []
    else
      SectorTableHolds(rows, procs);
      Somes(Map(Sectors(rows), EntryAt(rows, procs)))
  }

  /** Some entry of `es` summarises sector `s`. */
  ghost predicate HasSectorRow(es: seq<SectorEntry>, s: Scalar) {
    exists i :: 0 <= i < |es| && es[i].sector == s
  }

  /**
   `es` is the sector table of the frames: exactly one entry per distinct
   non-NULL sector of the rows, each counting that sector's businesses
   (at least one) and giving its procedures per business.
   */
  ghost predicate SectorTable(rows: seq<Row>, procs: seq<Annotated>, es: seq<SectorEntry>) {
    && (forall s :: HasSectorRow(es, s) <==> s != SNull && SectorOccurs(rows, s))
    && (forall i, j :: 0 <= i < j < |es| ==> es[i].sector != es[j].sector)
    && (forall i :: 0 <= i < |es| ==> es[i].businessCount == |Filter(rows, InSector(es[i].sector))| > 0)
    && (forall i :: 0 <= i < |es| ==>
         PerBusiness(es[i], |Filter(procs, ProcInSector(es[i].sector))|))
    && (forall i :: 0 <= i < |es| ==> SectorColumns(rows, procs, es[i]))
  }

  lemma SectorTableHolds(rows: seq<Row>, procs: seq<Annotated>)
    ensures SectorTable(rows, procs, Somes(Map(Sectors(rows), EntryAt(rows, procs))))
  {
    SectorRowsCounted(rows, procs);
    SectorRowsExactly(rows, procs);
    SectorRowsDistinct(rows, procs);
  }

  lemma SectorRowsDistinct(rows: seq<Row>, procs: seq<Annotated>)
    ensures var es := Somes(Map(Sectors(rows), EntryAt(rows, procs)));
      forall i, j :: 0 <= i < j < |es| ==> es[i].sector != es[j].sector
  {
    SomesDistinct(Map(Sectors(rows), EntryAt(rows, procs)), SectorOf);
  }

  lemma {:induction false} SectorRowsCounted(rows: seq<Row>, procs: seq<Annotated>)
    ensures var es := Somes(Map(Sectors(rows), EntryAt(rows, procs)));
      forall i :: 0 <= i < |es| ==>
        && es[i].businessCount == |Filter(rows, InSector(es[i].sector))| > 0
        && PerBusiness(es[i], |Filter(procs, ProcInSector(es[i].sector))|)
        && SectorColumns(rows, procs, es[i])
  {
    var opts := Map(Sectors(rows), EntryAt(rows, procs));
    var es := Somes(opts);
    forall i | 0 <= i < |es|
      ensures es[i].businessCount == |Filter(rows, InSector(es[i].sector))| > 0
      ensures PerBusiness(es[i], |Filter(procs, ProcInSector(es[i].sector))|)
      ensures SectorColumns(rows, procs, es[i])
    {
      assert Some(es[i]) in opts;
    }
  }

  lemma {:induction false} SectorRowsExactly(rows: seq<Row>, procs: seq<Annotated>)
    ensures var es := Somes(Map(Sectors(rows), EntryAt(rows, procs)));
      forall s :: HasSectorRow(es, s) <==> s != SNull && SectorOccurs(rows, s)
  {
    var es := Somes(Map(Sectors(rows), EntryAt(rows, procs)));
    forall s ensures HasSectorRow(es, s) <==> s != SNull && SectorOccurs(rows, s) {
      SectorListed(rows, procs, s);
    }
  }

  /** One sector has a summary row exactly when some business of the rows is in it. */
  lemma SectorListed(rows: seq<Row>, procs: seq<Annotated>, s: Scalar)
    ensures var es := Somes(Map(Sectors(rows), EntryAt(rows, procs)));
      HasSectorRow(es, s) <==> s != SNull && SectorOccurs(rows, s)
  {
    var ss := Sectors(rows);
    var f := EntryAt(rows, procs);
    SectorBusinesses(rows, s);
    SomesOfKeyed(ss, Map(ss, f), f, SectorOf, s);
  }

  /** A sector's average risk stays within any bounds every submitted row's risk score keeps. */
  lemma SectorRiskWithin(rows: seq<Row>, procs: seq<Annotated>, sector: Scalar, lo: real, hi: real)
    requires forall k :: 0 <= k < |rows| ==> lo <= rows[k].metrics.riskScore <= hi
    ensures SectorEntryFor(rows, procs, sector).Some? ==>
      lo <= SectorEntryFor(rows, procs, sector).value.avgRiskScore <= hi
  {
    var bs := Filter(rows, InSector(sector));
    if bs != [] {
      var risks := Map(bs, RowRisk);
      forall i | 0 <= i < |risks| ensures lo <= risks[i] <= hi {
        var k :| 0 <= k < |rows| && rows[k] == bs[i];
      }
      AverageWithin(risks, lo, hi);
    }
  }

  /** A sector's average total cost stays within any bounds every submitted row's total cost keeps. */
  lemma SectorCostWithin(rows: seq<Row>, procs: seq<Annotated>, sector: Scalar, lo: real, hi: real)
    requires forall k :: 0 <= k < |rows| ==> lo <= rows[k].metrics.totalCost <= hi
    ensures SectorEntryFor(rows, procs, sector).Some? ==>
      lo <= SectorEntryFor(rows, procs, sector).value.avgTotalCost <= hi
  {
    var bs := Filter(rows, InSector(sector));
    if bs != [] {
      var costs := Map(bs, RowCost);
      forall i | 0 <= i < |costs| ensures lo <= costs[i] <= hi {
        var k :| 0 <= k < |rows| && rows[k] == bs[i];
      }
      AverageWithin(costs, lo, hi);
    }
  }

  /** A sector's average total time stays within any bounds every submitted row's total time keeps. */
  lemma SectorTimeWithin(rows: seq<Row>, procs: seq<Annotated>, sector: Scalar, lo: real, hi: real)
    requires forall k :: 0 <= k < |rows| ==> lo <= rows[k].metrics.totalTime as real <= hi
    ensures SectorEntryFor(rows, procs, sector).Some? ==>
      lo <= SectorEntryFor(rows, procs, sector).value.avgTotalTime <= hi
  {
    var bs := Filter(rows, InSector(sector));
    if bs != [] {
      var times := Map(bs, RowTime);
      forall i | 0 <= i < |times| ensures lo <= times[i] <= hi {
        var k :| 0 <= k < |rows| && rows[k] == bs[i];
      }
      AverageWithin(times, lo, hi);
    }
  }

  /**
   End to end: the matrix frequencies count every procedure recorded in a
   submitted interview once.
   */
  lemma MatrixCountsEverySubmittedProcedure(table: seq<Row>)
    ensures SumInt(CreateComplianceMatrix(GetAnalyticsDataIntended(table).procedures), Frequency)
      == SumInt(Filter(table, IsSubmitted), ProcCount)
  {
    FrequenciesSumToCount(GetAnalyticsDataIntended(table).procedures);
    FlattenCount(Filter(table, IsSubmitted));
  }
}

=== FILE: basics.dfy ===
/**
 The small vocabulary every other module shares: optional values, which stand
 for a Python `None` or a missing dictionary key.
 */
module Basics {

  datatype Option<+T> = None | Some(value: T) {

    /** The value, or `default` when there is none: Python's `d.get(key, default)`. */
    function GetOr(default: T): T {
      match this
      case Some(v) => v
      case None => default
    }
  }

  /** The value stored under `k`, if any. */
  function Lookup<K, V>(m: map<K, V>, k: K): Option<V> {
    if k in m then Some(m[k]) else None
  }

  /** The present values of `xs`, in order. */
  function Somes<T>(xs: seq<Option<T>>): (r: seq<T>)
    ensures forall i :: 0 <= i < |r| ==> Some(r[i]) in xs
    ensures forall k :: 0 <= k < |xs| && xs[k].Some? ==> xs[k].value in r
  {
    if xs == [] then []
    else
      assert xs == [xs[0]] + xs[1..];
      (if xs[0].Some? then [xs[0].value] else []) + Somes(xs[1..])
  }

  /**
   When each present value's `key` is the element it came from, an element's
   value is collected exactly when the element is listed and has a value.
   */
  lemma SomesOfKeyed<T, U>(xs: seq<T>, opts: seq<Option<U>>, f: T -> Option<U>, key: U -> T, x: T)
    requires |opts| == |xs| && forall k :: 0 <= k < |xs| ==> opts[k] == f(xs[k])
    requires forall k :: 0 <= k < |xs| && f(xs[k]).Some? ==> key(f(xs[k]).value) == xs[k]
    ensures (exists i :: 0 <= i < |Somes(opts)| && key(Somes(opts)[i]) == x) <==> x in xs && f(x).Some?
  {
    var es := Somes(opts);
    if x in xs && f(x).Some? {
      var k :| 0 <= k < |xs| && xs[k] == x;
      assert opts[k].value in es;
      var i :| 0 <= i < |es| && es[i] == opts[k].value;
    }
    if exists i :: 0 <= i < |es| && key(es[i]) == x {
      var i :| 0 <= i < |es| && key(es[i]) == x;
      assert Some(es[i]) in opts;
      var k :| 0 <= k < |opts| && opts[k] == Some(es[i]);
    }
  }

  /** Values that differ in `key` wherever they are present still differ once collected. */
  lemma {:induction false} SomesDistinct<T, K>(xs: seq<Option<T>>, key: T -> K)
    requires forall i, j :: 0 <= i < j < |xs| && xs[i].Some? && xs[j].Some? ==> key(xs[i].value) != key(xs[j].value)
    ensures forall i, j :: 0 <= i < j < |Somes(xs)| ==> key(Somes(xs)[i]) != key(Somes(xs)[j])
  {
    if xs != [] {
      var tail := xs[1..];
      assert forall i :: 0 <= i < |tail| ==> tail[i] == xs[i + 1];
      SomesDistinct(tail, key);
      var rest := Somes(tail);
      if xs[0].Some? {
        forall j | 0 <= j < |rest| ensures key(xs[0].value) != key(rest[j]) {
          assert Some(rest[j]) in tail;
          var k :| 0 <= k < |tail| && tail[k] == Some(rest[j]);
          assert xs[k + 1] == Some(rest[j]);
        }
        var r := [xs[0].value] + rest;
        assert Somes(xs) == r;
        forall i, j | 0 <= i < j < |r| ensures key(r[i]) != key(r[j]) {
          assert r[j] == rest[j - 1];
          if i > 0 {
            assert r[i] == rest[i - 1];
          }
        }
      } else {
        assert Somes(xs) == rest;
      }
    }
  }
}

=== FILE: drafts.dfy ===
/**
 The store operations of `DraftManager` (draft_manager.py): the per-user
 draft list, the progress update, draft deletion, and loading a draft back
 into a session.
 */
module Drafts {
  import opened Basics
  import opened JsonColumns
  import opened Records
  import opened Sequences
  import opened Progress

  /** `WHERE status = 'draft' AND created_by = ?`; a NULL creator matches nobody. */
  predicate IsDraftOf(r: Row, user: string) {
    r.status == Draft && r.createdBy == Some(user)
  }

  function LastModifiedKey(r: Row): real {
    r.lastModified as real
  }

  /**
   `get_user_drafts`: the drafts `user` created, newest `last_modified` first.
   `table` lists the rows in the order the database scans them; rows with equal
   timestamps may come back in any order, and this model keeps scan order.
   */
  function GetUserDrafts(table: seq<Row>, user: string): (rows: seq<Row>)
    ensures forall i :: 0 <= i < |rows| ==> rows[i] in table && IsDraftOf(rows[i], user)
    ensures forall i :: 0 <= i < |table| && IsDraftOf(table[i], user) ==> table[i] in rows
    ensures multiset(rows) == multiset(Filter(table, r => IsDraftOf(r, user)))
    ensures SortedDesc(rows, LastModifiedKey)
  {
    SortDesc(Filter(table, r => IsDraftOf(r, user)), LastModifiedKey)
  }

  /**
   `update_draft_progress`: sets current_section, draft_progress and
   last_modified of one row; an unknown id matches no row.
   */
  function UpdateDraftProgress(store: Store, id: string, section: string, progress: real, now: Timestamp): (r: Store)
    ensures OthersUntouched(store, r, id)
    ensures id in store ==>
      && r[id].currentSection == section
      && r[id].draftProgress == progress
      && r[id].lastModified == now
      && Agree(store[id], r[id], {CurrentSectionCol, DraftProgressCol, LastModifiedCol})
    ensures id !in store ==> r == store
    ensures WellKeyed(store) ==> WellKeyed(r)
  {
    if id in store then
      store[id := store[id].(currentSection := section, draftProgress := progress, lastModified := now)]
    else store
  }

  /** `DELETE ... WHERE interview_id = ? AND status = 'draft'` */
  function DeleteDraft(store: Store, id: string): (r: Store)
    ensures r.Keys == if id in store && store[id].status == Draft then store.Keys - {id} else store.Keys
    ensures forall k :: k in r ==> k in store && r[k] == store[k]
    ensures WellKeyed(store) ==> WellKeyed(r)
  {
    if id in store && store[id].status == Draft then store - {id} else store
  }

  /** A submitted interview survives `delete_draft`. */
  lemma DeleteDraftKeepsSubmitted(store: Store, id: string)
    requires id in store && store[id].status == Submitted
    ensures DeleteDraft(store, id) == store
  {
  }

  /** What `load_draft_into_session` leaves in the session. */
  datatype Session = Session(
    interviewId: string,
    form: FormData,
    procedures: seq<Procedure>,
    isicCodes: seq<string>,
    currentSection: string)

  /**
   The form's questionnaire answers after a load: `load_draft` returns the
   whole row, so every column is there and the `.get` defaults never apply;
   a NULL column comes back as None.
   */
  function LoadedAnswers(row: Row): (a: map<string, Scalar>)
    ensures a.Keys == AnswerDefaults.Keys
    ensures forall k :: k in a && k in row.answers ==> a[k] == row.answers[k]
    ensures forall k :: k in a && k !in row.answers ==> a[k] == SNull
  {
    map k | k in AnswerDefaults :: Lookup(row.answers, k).GetOr(SNull)
  }

  /**
   `load_draft_into_session`: the form gets every questionnaire column plus
   the raw reform text, but no 'procedure_data' or 'isic_codes' key; the
   procedure and ISIC lists go to their own session entries, decoded with the
   empty-list fallback; the section is the stored one. An unknown id loads
   nothing.
   */
  function LoadDraft(store: Store, id: string): (s: Option<Session>)
    ensures s.None? <==> id !in store
    ensures s.Some? ==>
      && s.value.interviewId == id
      && s.value.form.answers.Keys == AnswerDefaults.Keys
      && (forall k :: k in AnswerDefaults ==> s.value.form.answers[k] == Field(store[id], k))
      && s.value.form.procedures == [] && s.value.form.isicCodes == []
      && s.value.form.reformPriorities == LoadedText(store[id].reformPriorities)
      && s.value.procedures == DecodeOrEmpty(store[id].procedureData)
      && s.value.isicCodes == DecodeOrEmpty(store[id].isicCodes)
      && s.value.currentSection == store[id].currentSection
  {
    if id !in store then None
    else
      var row := store[id];
      Some(Session(
        id,
        FormData(LoadedAnswers(row), [], [], LoadedText(row.reformPriorities)),
        DecodeOrEmpty(row.procedureData),
        DecodeOrEmpty(row.isicCodes),
        row.currentSection))
  }

  /** A missing, 'null', '[]' or malformed procedure or ISIC column loads as an empty list. */
  lemma LoadFallsBackToEmpty(store: Store, id: string)
    requires id in store
    requires !store[id].procedureData.EncodedList? || store[id].procedureData.items == []
    requires !store[id].isicCodes.EncodedList? || store[id].isicCodes.items == []
    ensures LoadDraft(store, id).Some?
    ensures LoadDraft(store, id).value.procedures == [] && LoadDraft(store, id).value.isicCodes == []
  {
  }

  /** A NULL questionnaire column loads as None, not as the `.get` default. */
  lemma LoadKeepsNull(store: Store, id: string, k: string)
    requires id in store && k in AnswerDefaults && Lookup(store[id].answers, k) == Some(SNull)
    ensures LoadDraft(store, id).Some? && LoadDraft(store, id).value.form.answers[k] == SNull
  {
  }

  /**
   After a load, the reform list is back in the form as JSON text, so unlike
   in a form holding the list it completes section D exactly when it is non-empty.
   */
  lemma {:induction false} LoadedReformsCountIffNonEmpty(store: Store, id: string, reforms: seq<string>)
    requires id in store && store[id].reformPriorities == EncodedList(reforms)
    ensures LoadDraft(store, id).Some?
    ensures SectionD(SaveView(LoadDraft(store, id).value.form)) <==> reforms != []
  {
    LoadedReformsCount(store[id].reformPriorities);
  }

  /**
   The load `save_draft` evidently expects: the form also gets the decoded
   procedure, ISIC and reform lists, as the section screens would put them.
   */
  function LoadDraftIntended(store: Store, id: string): (s: Option<Session>)
    ensures s.None? <==> id !in store
    ensures s.Some? ==>
      && s.value.form.answers == LoadDraft(store, id).value.form.answers
      && s.value.form.procedures == s.value.procedures == DecodeOrEmpty(store[id].procedureData)
      && s.value.form.isicCodes == s.value.isicCodes == DecodeOrEmpty(store[id].isicCodes)
      && s.value.form.reformPriorities == ReformList(DecodeOrEmpty(store[id].reformPriorities))
  {
    if id !in store then None
    else
      var s := LoadDraft(store, id).value;
      var row := store[id];
      Some(s.(form := FormData(s.form.answers, s.procedures, s.isicCodes,
                               ReformList(DecodeOrEmpty(row.reformPriorities)))))
  }
}

=== FILE: editor.dfy ===
/**
 The administrator's interview editor (interview_editor.py): the submitted
 list, the column patch behind every save button, reverting to draft, the
 single-procedure edit, recomputing the totals, validation, and deletion.
 */
module Editor {
  import opened Basics
  import opened JsonColumns
  import opened Records
  import opened Sequences
  import opened Metrics

  function SubmissionKey(r: Row): real {
    r.submissionDate as real
  }

  /** `get_submitted_interviews`: the submitted rows, latest submission first. */
  function GetSubmittedInterviews(table: seq<Row>): (rows: seq<Row>)
    ensures forall i :: 0 <= i < |rows| ==> rows[i] in table && rows[i].status == Submitted
    ensures forall i :: 0 <= i < |table| && table[i].status == Submitted ==> table[i] in rows
    ensures multiset(rows) == multiset(Filter(table, (r: Row) => r.status == Submitted))
    ensures SortedDesc(rows, SubmissionKey)
  {
    SortDesc(Filter(table, (r: Row) => r.status == Submitted), SubmissionKey)
  }

  /**
   The `updates` dictionary of `update_interview`: questionnaire columns, the
   procedure_data column, and the three metric columns, which the callers
   always set together.
   */
  datatype Patch = Patch(
    answers: map<string, Scalar>,
    procedures: Option<seq<Procedure>>,
    metrics: Option<Records.Metrics>)

  /** The columns a patch names. */
  function Touched(p: Patch): set<Column> {
    (set n | n in p.answers :: AnswerCol(n))
    + (if p.procedures.Some? then {ProcedureDataCol} else {})
    + (if p.metrics.Some? then {MetricsCol} else {})
  }

  /**
   The patches the editor's screens send make a well-formed statement
   `UPDATE responses SET <set_clause>, last_modified = ? ...`: at least one
   column is named (otherwise the clause starts with a comma), and the named
   columns are questionnaire columns, procedure_data or the metrics. A key
   naming no column of the table makes the statement fail; a key naming one
   of the table's other columns is sent by no screen and is not accepted here.
   */
  predicate ValidPatch(p: Patch) {
    && (p.answers != map[] || p.procedures.Some? || p.metrics.Some?)
    && p.answers.Keys <= AnswerDefaults.Keys
  }

  /** `after` is `before` with the columns of `p` set and last_modified stamped `now`. */
  ghost predicate Patched(before: Row, after: Row, p: Patch, now: Timestamp) {
    && Agree(before, after, Touched(p) + {LastModifiedCol})
    && after.lastModified == now
    && (forall n :: n in p.answers ==> Lookup(after.answers, n) == Some(p.answers[n]))
    && (p.procedures.Some? ==> DecodeOrEmpty(after.procedureData) == p.procedures.value)
    && (p.metrics.Some? ==> after.metrics == p.metrics.value)
  }

  /** The row the UPDATE statement of `update_interview` leaves behind. */
  function PatchRow(r: Row, p: Patch, now: Timestamp): (row: Row)
    ensures Patched(r, row, p, now)
  {
    var procs := if p.procedures.Some? then Encode(p.procedures.value) else r.procedureData;
    var metrics := if p.metrics.Some? then p.metrics.value else r.metrics;
    r.(answers := r.answers + p.answers, procedureData := procs, metrics := metrics, lastModified := now)
  }

  /**
   `update_interview`: sets exactly the named columns and last_modified on the
   target row. A malformed statement reports False and writes nothing; an id
   with no row reports True and writes nothing.
   */
  function UpdateInterview(store: Store, id: string, p: Patch, now: Timestamp): (w: Written)
    ensures w.ok <==> ValidPatch(p)
    ensures !w.ok ==> w.store == store
    ensures OthersUntouched(store, w.store, id)
    ensures id !in store ==> w.store == store
    ensures w.ok && id in store ==> Patched(store[id], w.store[id], p, now)
    ensures WellKeyed(store) ==> WellKeyed(w.store)
  {
    if !ValidPatch(p) then Written(false, store)
    else if id !in store then Written(true, store)
    else Written(true, store[id := PatchRow(store[id], p, now)])
  }

  /** A patch that names neither procedures nor metrics leaves the metrics as they were. */
  lemma UpdateKeepsMetrics(store: Store, id: string, p: Patch, now: Timestamp)
    requires id in store && p.metrics.None?
    ensures UpdateInterview(store, id, p, now).store[id].metrics == store[id].metrics
  {
  }

  /**
   `revert_to_draft`: status becomes draft and last_modified is stamped; the
   submission date stays. An id with no row writes nothing.
   */
  function RevertToDraft(store: Store, id: string, now: Timestamp): (w: Written)
    ensures w.ok
    ensures OthersUntouched(store, w.store, id)
    ensures id !in store ==> w.store == store
    ensures id in store ==>
      && w.store[id].status == Draft
      && w.store[id].lastModified == now
      && Agree(store[id], w.store[id], {StatusCol, LastModifiedCol})
    ensures WellKeyed(store) ==> WellKeyed(w.store)
  {
    if id in store then Written(true, store[id := store[id].(status := Draft, lastModified := now)])
    else Written(true, store)
  }

  /** `DELETE FROM responses WHERE interview_id = ?`, whatever the status. */
  function DeleteInterview(store: Store, id: string): (r: Store)
    ensures r.Keys == store.Keys - {id}
    ensures forall k :: k in r ==> r[k] == store[k]
    ensures WellKeyed(store) ==> WellKeyed(r)
  {
    store - {id}
  }

  /** The values of the six inputs of the per-procedure form. */
  datatype ProcedureEdit = ProcedureEdit(
    name: string,
    authority: string,
    status: string,
    officialFees: real,
    totalDays: int,
    complexity: int)

  /** Two procedure entries agree on every key the edit form does not write. */
  predicate SameUneditedFields(a: Procedure, b: Procedure) {
    && a.prepDays == b.prepDays && a.waitDays == b.waitDays
    && a.unofficialPayments == b.unofficialPayments && a.travelCosts == b.travelCosts
    && a.externalSupport == b.externalSupport && a.externalCost == b.externalCost
    && a.externalReason == b.externalReason && a.renewable == b.renewable
    && a.renewalFrequency == b.renewalFrequency && a.applicationMode == b.applicationMode
    && a.documents == b.documents && a.challenges == b.challenges && a.followUps == b.followUps
  }

  /** `procedures[index].update({...})` with the six form values. */
  function EditSingleProcedure(procs: seq<Procedure>, index: nat, e: ProcedureEdit): (r: seq<Procedure>)
    requires index < |procs|
    ensures |r| == |procs|
    ensures forall j :: 0 <= j < |procs| && j != index ==> r[j] == procs[j]
    ensures r[index].name == e.name && r[index].authority == e.authority && r[index].status == e.status
    ensures r[index].officialFees == Some(e.officialFees) && r[index].totalDays == Some(e.totalDays)
    ensures r[index].complexity == e.complexity
    ensures SameUneditedFields(procs[index], r[index])
  {
    procs[index := procs[index].(name := e.name, authority := e.authority, status := e.status,
                                 officialFees := Some(e.officialFees), totalDays := Some(e.totalDays),
                                 complexity := e.complexity)]
  }

  /** Submitting the form with the values it was filled with changes nothing. */
  lemma EditWithCurrentValuesIsIdentity(procs: seq<Procedure>, index: nat)
    requires index < |procs| && procs[index].officialFees.Some? && procs[index].totalDays.Some?
    ensures var p := procs[index];
      EditSingleProcedure(procs, index,
        ProcedureEdit(p.name, p.authority, p.status, p.officialFees.value, p.totalDays.value, p.complexity)) == procs
  {
  }

  /** The same edit submitted twice has the effect of once. */
  lemma EditIdempotent(procs: seq<Procedure>, index: nat, e: ProcedureEdit)
    requires index < |procs|
    ensures EditSingleProcedure(EditSingleProcedure(procs, index, e), index, e) == EditSingleProcedure(procs, index, e)
  {
  }

  /** A row's stored totals are the ones its stored procedure list gives. */
  ghost predicate MetricsConsistent(r: Row) {
    r.metrics == ComputeMetrics(DecodeOrEmpty(r.procedureData))
  }

  /** The "Update Procedure" button: edit one entry and write the whole list back. */
  function EditStoredProcedure(store: Store, id: string, index: nat, e: ProcedureEdit, now: Timestamp): (w: Written)
    requires id in store && index < |DecodeOrEmpty(store[id].procedureData)|
    ensures w.ok && OthersUntouched(store, w.store, id)
    ensures DecodeOrEmpty(w.store[id].procedureData) == EditSingleProcedure(DecodeOrEmpty(store[id].procedureData), index, e)
    ensures Agree(store[id], w.store[id], {ProcedureDataCol, LastModifiedCol})
  {
    var procs := EditSingleProcedure(DecodeOrEmpty(store[id].procedureData), index, e);
    UpdateInterview(store, id, Patch(map[], Some(procs), None), now)
  }

  /**
   Editing fees or days leaves the stored totals as they were, so they no
   longer match the list once the total cost or time moves.
   */
  lemma {:induction false} EditLeavesMetricsStale(store: Store, id: string, index: nat, e: ProcedureEdit, now: Timestamp)
    requires id in store && index < |DecodeOrEmpty(store[id].procedureData)|
    requires MetricsConsistent(store[id])
    requires TotalCost(EditSingleProcedure(DecodeOrEmpty(store[id].procedureData), index, e))
             != TotalCost(DecodeOrEmpty(store[id].procedureData))
    ensures !MetricsConsistent(EditStoredProcedure(store, id, index, e, now).store[id])
  {
    var w := EditStoredProcedure(store, id, index, e, now);
    assert w.store[id].metrics == store[id].metrics;
  }

  /**
   `recalculate_totals`: the procedure list's totals and risk score, by the
   formulas `save_draft` uses, written to the row.
   */
  function RecalculateTotals(store: Store, id: string, procs: seq<Procedure>, now: Timestamp): (w: Written)
    ensures w.ok && OthersUntouched(store, w.store, id)
    ensures id in store ==>
      && w.store[id].metrics == ComputeMetrics(procs)
      && w.store[id].metrics.totalCost == TotalCost(procs)
      && w.store[id].metrics.totalTime == TotalTime(procs)
      && w.store[id].metrics.riskScore <= MaxRisk
      && Agree(store[id], w.store[id], {MetricsCol, LastModifiedCol})
  {
    var p := Patch(map[], None, Some(ComputeMetrics(procs)));
    assert Touched(p) == {MetricsCol};
    UpdateInterview(store, id, p, now)
  }

  /** Recomputing from the stored list brings the totals back in line with it. */
  lemma RecalculateRestoresConsistency(store: Store, id: string, now: Timestamp)
    requires id in store
    ensures MetricsConsistent(RecalculateTotals(store, id, DecodeOrEmpty(store[id].procedureData), now).store[id])
  {
  }

  /** Edit then recalculate: the totals again describe the edited list. */
  lemma EditThenRecalculate(store: Store, id: string, index: nat, e: ProcedureEdit, t1: Timestamp, t2: Timestamp)
    requires id in store && index < |DecodeOrEmpty(store[id].procedureData)|
    ensures var w1 := EditStoredProcedure(store, id, index, e, t1);
      var w2 := RecalculateTotals(w1.store, id, DecodeOrEmpty(w1.store[id].procedureData), t2);
      MetricsConsistent(w2.store[id])
  {
  }

  /** The messages of `validate_procedures_data`, numbered from 1. */
  datatype Issue =
    | MissingName(n: nat)
    | MissingAuthority(n: nat)
    | NegativeFees(n: nat)
    | NegativeDays(n: nat)

  /** Errors for the entry at position `i`: name first, then authority. */
  function EntryErrors(p: Procedure, i: nat): seq<Issue> {
    (if p.name == "" then [MissingName(i + 1)] else [])
    + (if p.authority == "" then [MissingAuthority(i + 1)] else [])
  }

  /** Warnings for the entry at position `i`: fees first, then days; a missing value reads as 0. */
  function EntryWarnings(p: Procedure, i: nat): seq<Issue> {
    (if p.officialFees.GetOr(0.0) < 0.0 then [NegativeFees(i + 1)] else [])
    + (if p.totalDays.GetOr(0) < 0 then [NegativeDays(i + 1)] else [])
  }

  /** Reference lists: every entry's issues in list order. */
  function AllErrors(ps: seq<Procedure>): seq<Issue>
    decreases |ps|
  {
    if ps == [] then [] else AllErrors(ps[..|ps| - 1]) + EntryErrors(ps[|ps| - 1], |ps| - 1)
  }

  function AllWarnings(ps: seq<Procedure>): seq<Issue>
    decreases |ps|
  {
    if ps == [] then [] else AllWarnings(ps[..|ps| - 1]) + EntryWarnings(ps[|ps| - 1], |ps| - 1)
  }

  predicate EntryValid(p: Procedure) {
    p.name != "" && p.authority != "" && p.officialFees.GetOr(0.0) >= 0.0 && p.totalDays.GetOr(0) >= 0
  }

  /** An issue names the entry it is about, and says what is wrong with it. */
  predicate Describes(ps: seq<Procedure>, x: Issue) {
    1 <= x.n <= |ps| &&
    match x
    case MissingName(n) => ps[n - 1].name == ""
    case MissingAuthority(n) => ps[n - 1].authority == ""
    case NegativeFees(n) => ps[n - 1].officialFees.GetOr(0.0) < 0.0
    case NegativeDays(n) => ps[n - 1].totalDays.GetOr(0) < 0
  }

  /** Both lists are sound, and they are empty exactly when every entry is valid. */
  lemma IssuesCharacterised(ps: seq<Procedure>)
    ensures forall x :: x in AllErrors(ps) ==> (x.MissingName? || x.MissingAuthority?) && Describes(ps, x)
    ensures forall x :: x in AllWarnings(ps) ==> (x.NegativeFees? || x.NegativeDays?) && Describes(ps, x)
    ensures AllErrors(ps) == [] && AllWarnings(ps) == [] <==> forall i :: 0 <= i < |ps| ==> EntryValid(ps[i])
  {
    ErrorsSound(ps);
    WarningsSound(ps);
    NoIssuesIffValid(ps);
  }

  lemma {:induction false} ErrorsSound(ps: seq<Procedure>)
    decreases |ps|
    ensures forall x :: x in AllErrors(ps) ==> (x.MissingName? || x.MissingAuthority?) && Describes(ps, x)
  {
    if ps != [] {
      var front := ps[..|ps| - 1];
      ErrorsSound(front);
      assert AllErrors(ps) == AllErrors(front) + EntryErrors(ps[|ps| - 1], |ps| - 1);
      forall x | x in AllErrors(ps) ensures (x.MissingName? || x.MissingAuthority?) && Describes(ps, x) {
        if x in AllErrors(front) {
          assert ps[x.n - 1] == front[x.n - 1];
        }
      }
    }
  }

  lemma {:induction false} WarningsSound(ps: seq<Procedure>)
    decreases |ps|
    ensures forall x :: x in AllWarnings(ps) ==> (x.NegativeFees? || x.NegativeDays?) && Describes(ps, x)
  {
    if ps != [] {
      var front := ps[..|ps| - 1];
      WarningsSound(front);
      assert AllWarnings(ps) == AllWarnings(front) + EntryWarnings(ps[|ps| - 1], |ps| - 1);
      forall x | x in AllWarnings(ps) ensures (x.NegativeFees? || x.NegativeDays?) && Describes(ps, x) {
        if x in AllWarnings(front) {
          assert ps[x.n - 1] == front[x.n - 1];
        }
      }
    }
  }

  lemma {:induction false} NoIssuesIffValid(ps: seq<Procedure>)
    decreases |ps|
    ensures AllErrors(ps) == [] && AllWarnings(ps) == [] <==> forall i :: 0 <= i < |ps| ==> EntryValid(ps[i])
  {
    if ps != [] {
      var front := ps[..|ps| - 1];
      var last := ps[|ps| - 1];
      NoIssuesIffValid(front);
      assert AllErrors(ps) == AllErrors(front) + EntryErrors(last, |ps| - 1);
      assert AllWarnings(ps) == AllWarnings(front) + EntryWarnings(last, |ps| - 1);
      assert EntryErrors(last, |ps| - 1) == [] && EntryWarnings(last, |ps| - 1) == [] <==> EntryValid(last);
      assert (forall i :: 0 <= i < |ps| ==> EntryValid(ps[i])) <==>
        (forall i :: 0 <= i < |front| ==> EntryValid(front[i])) && EntryValid(last) by {
        forall i | 0 <= i < |front| ensures front[i] == ps[i] {
        }
      }
    }
  }

  /** Every missing name, missing authority or negative value gets its message. */
  lemma {:induction false} IssuesComplete(ps: seq<Procedure>, i: nat)
    requires i < |ps|
    decreases |ps|
    ensures ps[i].name == "" ==> MissingName(i + 1) in AllErrors(ps)
    ensures ps[i].authority == "" ==> MissingAuthority(i + 1) in AllErrors(ps)
    ensures ps[i].officialFees.GetOr(0.0) < 0.0 ==> NegativeFees(i + 1) in AllWarnings(ps)
    ensures ps[i].totalDays.GetOr(0) < 0 ==> NegativeDays(i + 1) in AllWarnings(ps)
  {
    if i < |ps| - 1 {
      var front := ps[..|ps| - 1];
      assert front[i] == ps[i];
      IssuesComplete(front, i);
    }
  }

  /**
   `validate_procedures_data`: one pass over the list collecting the errors
   and warnings; the data is reported valid when both are empty.
   */
  method ValidateProcedures(ps: seq<Procedure>) returns (errors: seq<Issue>, warnings: seq<Issue>, valid: bool)
    ensures errors == AllErrors(ps) && warnings == AllWarnings(ps)
    ensures valid <==> forall i :: 0 <= i < |ps| ==> EntryValid(ps[i])
    ensures ps == [] ==> valid
  {
    errors, warnings := [], [];
    var i := 0;
    while i < |ps|
      invariant 0 <= i <= |ps|
      invariant errors == AllErrors(ps[..i])
      invariant warnings == AllWarnings(ps[..i])
    {
      assert ps[..i + 1][..i] == ps[..i];
      errors := errors + EntryErrors(ps[i], i);
      warnings := warnings + EntryWarnings(ps[i], i);
      i := i + 1;
    }
    assert ps[..i] == ps;
    IssuesCharacterised(ps);
    valid := errors == [] && warnings == [];
  }
}

=== FILE: interviews.dfy ===
/**
 The interviewer-side record lifecycle of app.py: the `save_draft` upsert,
 the duplicate-business-name gate and `submit_final`, and the Section D
 "save, then submit" sequence. The clock, the user, the current section and
 the freshly generated interview id are parameters.
 */
module Interviews {
  import opened Basics
  import opened JsonColumns
  import opened Records
  import opened Metrics
  import opened Progress
  import opened Drafts
  import Editor

  /**
   The questionnaire columns as `save_draft` writes them (app.py:413-444):
   every column gets the form's answer, or the column's default when the form
   has no such key.
   */
  function FormAnswers(data: FormData): (a: map<string, Scalar>)
    ensures a.Keys == AnswerDefaults.Keys
    ensures forall k :: k in AnswerDefaults && k in data.answers ==> a[k] == data.answers[k]
    ensures forall k :: k in AnswerDefaults && k !in data.answers ==> a[k] == AnswerDefaults[k]
  {
    map k | k in AnswerDefaults :: Lookup(data.answers, k).GetOr(AnswerDefaults[k])
  }

  /** The interview id `save_draft` reports, and the table after the call. */
  datatype Saved = Saved(id: string, store: Store)

  /** The id `save_draft` works on: the one given, or a fresh one when none is (`if not interview_id`). */
  function TargetId(requestedId: string, freshId: string): string {
    if requestedId != "" then requestedId else freshId
  }

  /** The columns `save_draft` rewrites on an interview it already holds. */
  ghost function Rewritten(): set<Column> {
    (set n | n in AnswerDefaults :: AnswerCol(n)) +
    {IsicCodesCol, ProcedureDataCol, ReformPrioritiesCol, MetricsCol, LastModifiedCol,
     CreatedByCol, CurrentSectionCol, DraftProgressCol}
  }

  /**
   What every row `save_draft` writes holds: the save's stamps, the form's
   answers with their defaults, the form's lists, the metrics of the form's
   procedures, whose risk score is bounded, and the save-time progress, 20 to
   80 per cent, at most 60 when the form holds its reforms as a list.
   */
  ghost predicate SavedContents(row: Row, data: FormData, now: Timestamp, user: Option<string>, section: string) {
    && row.lastModified == now
    && row.createdBy == user && row.currentSection == section
    && (forall k :: k in AnswerDefaults ==> Field(row, k) == FormAnswers(data)[k])
    && DecodeOrEmpty(row.procedureData) == data.procedures
    && DecodeOrEmpty(row.isicCodes) == data.isicCodes
    && row.reformPriorities == EncodeReforms(data.reformPriorities)
    && row.metrics == ComputeMetrics(data.procedures)
    && row.metrics.riskScore <= MaxRisk
    && row.draftProgress == SaveProgress(data, section)
    && 20.0 <= row.draftProgress <= 80.0
    && (data.reformPriorities.ReformList? ==> row.draftProgress <= 60.0)
  }

  /** The UPDATE branch of `save_draft`: `prev` with its data, metrics, stamps and progress rewritten. */
  function ResavedRow(prev: Row, data: FormData, now: Timestamp, user: Option<string>, section: string): (row: Row)
    ensures Agree(prev, row, Rewritten())
    ensures SavedContents(row, data, now, user, section)
  {
    prev.(
      answers := prev.answers + FormAnswers(data),
      isicCodes := Encode(data.isicCodes),
      procedureData := Encode(data.procedures),
      reformPriorities := EncodeReforms(data.reformPriorities),
      metrics := ComputeMetrics(data.procedures),
      lastModified := now,
      createdBy := user,
      currentSection := section,
      draftProgress := SaveProgress(data, section))
  }

  /** The INSERT branch of `save_draft`: a fresh draft whose submission date is the save time. */
  function NewDraftRow(id: string, data: FormData, now: Timestamp, user: Option<string>, section: string): (row: Row)
    ensures row.interviewId == id && row.status == Draft && row.submissionDate == now
    ensures SavedContents(row, data, now, user, section)
  {
    Row(id, FormAnswers(data), Encode(data.isicCodes), Encode(data.procedures),
        EncodeReforms(data.reformPriorities), ComputeMetrics(data.procedures), Draft, now, now, user, section,
        SaveProgress(data, section))
  }

  /**
   `save_draft`: an unknown id inserts a draft whose submission_date and
   last_modified are both `now`; a known id has its data columns, derived
   metrics, last_modified, created_by, current_section and draft_progress
   rewritten, while status and submission_date stay as they were.
   */
  function SaveDraft(store: Store, data: FormData, requestedId: string, freshId: string,
                     now: Timestamp, user: Option<string>, section: string): (s: Saved)
    ensures s.id == (if requestedId != "" then requestedId else freshId)
    ensures s.store.Keys == store.Keys + {s.id}
    ensures s.store == store[s.id := s.store[s.id]]
    ensures s.id !in store ==>
      && s.store[s.id].interviewId == s.id
      && s.store[s.id].status == Draft
      && s.store[s.id].submissionDate == now
    ensures s.id in store ==> Agree(store[s.id], s.store[s.id], Rewritten())
    ensures SavedContents(s.store[s.id], data, now, user, section)
    ensures WellKeyed(store) ==> WellKeyed(s.store)
  {
    var id := TargetId(requestedId, freshId);
    StoreKeepsWellKeyed(store, id, SavedRow(store, id, data, now, user, section));
    Saved(id, store[id := SavedRow(store, id, data, now, user, section)])
  }

  /** The row `save_draft` leaves under `id`: the rewritten old row, or a new draft. */
  function SavedRow(store: Store, id: string, data: FormData, now: Timestamp, user: Option<string>, section: string): (row: Row)
    ensures id !in store ==> row.interviewId == id && row.status == Draft && row.submissionDate == now
    ensures id in store ==> Agree(store[id], row, Rewritten())
    ensures id in store ==> row.interviewId == store[id].interviewId
    ensures SavedContents(row, data, now, user, section)
  {
    if id in store then ResavedRow(store[id], data, now, user, section)
    else NewDraftRow(id, data, now, user, section)
  }

  /**
   A saved row's metrics are those of the procedure list it stores, so the
   editor finds it consistent; a table whose rows all are stays so.
   */
  lemma SaveDraftKeepsMetricsConsistent(store: Store, data: FormData, requestedId: string, freshId: string,
                                        now: Timestamp, user: Option<string>, section: string)
    ensures var s := SaveDraft(store, data, requestedId, freshId, now, user, section);
      Editor.MetricsConsistent(s.store[s.id])
    ensures (forall k :: k in store ==> Editor.MetricsConsistent(store[k])) ==>
      var s := SaveDraft(store, data, requestedId, freshId, now, user, section);
      forall k :: k in s.store ==> Editor.MetricsConsistent(s.store[k])
  {
  }

  /** Re-saving a submitted interview leaves it submitted, with its submission date. */
  lemma SaveKeepsSubmission(store: Store, data: FormData, id: string, freshId: string,
                            now: Timestamp, user: Option<string>, section: string)
    requires id != "" && id in store && store[id].status == Submitted
    ensures var s := SaveDraft(store, data, id, freshId, now, user, section);
      s.id == id && s.store[id].status == Submitted && s.store[id].submissionDate == store[id].submissionDate
  {
  }

  /** Overriding with the same map twice is overriding once. */
  lemma UnionAbsorbs<K, V>(x: map<K, V>, a: map<K, V>)
    ensures (x + a) + a == x + a
  {
  }

  /**
   Saving the same form twice, the second time under the id the first save
   reported, gives the same row apart from last_modified and touches no other
   row. Generated ids are never empty (app.py:564-566).
   */
  lemma SaveIdempotent(store: Store, data: FormData, requestedId: string, freshId: string, freshId2: string,
                       t1: Timestamp, t2: Timestamp, user: Option<string>, section: string)
    requires freshId != ""
    ensures var s1 := SaveDraft(store, data, requestedId, freshId, t1, user, section);
      var s2 := SaveDraft(s1.store, data, s1.id, freshId2, t2, user, section);
      && s2.id == s1.id
      && s2.store == s1.store[s1.id := s1.store[s1.id].(lastModified := t2)]
  {
    var s1 := SaveDraft(store, data, requestedId, freshId, t1, user, section);
    if s1.id in store {
      ResaveTwice(store[s1.id], data, t1, t2, user, section);
    } else {
      ResaveNew(s1.id, data, t1, t2, user, section);
    }
  }

  /** Re-saving a re-saved row with the same form only moves last_modified. */
  lemma ResaveTwice(prev: Row, data: FormData, t1: Timestamp, t2: Timestamp, user: Option<string>, section: string)
    ensures var r1 := ResavedRow(prev, data, t1, user, section);
      ResavedRow(r1, data, t2, user, section) == r1.(lastModified := t2)
  {
    UnionAbsorbs(prev.answers, FormAnswers(data));
  }

  /** Re-saving a freshly inserted draft with the same form only moves last_modified. */
  lemma ResaveNew(id: string, data: FormData, t1: Timestamp, t2: Timestamp, user: Option<string>, section: string)
    ensures var r1 := NewDraftRow(id, data, t1, user, section);
      ResavedRow(r1, data, t2, user, section) == r1.(lastModified := t2)
  {
    var a := FormAnswers(data);
    UnionAbsorbs(map[], a);
    assert map[] + a == a;
  }

  /**
   Saving then loading gives back the form's answers, lists and section; the
   reform value comes back as the text that was written.
   */
  lemma {:induction false} LoadAfterSave(store: Store, data: FormData, requestedId: string, freshId: string,
                                         now: Timestamp, user: Option<string>, section: string)
    ensures var s := SaveDraft(store, data, requestedId, freshId, now, user, section);
      var loaded := LoadDraft(s.store, s.id);
      && loaded.Some?
      && loaded.value.form.answers == FormAnswers(data)
      && loaded.value.procedures == data.procedures
      && loaded.value.isicCodes == data.isicCodes
      && loaded.value.currentSection == section
      && loaded.value.form.reformPriorities == LoadedText(EncodeReforms(data.reformPriorities))
      && (data.reformPriorities.ReformList? ==>
            (SectionD(SaveView(loaded.value.form)) <==> data.reformPriorities.items != []))
  {
    var s := SaveDraft(store, data, requestedId, freshId, now, user, section);
    var loaded := LoadDraft(s.store, s.id);
    assert loaded.value.form.answers == FormAnswers(data);
    if data.reformPriorities.ReformList? {
      LoadedReformsCountIffNonEmpty(s.store, s.id, data.reformPriorities.items);
    }
  }

  /**
   Saving the form a draft load left behind, as the Section C button does
   after updating some answers, writes an empty procedure list and no ISIC
   codes over the stored ones, and wraps a stored reform list in a JSON string.
   */
  lemma ReloadedSaveLosesLists(store: Store, id: string, updates: map<string, Scalar>, freshId: string,
                               now: Timestamp, user: Option<string>, section: string)
    requires id != "" && id in store
    ensures var form := LoadDraft(store, id).value.form;
      var s := SaveDraft(store, form.(answers := form.answers + updates), id, freshId, now, user, section);
      && s.store[id].procedureData == EncodedList([])
      && s.store[id].metrics == ComputeMetrics([])
      && s.store[id].isicCodes == EncodedList([])
      && (store[id].reformPriorities.EncodedList? ==> s.store[id].reformPriorities == Quoted(store[id].reformPriorities))
  {
  }

  /** For instance, a draft's two procedures are gone after a reload and a save. */
  lemma ReloadedSaveDropsProcedures(store: Store, id: string, p: Procedure, q: Procedure, freshId: string,
                                    now: Timestamp, user: Option<string>, section: string)
    requires id != "" && id in store && store[id].procedureData == EncodedList([p, q])
    ensures var form := LoadDraft(store, id).value.form;
      var s := SaveDraft(store, form, id, freshId, now, user, section);
      && LoadDraft(store, id).value.procedures == [p, q]
      && DecodeOrEmpty(s.store[id].procedureData) == []
  {
  }

  /**
   With the intended load, a reload followed by a save keeps the three lists
   as they were stored.
   */
  lemma ReloadedSaveKeepsLists(store: Store, id: string, updates: map<string, Scalar>, freshId: string,
                               now: Timestamp, user: Option<string>, section: string)
    requires id != "" && id in store
    ensures var form := LoadDraftIntended(store, id).value.form;
      var s := SaveDraft(store, form.(answers := form.answers + updates), id, freshId, now, user, section);
      && DecodeOrEmpty(s.store[id].procedureData) == DecodeOrEmpty(store[id].procedureData)
      && DecodeOrEmpty(s.store[id].isicCodes) == DecodeOrEmpty(store[id].isicCodes)
      && DecodeOrEmpty(s.store[id].reformPriorities) == DecodeOrEmpty(store[id].reformPriorities)
  {
  }

  /** The `business_name = ?` match of the duplicate query. */
  predicate HasBusinessName(r: Row, name: string) {
    Lookup(r.answers, "business_name") == Some(SText(name))
  }

  /** The rows the duplicate query counts: same name, and another id when one is given. */
  predicate CountedAsDuplicate(store: Store, k: string, name: string, currentId: string)
    requires k in store
  {
    (currentId == "" || k != currentId) && HasBusinessName(store[k], name)
  }

  /** The `SELECT COUNT(*)` of `check_duplicate_business_name`. */
  function DuplicateCount(store: Store, name: string, currentId: string): nat {
    |set k | k in store && CountedAsDuplicate(store, k, name, currentId)|
  }

  lemma NonEmptyHasMember<T>(s: set<T>)
    requires |s| > 0
    ensures exists x :: x in s
  {
    var x :| x in s;
  }

  /**
   `check_duplicate_business_name`: some row of any status, other than the
   interview itself, already has this business name.
   */
  function CheckDuplicateBusinessName(store: Store, name: string, currentId: string): (dup: bool)
    ensures dup <==> exists k :: k in store && CountedAsDuplicate(store, k, name, currentId)
  {
    var matches := set k | k in store && CountedAsDuplicate(store, k, name, currentId);
    if |matches| > 0 then
      NonEmptyHasMember(matches);
      true
    else
      assert forall k :: k in store && CountedAsDuplicate(store, k, name, currentId) ==> k in matches;
      false
  }

  /**
   `submit_final`: refused, with nothing changed, when the name is a duplicate;
   otherwise the row becomes submitted with `now` as its submission date and
   nothing else changes. An id with no row reports success and changes nothing.
   */
  function SubmitFinal(store: Store, id: string, name: Option<string>, now: Timestamp): (w: Written)
    ensures !w.ok <==> name.Some? && exists k :: k in store && CountedAsDuplicate(store, k, name.value, id)
    ensures !w.ok ==> w.store == store
    ensures OthersUntouched(store, w.store, id)
    ensures w.ok && id in store ==>
      && w.store[id].status == Submitted
      && w.store[id].submissionDate == now
      && Agree(store[id], w.store[id], {StatusCol, SubmissionDateCol})
    ensures id !in store ==> w.store == store
    ensures WellKeyed(store) ==> WellKeyed(w.store)
  {
    if name.Some? && CheckDuplicateBusinessName(store, name.value, id) then Written(false, store)
    else if id in store then Written(true, store[id := store[id].(status := Submitted, submissionDate := now)])
    else Written(true, store)
  }

  /** Another interview, of any status, already using the name blocks the submission. */
  lemma DuplicateNameGate(store: Store, id: string, other: string, name: string, now: Timestamp)
    requires other in store && other != id && HasBusinessName(store[other], name)
    requires id in store && store[id].status == Draft
    ensures !SubmitFinal(store, id, Some(name), now).ok
    ensures SubmitFinal(store, id, Some(name), now).store[id].status == Draft
  {
    assert CountedAsDuplicate(store, other, name, id);
  }

  /** The interview's own row never counts as its duplicate. */
  lemma OwnNameIsNoDuplicate(store: Store, id: string, name: string, now: Timestamp)
    requires id != "" && id in store && HasBusinessName(store[id], name)
    requires forall k :: k in store && k != id ==> !HasBusinessName(store[k], name)
    ensures SubmitFinal(store, id, Some(name), now).ok
    ensures SubmitFinal(store, id, Some(name), now).store[id].status == Submitted
  {
  }

  /** Two different submitted interviews never share a business name. */
  ghost predicate SubmittedNamesUnique(s: Store) {
    forall k1, k2, name ::
      (k1 in s && k2 in s && k1 != k2 && s[k1].status == Submitted && s[k2].status == Submitted
       && HasBusinessName(s[k1], name)) ==> !HasBusinessName(s[k2], name)
  }

  /** Submitting under the row's own stored name keeps submitted names unique. */
  lemma {:induction false} SubmitKeepsNamesUnique(store: Store, id: string, name: string, now: Timestamp)
    requires SubmittedNamesUnique(store)
    requires id in store && HasBusinessName(store[id], name)
    ensures SubmittedNamesUnique(SubmitFinal(store, id, Some(name), now).store)
  {
    var w := SubmitFinal(store, id, Some(name), now);
    if w.ok {
      var s := w.store;
      assert forall k :: k in store && k != id ==> !HasBusinessName(store[k], name) by {
        assert forall k :: k in store ==> !CountedAsDuplicate(store, k, name, id);
      }
      forall k1, k2, n | k1 in s && k2 in s && k1 != k2
        && s[k1].status == Submitted && s[k2].status == Submitted && HasBusinessName(s[k1], n)
        ensures !HasBusinessName(s[k2], n)
      {
        assert Lookup(s[id].answers, "business_name") == Lookup(store[id].answers, "business_name");
        if k1 == id {
          assert n == name;
        } else if k2 == id {
        } else {
          assert s[k1] == store[k1] && s[k2] == store[k2];
        }
      }
    }
  }

  /**
   `st.session_state.form_data.get('business_name', '')` as the duplicate
   query binds it: the text, '' when the key is absent, and nothing when the
   value is None (a name loaded from a NULL column), which `business_name = ?`
   never matches.
   */
  function FormBusinessName(data: FormData): (name: Option<string>)
    ensures forall t :: name == Some(t) <==> FormAnswers(data)["business_name"] == SText(t)
    ensures name.None? <==> !FormAnswers(data)["business_name"].SText?
  {
    match Lookup(data.answers, "business_name").GetOr(SText(""))
    case SText(t) => Some(t)
    case _ => None
  }

  /** A business name of None blocks no submission, whatever the table holds. */
  lemma NullNameNeverDuplicate(store: Store, data: FormData, id: string, now: Timestamp)
    requires Lookup(data.answers, "business_name") == Some(SNull)
    ensures SubmitFinal(store, id, FormBusinessName(data), now).ok
  {
  }

  /**
   The outcome of submitting the saved row `s.id` under `name`: refused, with
   the save kept, exactly when the name is a duplicate; otherwise the saved row
   becomes submitted at `now` and nothing else changes. Rows other than the
   saved one are as they were before the save.
   */
  ghost predicate SubmittedAfterSave(store: Store, s: Saved, name: Option<string>, now: Timestamp, w: Written) {
    && (w.ok <==> !(name.Some? && CheckDuplicateBusinessName(s.store, name.value, s.id)))
    && (!w.ok ==> w.store == s.store)
    && (w.ok ==>
          && s.id in s.store && s.id in w.store
          && w.store[s.id].status == Submitted
          && w.store[s.id].submissionDate == now
          && Agree(s.store[s.id], w.store[s.id], {StatusCol, SubmissionDateCol}))
    && (forall k :: k in store && k != s.id ==> k in w.store && w.store[k] == store[k])
  }

  /**
   Section D's submit button (app.py:1715-1718): save the form as a draft,
   then submit the saved id under the form's business name.
   */
  function SaveAndSubmit(store: Store, data: FormData, requestedId: string, freshId: string,
                         now: Timestamp, user: Option<string>, section: string): (w: Written)
    ensures var s := SaveDraft(store, data, requestedId, freshId, now, user, section);
      w.store.Keys == store.Keys + {s.id}
    ensures SubmittedAfterSave(store, SaveDraft(store, data, requestedId, freshId, now, user, section),
                               FormBusinessName(data), now, w)
  {
    var s := SaveDraft(store, data, requestedId, freshId, now, user, section);
    var name := FormBusinessName(data);
    SubmitAfterSave(store, s, name, now);
    SubmitFinal(s.store, s.id, name, now)
  }

  /** Submitting right after a save that touched only `s.id`. */
  lemma SubmitAfterSave(store: Store, s: Saved, name: Option<string>, now: Timestamp)
    requires s.id in s.store && s.store == store[s.id := s.store[s.id]]
    ensures var w := SubmitFinal(s.store, s.id, name, now);
      && w.store.Keys == store.Keys + {s.id}
      && SubmittedAfterSave(store, s, name, now, w)
  {
  }

  /**
   When the form names the business and the target is a draft or a new row,
   save-then-submit keeps submitted business names unique, whether the
   submission is accepted or refused.
   */
  lemma {:induction false} SaveAndSubmitKeepsNamesUnique(store: Store, data: FormData, requestedId: string, freshId: string,
                                                         now: Timestamp, user: Option<string>, section: string, name: string)
    requires SubmittedNamesUnique(store)
    requires Lookup(data.answers, "business_name") == Some(SText(name))
    requires var id := TargetId(requestedId, freshId); id !in store || store[id].status == Draft
    ensures SubmittedNamesUnique(SaveAndSubmit(store, data, requestedId, freshId, now, user, section).store)
  {
    var s := SaveDraft(store, data, requestedId, freshId, now, user, section);
    assert s.store[s.id].status == Draft;
    assert FormAnswers(data)["business_name"] == SText(name);
    assert HasBusinessName(s.store[s.id], name);
    forall k1, k2, n | k1 in s.store && k2 in s.store && k1 != k2
      && s.store[k1].status == Submitted && s.store[k2].status == Submitted && HasBusinessName(s.store[k1], n)
      ensures !HasBusinessName(s.store[k2], n)
    {
      assert k1 != s.id && k2 != s.id;
      assert s.store[k1] == store[k1] && s.store[k2] == store[k2];
    }
    SubmitKeepsNamesUnique(s.store, s.id, name, now);
  }

  /**
   `save_draft` itself runs no duplicate check: only the Section A save
   checks before calling it (app.py:892-894), so a Section B-D save of a
   submitted interview whose form names a business another submitted
   interview already uses goes through unchecked.
   */
  lemma ResaveCanDuplicateSubmittedName(store: Store, data: FormData, id: string, other: string, freshId: string,
                                        now: Timestamp, user: Option<string>, section: string, name: string)
    requires id != "" && id in store && other in store && other != id
    requires store[id].status == Submitted && store[other].status == Submitted
    requires HasBusinessName(store[other], name)
    requires Lookup(data.answers, "business_name") == Some(SText(name))
    ensures !SubmittedNamesUnique(SaveDraft(store, data, id, freshId, now, user, section).store)
  {
    var s := SaveDraft(store, data, id, freshId, now, user, section).store;
    assert FormAnswers(data)["business_name"] == SText(name);
    assert HasBusinessName(s[id], name);
    assert s[other] == store[other];
  }
}

=== FILE: json_columns.dfy ===
/**
 The JSON side of the interview table: the three list-valued columns
 (`procedure_data`, `isic_codes`, `reform_priorities`) are TEXT holding
 `json.dumps` of what the form holds there, normally a list, and every reader
 falls back to the empty list when the text is missing, `'null'`, `'[]'` or
 not JSON at all.
 */
module JsonColumns {
  import opened Basics

  /** A JSON document, as `json.loads` returns it. */
  datatype JsonValue =
    | JNull
    | JBool(b: bool)
    | JNumber(x: real)
    | JString(s: string)
    | JArray(items: seq<JsonValue>)
    | JObject(members: map<string, JsonValue>)

  /** The content of one list-valued TEXT column. */
  datatype ListColumn<T> =
    | SqlNull                        // the column is NULL
    | EncodedList(items: seq<T>)     // the text of a JSON list; '[]' is EncodedList([])
    | EncodedNull                    // the text 'null'
    | Quoted(inner: ListColumn<T>)   // the text of a JSON string whose content is the text of `inner`
    | Malformed(blank: bool)         // text that is not JSON; `blank` for the empty text
  // `Quoted(SqlNull)` stands for no text: a NULL column is never quoted, and
  // `EncodeReforms` writes a NULL loaded text as 'null' instead (see its contract).

  /** The column holds the empty text. */
  predicate BlankText<T>(c: ListColumn<T>) {
    c.Malformed? && c.blank
  }

  /** `json.dumps(xs)` of a list: a JSON list, never NULL or 'null', that every reader decodes back to `xs`. */
  function Encode<T>(xs: seq<T>): (c: ListColumn<T>)
    ensures c.EncodedList?
    ensures DecodeOrEmpty(c) == xs
  {
    EncodedList(xs)
  }

  /**
   The guarded decode of draft_manager.py and interview_editor.py:
   `if s and s != 'null' and s != '[]': try json.loads(s) except: []`, else `[]`.
   A JSON-string text decodes to a str rather than a list; it is read as no list.
   */
  function DecodeOrEmpty<T>(c: ListColumn<T>): seq<T> {
    match c
    case EncodedList(xs) => xs
    case _ => []
  }

  /** What the application writes, it reads back unchanged. */
  lemma DecodeEncode<T>(xs: seq<T>)
    ensures DecodeOrEmpty(Encode(xs)) == xs
  {
  }

  /** A missing, 'null', '[]' or malformed column reads as the empty list and raises nothing. */
  lemma DecodeFallsBackToEmpty<T>(c: ListColumn<T>)
    requires c == SqlNull || c == EncodedNull || c == EncodedList([]) || c.Malformed?
    ensures DecodeOrEmpty(c) == []
  {
  }

  /**
   A value of the in-memory form dictionary, as far as `calculate_progress`
   can tell them apart: the key is absent (or holds None), it holds a text
   (whose `json.loads` either yields a document or raises), or it holds some
   other Python value, such as the list `save_draft` puts there, on which
   `json.loads` raises a TypeError.
   */
  datatype FormValue =
    | Absent
    | Text(decoded: Option<JsonValue>)
    | TextOfString(content: ListColumn<string>)  // a text `json.loads` turns into a str: the text of `content`
    | NonText

  /** The JSON array of strings that `json.dumps(xs)` denotes. */
  function StringArray(xs: seq<string>): (v: JsonValue)
    ensures v.JArray? && |v.items| == |xs|
    ensures forall i :: 0 <= i < |xs| ==> v.items[i] == JString(xs[i])
  {
    JArray(seq(|xs|, i requires 0 <= i < |xs| => JString(xs[i])))
  }

  /**
   What the form holds under 'reform_priorities': the list Section D puts
   there, or, after a draft was loaded, the column's raw text (`SqlNull` for None).
   */
  datatype ReformsValue =
    | ReformList(items: seq<string>)
    | LoadedText(column: ListColumn<string>)

  /**
   `json.dumps(reform_priorities)` in `save_draft` (app.py:386, 445, 506): a
   list is written as a JSON list, None as 'null', and a loaded text as a JSON
   string holding that text.
   */
  function EncodeReforms(v: ReformsValue): (c: ListColumn<string>)
    ensures v.ReformList? ==> c.EncodedList? && DecodeOrEmpty(c) == v.items
    ensures v.LoadedText? ==> !c.EncodedList? && DecodeOrEmpty(c) == []
    ensures c == EncodedNull <==> v == LoadedText(SqlNull)
    ensures c.Quoted? <==> v.LoadedText? && !v.column.SqlNull?
    ensures c.Quoted? ==> c.inner == v.column
  {
    match v
    case ReformList(xs) => EncodedList(xs)
    case LoadedText(SqlNull) => EncodedNull
    case LoadedText(text) => Quoted(text)
  }

  /** A reform list survives the write and the guarded decode. */
  lemma ReformsRoundTrip(xs: seq<string>)
    ensures DecodeOrEmpty(EncodeReforms(ReformList(xs))) == xs
  {
  }

  /**
   A loaded text that is written back is never a list again: it is 'null' or a
   JSON string nesting the old text one level deeper.
   */
  lemma ReloadedReformsNest(c: ListColumn<string>)
    ensures !EncodeReforms(LoadedText(c)).EncodedList?
    ensures c != SqlNull ==> EncodeReforms(LoadedText(c)).inner == c
  {
  }
}

=== FILE: metrics.dfy ===
/**
 The derived metrics `save_draft` and `recalculate_totals` store with every
 interview: total cost, total time and the clamped risk score.
 Money is `real`, so the arithmetic is exact.
 */
module Metrics {
  import opened Basics
  import opened Records

  /** `proc.get('official_fees', 0) + proc.get('unofficial_payments', 0)` */
  function Cost(p: Procedure): real {
    p.officialFees.GetOr(0.0) + p.unofficialPayments.GetOr(0.0)
  }

  /** `proc.get('total_days', 0)` */
  function Days(p: Procedure): int {
    p.totalDays.GetOr(0)
  }

  /** Reference sum of costs over a procedure list. */
  function TotalCost(ps: seq<Procedure>): real {
    if ps == [] then 0.0 else Cost(ps[0]) + TotalCost(ps[1..])
  }

  /** Reference sum of days over a procedure list. */
  function TotalTime(ps: seq<Procedure>): int {
    if ps == [] then 0 else Days(ps[0]) + TotalTime(ps[1..])
  }

  lemma {:induction false} TotalCostAppend(a: seq<Procedure>, b: seq<Procedure>)
    ensures TotalCost(a + b) == TotalCost(a) + TotalCost(b)
  {
    if a == [] {
      assert a + b == b;
    } else {
      assert (a + b)[1..] == a[1..] + b;
      TotalCostAppend(a[1..], b);
    }
  }

  lemma {:induction false} TotalTimeAppend(a: seq<Procedure>, b: seq<Procedure>)
    ensures TotalTime(a + b) == TotalTime(a) + TotalTime(b)
  {
    if a == [] {
      assert a + b == b;
    } else {
      assert (a + b)[1..] == a[1..] + b;
      TotalTimeAppend(a[1..], b);
    }
  }

  /**
   The two generator sums of app.py:374-375 (and interview_editor.py:504-505),
   accumulated left to right; a missing key contributes 0.
   */
  method SumTotals(ps: seq<Procedure>) returns (cost: real, time: int)
    ensures cost == TotalCost(ps)
    ensures time == TotalTime(ps)
    ensures ps == [] ==> cost == 0.0 && time == 0
  {
    cost, time := 0.0, 0;
    var i := 0;
    while i < |ps|
      invariant 0 <= i <= |ps|
      invariant cost == TotalCost(ps[..i])
      invariant time == TotalTime(ps[..i])
    {
      TotalCostAppend(ps[..i], [ps[i]]);
      TotalTimeAppend(ps[..i], [ps[i]]);
      assert ps[..i + 1] == ps[..i] + [ps[i]];
      cost := cost + Cost(ps[i]);
      time := time + Days(ps[i]);
      i := i + 1;
    }
    assert ps[..i] == ps;
  }

  /** A list whose every entry has a non-negative cost has a non-negative total. */
  lemma {:induction false} TotalCostNonNegative(ps: seq<Procedure>)
    requires forall i :: 0 <= i < |ps| ==> Cost(ps[i]) >= 0.0
    ensures TotalCost(ps) >= 0.0
  {
    if ps != [] {
      TotalCostNonNegative(ps[1..]);
    }
  }

  lemma {:induction false} TotalTimeNonNegative(ps: seq<Procedure>)
    requires forall i :: 0 <= i < |ps| ==> Days(ps[i]) >= 0
    ensures TotalTime(ps) >= 0
  {
    if ps != [] {
      TotalTimeNonNegative(ps[1..]);
    }
  }

  /** The two fixed normalisation constants and the cap of the risk score. */
  const CostScale: real := 100000.0
  const DaysPerYear: real := 365.0
  const MaxRisk: real := 10.0

  /** `min((total_cost / 100000 + total_time / 365) * 10, 10)` */
  function RiskScore(cost: real, time: int): (r: real)
    ensures r <= MaxRisk
    ensures cost >= 0.0 && time >= 0 ==> r >= 0.0
    ensures cost <= 0.0 && time <= 0 ==> r <= 0.0
  {
    var raw := (cost / CostScale + time as real / DaysPerYear) * 10.0;
    if MaxRisk < raw then MaxRisk else raw
  }

  /** The risk score never decreases when cost or time grows. */
  lemma RiskScoreMonotone(c1: real, t1: int, c2: real, t2: int)
    requires c1 <= c2 && t1 <= t2
    ensures RiskScore(c1, t1) <= RiskScore(c2, t2)
  {
  }

  /** The score reaches its cap exactly when the unclamped value does. */
  lemma RiskScoreSaturates(cost: real, time: int)
    ensures RiskScore(cost, time) == MaxRisk <==> (cost / CostScale + time as real / DaysPerYear) * 10.0 >= MaxRisk
  {
  }

  /** The three derived columns for a procedure list. */
  function ComputeMetrics(ps: seq<Procedure>): (m: Metrics)
    ensures m.riskScore <= MaxRisk
    ensures ps == [] ==> m == Metrics(0.0, 0, 0.0)
  {
    Metrics(TotalCost(ps), TotalTime(ps), RiskScore(TotalCost(ps), TotalTime(ps)))
  }

  /** With non-negative costs and days the score lies in [0, 10]. */
  lemma {:induction false} ComputeMetricsInRange(ps: seq<Procedure>)
    requires forall i :: 0 <= i < |ps| ==> Cost(ps[i]) >= 0.0 && Days(ps[i]) >= 0
    ensures 0.0 <= ComputeMetrics(ps).riskScore <= MaxRisk
    ensures ComputeMetrics(ps).totalCost >= 0.0 && ComputeMetrics(ps).totalTime >= 0
  {
    TotalCostNonNegative(ps);
    TotalTimeNonNegative(ps);
  }

  function Entry(fees: real, unofficial: real, days: int): Procedure {
    Procedure("", "", "Completed", 0, 0, Some(days), Some(fees), Some(unofficial),
              0.0, "No", 0.0, None, 3, "No", "", "Mixed", [], "", 0)
  }

  /**
   The worked example: fees 1000 + 0 over 14 days and 500 + 200 over 7 days
   give cost 1700, time 21 and a score of about 0.745.
   */
  lemma WorkedExample()
    ensures var m := ComputeMetrics([Entry(1000.0, 0.0, 14), Entry(500.0, 200.0, 7)]);
      m.totalCost == 1700.0 && m.totalTime == 21 && 0.745 < m.riskScore < 0.746
  {
    var ps := [Entry(1000.0, 0.0, 14), Entry(500.0, 200.0, 7)];
    assert ps[1..][1..] == [];
  }
}

=== FILE: procedure_entry.dfy ===
/**
 How the Section B screens of app.py build the session's procedure list: the
 quick and the detailed entry forms, the sector and national templates, the
 bulk selection, and the in-list edit and delete buttons.
 */
module ProcedureEntry {
  import opened Basics
  import opened Records
  import opened Sequences
  import opened Metrics
  import Editor

  /** The complexity radio of the quick form. */
  datatype ComplexityLabel = VerySimple | SomewhatSimple | Moderate | Complex | VeryComplex

  /** `complexity_map` */
  function ComplexityScore(c: ComplexityLabel): (k: int)
    ensures 1 <= k <= 5
  {
    match c
    case VerySimple => 1
    case SomewhatSimple => 2
    case Moderate => 3
    case Complex => 4
    case VeryComplex => 5
  }

  /** Different labels get different scores, and a harder label a higher one. */
  lemma ComplexityScoreOrdered(a: ComplexityLabel, b: ComplexityLabel)
    ensures ComplexityScore(a) == ComplexityScore(b) <==> a == b
    ensures a == VerySimple ==> ComplexityScore(a) <= ComplexityScore(b)
    ensures b == VeryComplex ==> ComplexityScore(a) <= ComplexityScore(b)
  {
  }

  /** Preparation and waiting days derived from a total. */
  datatype DaySplit = DaySplit(prep: int, wait: int)

  /**
   `max(1, d // q)` and `max(1, d - d // q)`. Python's `//` rounds toward
   negative infinity; for a positive divisor Dafny's `/` does the same.
   The forms use q = 3, the national templates q = 2.
   */
  function SplitDays(d: int, q: int): (s: DaySplit)
    requires q >= 2
    ensures s.prep >= 1 && s.wait >= 1
    ensures s.prep + s.wait == d <==> d >= q
    ensures d < q ==> s.prep + s.wait > d
  {
    var part := d / q;
    DaySplit(if part < 1 then 1 else part, if d - part < 1 then 1 else d - part)
  }

  /** A split of at least q days puts the larger share in the waiting time. */
  lemma SplitDaysShares(d: int, q: int)
    requires q >= 2 && d >= q
    ensures SplitDays(d, q).prep <= SplitDays(d, q).wait
    ensures SplitDays(d, q).prep * q <= d < (SplitDays(d, q).prep + 1) * q
  {
    var p := d / q;
    var m := d % q;
    assert d == p * q + m && 0 <= m < q;
    assert (p + 1) * q == p * q + q;
    assert p >= 1;
    assert p * q == 2 * p + p * (q - 2);
    assert p * (q - 2) >= 0;
  }

  /** The quick-entry form's inputs. */
  datatype QuickInput = QuickInput(
    name: string,
    authority: string,
    status: string,
    cost: real,
    days: int,
    mode: string,
    complexity: ComplexityLabel)

  /**
   "Add Procedure (Quick)": refused unless both name and regulatory body are
   given; otherwise an entry whose whole cost is the official fee.
   */
  function QuickProcedure(q: QuickInput): (r: Option<Procedure>)
    ensures r.Some? <==> q.name != "" && q.authority != ""
    ensures r.Some? ==>
      && r.value.name == q.name && r.value.authority == q.authority
      && Cost(r.value) == q.cost && Days(r.value) == q.days
      && r.value.unofficialPayments == Some(0.0)
      && r.value.prepDays >= 1 && r.value.waitDays >= 1
      && (r.value.prepDays + r.value.waitDays == q.days <==> q.days >= 3)
      && 1 <= r.value.complexity <= 5
  {
    if q.name != "" && q.authority != "" then
      var split := SplitDays(q.days, 3);
      Some(Procedure(q.name, q.authority, q.status, split.prep, split.wait, Some(q.days),
                     Some(q.cost), Some(0.0), 0.0, "No", 0.0, None, ComplexityScore(q.complexity),
                     "Yes", "Annual", q.mode, [], "", 2))
    else None
  }

  /**
   A quick entry with the form's non-negative cost and days passes the
   editor's validation, and adds exactly its cost and days to the totals.
   */
  lemma {:induction false} QuickEntryAdds(procs: seq<Procedure>, q: QuickInput)
    requires q.name != "" && q.authority != "" && q.cost >= 0.0 && q.days >= 0
    ensures Editor.EntryValid(QuickProcedure(q).value)
    ensures TotalCost(procs + [QuickProcedure(q).value]) == TotalCost(procs) + q.cost
    ensures TotalTime(procs + [QuickProcedure(q).value]) == TotalTime(procs) + q.days
  {
    var p := QuickProcedure(q).value;
    TotalCostAppend(procs, [p]);
    TotalTimeAppend(procs, [p]);
    assert [p][1..] == [];
  }

  /** The detailed form's inputs; `documents` holds the text boxes, blanks included. */
  datatype DetailedInput = DetailedInput(
    name: string,
    authority: string,
    status: string,
    mode: string,
    prepDays: int,
    waitDays: int,
    followUps: int,
    totalDays: int,
    officialFees: real,
    unofficialPayments: real,
    travelCosts: real,
    externalSupport: string,
    externalCost: real,
    externalReason: string,
    complexity: int,
    renewable: string,
    renewalFrequency: string,
    documents: seq<string>,
    challenges: string)

  /** A document box the user filled in. */
  predicate FilledDocument(doc: string) {
    doc != ""
  }

  /**
   "Add This Procedure": refused unless name and regulatory body are given.
   Support cost and reason are kept only when support was hired, the renewal
   frequency only for a renewable licence, and blank document boxes are dropped.
   */
  function DetailedProcedure(d: DetailedInput): (r: Option<Procedure>)
    ensures r.Some? <==> d.name != "" && d.authority != ""
    ensures r.Some? ==>
      && Cost(r.value) == d.officialFees + d.unofficialPayments
      && Days(r.value) == d.totalDays
      && (d.externalSupport == "Yes" ==> r.value.externalCost == d.externalCost && r.value.externalReason == Some(d.externalReason))
      && (d.externalSupport != "Yes" ==> r.value.externalCost == 0.0 && r.value.externalReason == Some(""))
      && (d.renewable != "Yes" ==> r.value.renewalFrequency == "N/A")
      && (forall i :: 0 <= i < |r.value.documents| ==> r.value.documents[i] != "" && r.value.documents[i] in d.documents)
      && (forall i :: 0 <= i < |d.documents| && d.documents[i] != "" ==> d.documents[i] in r.value.documents)
      && r.value.documents == Filter(d.documents, FilledDocument)
  {
    if d.name != "" && d.authority != "" then
      var hired := d.externalSupport == "Yes";
      Some(Procedure(d.name, d.authority, d.status, d.prepDays, d.waitDays, Some(d.totalDays),
                     Some(d.officialFees), Some(d.unofficialPayments), d.travelCosts, d.externalSupport,
                     if hired then d.externalCost else 0.0,
                     Some(if hired then d.externalReason else ""),
                     d.complexity, d.renewable,
                     if d.renewable == "Yes" then d.renewalFrequency else "N/A",
                     d.mode, Filter(d.documents, FilledDocument), d.challenges, d.followUps))
    else None
  }

  /** One licence of a template dictionary. */
  datatype LicenseTemplate = LicenseTemplate(
    name: string,
    authority: string,
    renewable: string,
    renewalFrequency: string,
    documents: seq<string>,
    typicalCost: real,
    typicalDays: int,
    complexity: int)

  /** `expanded_licenses["Agribusiness"]`, in dictionary order. */
  const AgribusinessLicenses: seq<LicenseTemplate> := [
    LicenseTemplate("PACRA Business Registration", "PACRA", "No", "One-time",
      ["Application form", "Business name reservation", "Identification documents"], 1000.0, 14, 3),
    LicenseTemplate("ZRA Tax Registration", "ZRA", "No", "One-time",
      ["PACRA certificate", "Business registration", "Owner identification"], 0.0, 7, 2),
    LicenseTemplate("Local Trading License", "Local Council", "Yes", "Annual",
      ["Application form", "Business premises details", "Health certificate"], 1500.0, 21, 4)
  ]

  /** `expanded_licenses["Construction"]`; its complexities 7 and 6 lie outside the 1-5 scale of the forms. */
  const ConstructionLicenses: seq<LicenseTemplate> := [
    LicenseTemplate("NCC Registration", "NCC", "Yes", "Annual",
      ["Company registration", "Technical staff certificates", "Equipment list"], 5000.0, 30, 7),
    LicenseTemplate("Building Permit", "Local Council", "No", "Project-based",
      ["Architectural drawings", "Structural designs", "Site plans"], 2500.0, 45, 6)
  ]

  /** `common_national`: these entries carry no renewal frequency or documents. */
  const CommonNationalLicenses: seq<LicenseTemplate> := [
    LicenseTemplate("PACRA Business Registration", "PACRA", "No", "", [], 1000.0, 14, 3),
    LicenseTemplate("ZRA Tax Registration", "ZRA", "No", "", [], 0.0, 7, 2)
  ]

  /** `expanded_licenses.get(sector)`: only two sectors have templates. */
  function SectorLicenses(sector: string): (r: Option<seq<LicenseTemplate>>)
    ensures r.Some? <==> sector == "Agribusiness" || sector == "Construction"
  {
    if sector == "Agribusiness" then Some(AgribusinessLicenses)
    else if sector == "Construction" then Some(ConstructionLicenses)
    else None
  }

  /** The entry "All <sector>" appends for one template licence. */
  function SectorTemplateProcedure(t: LicenseTemplate): (p: Procedure)
    ensures p.name == t.name && p.authority == t.authority
    ensures Cost(p) == t.typicalCost && Days(p) == t.typicalDays
    ensures p.prepDays >= 1 && p.waitDays >= 1
    ensures t.typicalDays >= 3 ==> p.prepDays + p.waitDays == t.typicalDays
  {
    var split := SplitDays(t.typicalDays, 3);
    Procedure(t.name, t.authority, "Completed", split.prep, split.wait, Some(t.typicalDays),
              Some(t.typicalCost), Some(0.0), 0.0, "No", 0.0, None, t.complexity,
              t.renewable, t.renewalFrequency, "Mixed", t.documents, "", 2)
  }

  /** The entry "Common National" appends for one licence: halves, not thirds. */
  function CommonNationalProcedure(t: LicenseTemplate): (p: Procedure)
    ensures p.name == t.name && p.authority == t.authority
    ensures Cost(p) == t.typicalCost && Days(p) == t.typicalDays
    ensures p.prepDays >= 1 && p.waitDays >= 1
    ensures t.typicalDays >= 2 ==> p.prepDays + p.waitDays == t.typicalDays
    ensures p.renewalFrequency == "One-time" && p.documents == [] && p.followUps == 1
  {
    var split := SplitDays(t.typicalDays, 2);
    Procedure(t.name, t.authority, "Completed", split.prep, split.wait, Some(t.typicalDays),
              Some(t.typicalCost), Some(0.0), 0.0, "No", 0.0, None, t.complexity,
              t.renewable, "One-time", "Mixed", [], "", 1)
  }

  /**
   The entry the bulk form appends for one checked licence, given the
   adjusted cost and the adjusted day count before its `max(1, ...)` clamp.
   */
  function BulkProcedure(t: LicenseTemplate, status: string, mode: string,
                         adjustedCost: real, truncatedDays: int): (p: Procedure)
    ensures p.name == t.name && p.authority == t.authority
    ensures Cost(p) == adjustedCost
    ensures Days(p) >= 1 && (truncatedDays >= 1 ==> Days(p) == truncatedDays)
    ensures p.prepDays >= 1 && p.waitDays >= 1
  {
    var days := if truncatedDays < 1 then 1 else truncatedDays;
    var split := SplitDays(days, 3);
    Procedure(t.name, t.authority, status, split.prep, split.wait, Some(days),
              Some(adjustedCost), Some(0.0), 0.0, "No", 0.0, None, t.complexity,
              t.renewable, t.renewalFrequency, mode, t.documents, "", 2)
  }

  /** Some entry of the list carries this procedure name (`name in existing_names`). */
  predicate HasName(ps: seq<Procedure>, n: string) {
    exists i :: 0 <= i < |ps| && ps[i].name == n
  }

  /** No two entries share a procedure name. */
  predicate DistinctNames(ps: seq<Procedure>) {
    forall i, j :: 0 <= i < j < |ps| ==> ps[i].name != ps[j].name
  }

  /** The list after a template batch, and the batch's `added_count`. */
  datatype Appended = Appended(list: seq<Procedure>, added: nat)

  /**
   The loop shared by the template adders: each candidate is appended unless
   an entry, possibly one appended earlier in the batch, already has its name.
   */
  function AppendMissing(list: seq<Procedure>, cands: seq<Procedure>): (a: Appended)
    decreases |cands|
    ensures |list| <= |a.list| && a.list[..|list|] == list
    ensures a.added == |a.list| - |list| && a.added <= |cands|
  {
    if cands == [] then Appended(list, 0)
    else if HasName(list, cands[0].name) then AppendMissing(list, cands[1..])
    else
      var a := AppendMissing(list + [cands[0]], cands[1..]);
      assert a.list[..|list|] == a.list[..|list| + 1][..|list|];
      Appended(a.list, a.added + 1)
  }

  /** Every appended entry is one of the candidates. */
  lemma {:induction false} AppendMissingFromCandidates(list: seq<Procedure>, cands: seq<Procedure>)
    decreases |cands|
    ensures forall j :: |list| <= j < |AppendMissing(list, cands).list| ==> AppendMissing(list, cands).list[j] in cands
  {
    if cands != [] {
      var a := AppendMissing(list, cands);
      assert cands == [cands[0]] + cands[1..];
      if HasName(list, cands[0].name) {
        var b := AppendMissing(list, cands[1..]);
        AppendMissingFromCandidates(list, cands[1..]);
        assert a == b;
        forall j | |list| <= j < |a.list| ensures a.list[j] in cands {
          assert b.list[j] in cands[1..];
        }
      } else {
        var l := list + [cands[0]];
        var b := AppendMissing(l, cands[1..]);
        AppendMissingFromCandidates(l, cands[1..]);
        assert a.list == b.list;
        forall j | |list| <= j < |a.list| ensures a.list[j] in cands {
          if j == |list| {
            assert b.list[j] == b.list[..|l|][j] == cands[0];
          } else {
            assert b.list[j] in cands[1..];
          }
        }
      }
    }
  }

  /** No appended entry repeats the name of an entry before it. */
  lemma {:induction false} AppendMissingFresh(list: seq<Procedure>, cands: seq<Procedure>)
    decreases |cands|
    ensures forall j :: |list| <= j < |AppendMissing(list, cands).list| ==>
      !HasName(AppendMissing(list, cands).list[..j], AppendMissing(list, cands).list[j].name)
  {
    if cands != [] {
      var a := AppendMissing(list, cands);
      if HasName(list, cands[0].name) {
        AppendMissingFresh(list, cands[1..]);
      } else {
        var l := list + [cands[0]];
        var b := AppendMissing(l, cands[1..]);
        AppendMissingFresh(l, cands[1..]);
        assert a.list == b.list;
        forall j | |list| <= j < |a.list| ensures !HasName(a.list[..j], a.list[j].name) {
          if j == |list| {
            assert b.list[j] == b.list[..|l|][j] == cands[0];
            assert b.list[..j] == b.list[..|l|][..j] == list;
          }
        }
      }
    }
  }

  /** Afterwards every candidate's name is listed, appended or already there. */
  lemma {:induction false} AppendMissingCovers(list: seq<Procedure>, cands: seq<Procedure>)
    decreases |cands|
    ensures forall i :: 0 <= i < |cands| ==> HasName(AppendMissing(list, cands).list, cands[i].name)
  {
    if cands != [] {
      var a := AppendMissing(list, cands);
      var c := cands[0];
      if HasName(list, c.name) {
        AppendMissingCovers(list, cands[1..]);
        var k :| 0 <= k < |list| && list[k].name == c.name;
        assert a.list[k] == list[k];
      } else {
        AppendMissingCovers(list + [c], cands[1..]);
        assert a.list[..|list| + 1] == list + [c];
        assert a.list[|list|] == c;
      }
      assert forall i :: 1 <= i < |cands| ==> cands[i] == cands[1..][i - 1];
    }
  }

  /** Appending only missing names keeps a list free of duplicate names. */
  lemma AppendMissingKeepsDistinct(list: seq<Procedure>, cands: seq<Procedure>)
    ensures DistinctNames(list) ==> DistinctNames(AppendMissing(list, cands).list)
  {
    var r := AppendMissing(list, cands).list;
    AppendMissingFresh(list, cands);
    forall i, j | DistinctNames(list) && 0 <= i < j < |r| ensures r[i].name != r[j].name {
      if j < |list| {
        assert r[i] == list[i] && r[j] == list[j];
      } else {
        assert r[..j][i] == r[i];
      }
    }
  }

  /** A batch whose names are all present already adds nothing. */
  lemma {:induction false} AppendMissingNothingNew(list: seq<Procedure>, cands: seq<Procedure>)
    requires forall i :: 0 <= i < |cands| ==> HasName(list, cands[i].name)
    decreases |cands|
    ensures AppendMissing(list, cands) == Appended(list, 0)
  {
    if cands != [] {
      assert HasName(list, cands[0].name);
      assert forall i :: 0 <= i < |cands[1..]| ==> cands[1..][i] == cands[i + 1];
      AppendMissingNothingNew(list, cands[1..]);
    }
  }

  /** Pressing a template button twice adds nothing the second time. */
  lemma AppendMissingIdempotent(list: seq<Procedure>, cands: seq<Procedure>)
    ensures var a := AppendMissing(list, cands);
      AppendMissing(a.list, cands) == Appended(a.list, 0)
  {
    AppendMissingCovers(list, cands);
    AppendMissingNothingNew(AppendMissing(list, cands).list, cands);
  }

  function SectorTemplateProcedures(ts: seq<LicenseTemplate>): (ps: seq<Procedure>)
    ensures |ps| == |ts| && forall i :: 0 <= i < |ts| ==> ps[i] == SectorTemplateProcedure(ts[i])
  {
    seq(|ts|, i requires 0 <= i < |ts| => SectorTemplateProcedure(ts[i]))
  }

  /**
   `add_all_sector_templates`: for a sector with templates, every licence not
   yet listed; for any other sector, nothing at all.
   */
  function AddAllSectorTemplates(list: seq<Procedure>, sector: string): (a: Appended)
    ensures SectorLicenses(sector).None? ==> a == Appended(list, 0)
    ensures SectorLicenses(sector).Some? ==>
      forall i :: 0 <= i < |SectorLicenses(sector).value| ==> HasName(a.list, SectorLicenses(sector).value[i].name)
    ensures |list| <= |a.list| && a.list[..|list|] == list && a.added == |a.list| - |list|
    ensures DistinctNames(list) ==> DistinctNames(a.list)
  {
    match SectorLicenses(sector)
    case None => Appended(list, 0)
    case Some(ts) =>
      var cands := SectorTemplateProcedures(ts);
      var a := AppendMissing(list, cands);
      AppendMissingCovers(list, cands);
      AppendMissingKeepsDistinct(list, cands);
      a
  }

  function CommonNationalProcedures(ts: seq<LicenseTemplate>): (ps: seq<Procedure>)
    ensures |ps| == |ts| && forall i :: 0 <= i < |ts| ==> ps[i] == CommonNationalProcedure(ts[i])
  {
    seq(|ts|, i requires 0 <= i < |ts| => CommonNationalProcedure(ts[i]))
  }

  /** The national-template loop over any licence list. */
  function AddNationalTemplates(list: seq<Procedure>, ts: seq<LicenseTemplate>): (a: Appended)
    ensures forall i :: 0 <= i < |ts| ==> HasName(a.list, ts[i].name)
    ensures |list| <= |a.list| && a.list[..|list|] == list
    ensures a.added == |a.list| - |list| && a.added <= |ts|
    ensures DistinctNames(list) ==> DistinctNames(a.list)
  {
    var cands := CommonNationalProcedures(ts);
    AppendMissingCovers(list, cands);
    AppendMissingKeepsDistinct(list, cands);
    AppendMissing(list, cands)
  }

  /**
   `add_common_national_licenses`: the PACRA and ZRA registrations, each
   unless already listed; the sector argument is not read.
   */
  function AddCommonNational(list: seq<Procedure>, sector: string): (a: Appended)
    ensures forall i :: 0 <= i < |CommonNationalLicenses| ==> HasName(a.list, CommonNationalLicenses[i].name)
    ensures |list| <= |a.list| && a.list[..|list|] == list
    ensures a.added == |a.list| - |list| && a.added <= |CommonNationalLicenses|
    ensures DistinctNames(list) ==> DistinctNames(a.list)
  {
    AddNationalTemplates(list, CommonNationalLicenses)
  }

  /** The sector's licences whose boxes are ticked, in dictionary order. */
  function Checked(ts: seq<LicenseTemplate>, ticked: set<string>): (r: seq<LicenseTemplate>)
    ensures forall i :: 0 <= i < |r| ==> r[i] in ts && r[i].name in ticked
    ensures forall i :: 0 <= i < |ts| && ts[i].name in ticked ==> ts[i] in r
  {
    Filter(ts, (t: LicenseTemplate) => t.name in ticked)
  }

  /** The bulk settings: status, mode, and the adjusted cost and truncated days per licence. */
  datatype BulkSettings = BulkSettings(
    status: string,
    mode: string,
    adjustedCost: LicenseTemplate -> real,
    truncatedDays: LicenseTemplate -> int)

  function BulkProcedures(ts: seq<LicenseTemplate>, b: BulkSettings): (ps: seq<Procedure>)
    ensures |ps| == |ts|
    ensures forall i :: 0 <= i < |ts| ==>
      ps[i] == BulkProcedure(ts[i], b.status, b.mode, b.adjustedCost(ts[i]), b.truncatedDays(ts[i]))
  {
    seq(|ts|, i requires 0 <= i < |ts| =>
      BulkProcedure(ts[i], b.status, b.mode, b.adjustedCost(ts[i]), b.truncatedDays(ts[i])))
  }

  /** The bulk-add loop over any licence list: each ticked licence unless already listed. */
  function BulkAddTemplates(list: seq<Procedure>, ts: seq<LicenseTemplate>, ticked: set<string>, b: BulkSettings): (a: Appended)
    ensures ticked == {} ==> a == Appended(list, 0)
    ensures forall i :: 0 <= i < |ts| && ts[i].name in ticked ==> HasName(a.list, ts[i].name)
    ensures |list| <= |a.list| && a.list[..|list|] == list && a.added == |a.list| - |list|
    ensures DistinctNames(list) ==> DistinctNames(a.list)
  {
    var sel := Checked(ts, ticked);
    var cands := BulkProcedures(sel, b);
    AppendMissingKeepsDistinct(list, cands);
    BulkAddCovers(list, ts, ticked, b);
    assert |sel| > 0 ==> sel[0].name in ticked;
    AppendMissing(list, cands)
  }

  /** Every ticked licence of the list is listed after the bulk add. */
  lemma BulkAddCovers(list: seq<Procedure>, ts: seq<LicenseTemplate>, ticked: set<string>, b: BulkSettings)
    ensures var a := AppendMissing(list, BulkProcedures(Checked(ts, ticked), b));
      forall i :: 0 <= i < |ts| && ts[i].name in ticked ==> HasName(a.list, ts[i].name)
  {
    var sel := Checked(ts, ticked);
    var cands := BulkProcedures(sel, b);
    AppendMissingCovers(list, cands);
    forall i | 0 <= i < |ts| && ts[i].name in ticked ensures HasName(AppendMissing(list, cands).list, ts[i].name) {
      var k :| 0 <= k < |sel| && sel[k] == ts[i];
      assert cands[k].name == ts[i].name;
    }
  }

  /**
   "Add Selected Licenses": the ticked licences of the interview's sector,
   each skipped when its name is already listed.
   */
  function BulkAdd(list: seq<Procedure>, sector: string, ticked: set<string>, b: BulkSettings): (a: Appended)
    ensures SectorLicenses(sector).None? || ticked == {} ==> a == Appended(list, 0)
    ensures SectorLicenses(sector).Some? ==>
      forall i :: 0 <= i < |SectorLicenses(sector).value| && SectorLicenses(sector).value[i].name in ticked
        ==> HasName(a.list, SectorLicenses(sector).value[i].name)
    ensures |list| <= |a.list| && a.list[..|list|] == list && a.added == |a.list| - |list|
    ensures DistinctNames(list) ==> DistinctNames(a.list)
  {
    BulkAddTemplates(list, SectorLicenses(sector).GetOr([]), ticked, b)
  }

  /** The inputs of the edit form of the procedures manager. */
  datatype ManagerEdit = ManagerEdit(
    status: string,
    complexity: int,
    officialFees: real,
    unofficialPayments: real,
    mode: string)

  /** "Save Changes" in the procedures manager: five fields of one entry. */
  function ManagerEditProcedure(procs: seq<Procedure>, i: nat, e: ManagerEdit): (r: seq<Procedure>)
    requires i < |procs|
    ensures |r| == |procs|
    ensures forall j :: 0 <= j < |procs| && j != i ==> r[j] == procs[j]
    ensures r[i] == procs[i].(status := e.status, complexity := e.complexity,
                              officialFees := Some(e.officialFees),
                              unofficialPayments := Some(e.unofficialPayments), applicationMode := e.mode)
    ensures Cost(r[i]) == e.officialFees + e.unofficialPayments
  {
    procs[i := procs[i].(status := e.status, complexity := e.complexity, officialFees := Some(e.officialFees),
                         unofficialPayments := Some(e.unofficialPayments), applicationMode := e.mode)]
  }

  /** The manager's edit moves the total cost by exactly the change in that entry's cost. */
  lemma {:induction false} ManagerEditTotalCost(procs: seq<Procedure>, i: nat, e: ManagerEdit)
    requires i < |procs|
    ensures TotalCost(ManagerEditProcedure(procs, i, e)) == TotalCost(procs) - Cost(procs[i]) + e.officialFees + e.unofficialPayments
    ensures TotalTime(ManagerEditProcedure(procs, i, e)) == TotalTime(procs)
  {
    var r := ManagerEditProcedure(procs, i, e);
    assert procs == procs[..i] + [procs[i]] + procs[i + 1..];
    assert r == procs[..i] + [r[i]] + procs[i + 1..];
    TotalCostAppend(procs[..i] + [procs[i]], procs[i + 1..]);
    TotalCostAppend(procs[..i], [procs[i]]);
    TotalCostAppend(procs[..i] + [r[i]], procs[i + 1..]);
    TotalCostAppend(procs[..i], [r[i]]);
    TotalTimeAppend(procs[..i] + [procs[i]], procs[i + 1..]);
    TotalTimeAppend(procs[..i], [procs[i]]);
    TotalTimeAppend(procs[..i] + [r[i]], procs[i + 1..]);
    TotalTimeAppend(procs[..i], [r[i]]);
  }

  /** "Delete" in the procedures manager: `procedures_list.pop(i)`. */
  function RemoveProcedureAt(procs: seq<Procedure>, i: nat): (r: seq<Procedure>)
    requires i < |procs|
    ensures |r| == |procs| - 1
    ensures forall j :: 0 <= j < i ==> r[j] == procs[j]
    ensures forall j :: i <= j < |r| ==> r[j] == procs[j + 1]
    ensures multiset(r) + multiset{procs[i]} == multiset(procs)
  {
    assert procs == procs[..i] + [procs[i]] + procs[i + 1..];
    procs[..i] + procs[i + 1..]
  }

  /** Removing an entry takes exactly its cost and days off the totals. */
  lemma {:induction false} RemoveTotals(procs: seq<Procedure>, i: nat)
    requires i < |procs|
    ensures TotalCost(RemoveProcedureAt(procs, i)) == TotalCost(procs) - Cost(procs[i])
    ensures TotalTime(RemoveProcedureAt(procs, i)) == TotalTime(procs) - Days(procs[i])
  {
    assert procs == procs[..i] + ([procs[i]] + procs[i + 1..]);
    TotalCostAppend(procs[..i], [procs[i]] + procs[i + 1..]);
    TotalCostAppend([procs[i]], procs[i + 1..]);
    TotalCostAppend(procs[..i], procs[i + 1..]);
    TotalTimeAppend(procs[..i], [procs[i]] + procs[i + 1..]);
    TotalTimeAppend([procs[i]], procs[i + 1..]);
    TotalTimeAppend(procs[..i], procs[i + 1..]);
    assert [procs[i]][1..] == [];
  }
}

=== FILE: progress.dfy ===
/**
 `DraftManager.calculate_progress`: four section-completion checks mapped onto
 20, 40, 60, 80 or 100 percent.
 */
module Progress {
  import opened Basics
  import opened JsonColumns
  import opened Records

  /** The keys of the form dictionary the progress check reads. */
  datatype ProgressForm = ProgressForm(
    answers: map<string, Scalar>,
    procedureData: FormValue,
    reformPriorities: FormValue)

  /** `form_data.get(key)` is truthy. */
  predicate HasTruthy(answers: map<string, Scalar>, key: string) {
    key in answers && Truthy(answers[key])
  }

  /** `form_data.get(key) is not None`. */
  predicate IsNotNone(answers: map<string, Scalar>, key: string) {
    key in answers && answers[key] != SNull
  }

  /**
   The guarded decode of sections B and D: the value is truthy, `json.loads`
   accepts it, and `decoded and len(decoded) > 0` holds without raising. Only
   a non-empty JSON array, object or string passes; `len` of a truthy number
   or boolean raises and the bare `except` swallows it.
   */
  predicate DecodesToNonEmpty(v: FormValue) {
    match v
    case Text(Some(JArray(items))) => |items| > 0
    case Text(Some(JObject(members))) => |members| > 0
    case Text(Some(JString(s))) => |s| > 0
    case TextOfString(content) => !BlankText(content)
    case _ => false
  }

  predicate SectionA(f: ProgressForm) {
    HasTruthy(f.answers, "business_name") && HasTruthy(f.answers, "contact_person")
  }

  predicate SectionB(f: ProgressForm) {
    DecodesToNonEmpty(f.procedureData)
  }

  predicate SectionC(f: ProgressForm) {
    IsNotNone(f.answers, "completion_time_local") && IsNotNone(f.answers, "completion_time_national")
  }

  predicate SectionD(f: ProgressForm) {
    DecodesToNonEmpty(f.reformPriorities)
  }

  function Indicator(b: bool): nat {
    if b then 1 else 0
  }

  /** `sections_completed` */
  function SectionsCompleted(f: ProgressForm): (k: nat)
    ensures k <= 4
    ensures k == 0 <==> !SectionA(f) && !SectionB(f) && !SectionC(f) && !SectionD(f)
    ensures k == 4 <==> SectionA(f) && SectionB(f) && SectionC(f) && SectionD(f)
  {
    Indicator(SectionA(f)) + Indicator(SectionB(f)) + Indicator(SectionC(f)) + Indicator(SectionD(f))
  }

  const TotalSections: real := 4.0
  const ActiveSectionBonus: real := 20.0

  /**
   `min((sections_completed / 4) * 80 + 20, 100)`. The `currentSection`
   argument is accepted and never read.
   */
  function CalculateProgress(f: ProgressForm, currentSection: string): (p: real)
    ensures p == 20.0 * (SectionsCompleted(f) + 1) as real
    ensures 20.0 <= p <= 100.0
  {
    var baseProgress := (SectionsCompleted(f) as real / TotalSections) * 80.0;
    var total := baseProgress + ActiveSectionBonus;
    if total < 100.0 then total else 100.0
  }

  /** The section tag never changes the result. */
  lemma ProgressIgnoresSection(f: ProgressForm, s1: string, s2: string)
    ensures CalculateProgress(f, s1) == CalculateProgress(f, s2)
  {
  }

  /** One more completed section adds exactly 20 points. */
  lemma ProgressStep(f: ProgressForm, g: ProgressForm, s: string)
    requires SectionsCompleted(g) == SectionsCompleted(f) + 1
    ensures CalculateProgress(g, s) == CalculateProgress(f, s) + 20.0
  {
  }

  /** An empty form starts at 20. */
  lemma EmptyFormProgress(s: string)
    ensures CalculateProgress(ProgressForm(map[], Absent, Absent), s) == 20.0
  {
  }

  /** Business and contact set, nothing else: one section, 40 percent. */
  lemma SectionAOnlyProgress(name: string, contact: string, s: string)
    requires name != "" && contact != ""
    ensures CalculateProgress(
      ProgressForm(map["business_name" := SText(name), "contact_person" := SText(contact)], Absent, Absent), s) == 40.0
  {
    var f := ProgressForm(map["business_name" := SText(name), "contact_person" := SText(contact)], Absent, Absent);
    assert SectionA(f);
  }

  /** Missing, undecodable, non-text, null and empty values never complete a list section, and raise nothing. */
  lemma ListSectionIncomplete(v: FormValue)
    requires v == Absent || v == NonText || v == Text(None) || v == Text(Some(JNull)) || v == Text(Some(JArray([])))
    ensures !DecodesToNonEmpty(v)
  {
  }

  /** A text that decodes to a non-empty list completes its section. */
  lemma NonEmptyListCompletes(items: seq<JsonValue>)
    requires items != []
    ensures DecodesToNonEmpty(Text(Some(JArray(items))))
  {
  }

  /** A time allocation of 0 is present, not missing: section C counts it. */
  lemma ZeroTimeCountsAsPresent(answers: map<string, Scalar>)
    requires Lookup(answers, "completion_time_local") == Some(SInt(0))
    requires Lookup(answers, "completion_time_national") == Some(SReal(0.0))
    ensures SectionC(ProgressForm(answers, Absent, Absent))
  {
  }

  /**
   The form as `calculate_progress` sees it inside `save_draft`: 'procedure_data'
   is absent or a Python list, and neither counts; 'reform_priorities' is a
   list, which never counts either, or the text a draft load left there.
   */
  function SaveView(data: FormData): ProgressForm {
    ProgressForm(data.answers, NonText, ReformsForm(data.reformPriorities))
  }

  /**
   The form value `load_draft_into_session` puts under 'reform_priorities':
   the raw column text, undecoded (draft_manager.py:233), or None for NULL.
   The guarded decode accepts it exactly when the column holds a non-empty
   list or a JSON string whose text is not empty.
   */
  function ColumnText(c: ListColumn<string>): (v: FormValue)
    ensures v.Absent? <==> c.SqlNull?
    ensures c.EncodedList? ==> v.Text? && v.decoded.Some?
    ensures DecodesToNonEmpty(v) <==> DecodeOrEmpty(c) != [] || (c.Quoted? && !BlankText(c.inner))
  {
    match c
    case SqlNull => Absent
    case EncodedList(xs) => assert |StringArray(xs).items| == |xs|; Text(Some(StringArray(xs)))
    case EncodedNull => Text(Some(JNull))
    case Quoted(inner) => TextOfString(inner)
    case Malformed(_) => Text(None)
  }

  /** The form value of the reforms: a Python list, or the loaded text. */
  function ReformsForm(v: ReformsValue): (f: FormValue)
    ensures v.ReformList? ==> !DecodesToNonEmpty(f)
    ensures v.LoadedText? ==> f == ColumnText(v.column)
  {
    match v
    case ReformList(_) => NonText
    case LoadedText(c) => ColumnText(c)
  }

  /**
   The progress `save_draft` stores (app.py:382): sections B never counts, and
   section D counts only for a loaded reform text that decodes to something
   non-empty, so a form whose reforms are a list stays at 60 per cent or below.
   */
  function SaveProgress(data: FormData, currentSection: string): (p: real)
    ensures p == 20.0 * (Indicator(SectionA(SaveView(data))) + Indicator(SectionC(SaveView(data)))
                         + Indicator(SectionD(SaveView(data))) + 1) as real
    ensures 20.0 <= p <= 80.0
    ensures data.reformPriorities.ReformList? ==> p <= 60.0
  {
    CalculateProgress(SaveView(data), currentSection)
  }

  /**
   Hence the stored progress never reflects the procedure list, nor the reform
   list when the form holds one.
   */
  lemma SaveProgressIgnoresLists(data: FormData, procs: seq<Procedure>, reforms: seq<string>, s: string)
    ensures SaveProgress(data, s) == SaveProgress(data.(procedures := procs), s)
    ensures data.reformPriorities.ReformList? ==>
      SaveProgress(data, s) == SaveProgress(data.(reformPriorities := ReformList(reforms)), s)
  {
  }

  /**
   After a draft load the reform text is back in the form, so a save counts
   section D: a stored non-empty list does, and so does any text that is a
   JSON string with some content, even one nesting the empty list '[]'.
   */
  lemma LoadedReformsCount(c: ListColumn<string>)
    ensures c.EncodedList? ==> (SectionD(ProgressForm(map[], NonText, ReformsForm(LoadedText(c)))) <==> c.items != [])
    ensures c.Quoted? ==> (SectionD(ProgressForm(map[], NonText, ReformsForm(LoadedText(c)))) <==> !BlankText(c.inner))
    ensures c.SqlNull? || c.EncodedNull? || c.Malformed? ==>
      !SectionD(ProgressForm(map[], NonText, ReformsForm(LoadedText(c))))
  {
  }
}

=== FILE: records.dfy ===
/**
 The interview table: one row per interview, keyed by `interview_id`, and the
 procedure entries nested in its `procedure_data` column.
 */
module Records {
  import opened Basics
  import opened JsonColumns

  /** An instant; `datetime.now().isoformat()` texts of one format order like the instants they name. */
  type Timestamp = nat

  /** The value of one scalar column, or of one scalar key of the form dictionary. */
  datatype Scalar = SText(text: string) | SInt(i: int) | SReal(r: real) | SNull

  /** Python truthiness of a scalar. */
  predicate Truthy(v: Scalar) {
    match v
    case SText(s) => s != ""
    case SInt(i) => i != 0
    case SReal(r) => r != 0.0
    case SNull => false
  }

  /**
   One regulatory procedure, an element of `procedure_data`. The three numbers
   the totals read with `proc.get(key, 0)` are optional, since a decoded entry
   need not carry them; `external_reason` is missing from quick and template entries.
   */
  datatype Procedure = Procedure(
    name: string,                    // 'procedure'
    authority: string,
    status: string,
    prepDays: int,
    waitDays: int,
    totalDays: Option<int>,
    officialFees: Option<real>,
    unofficialPayments: Option<real>,
    travelCosts: real,
    externalSupport: string,
    externalCost: real,
    externalReason: Option<string>,
    complexity: int,
    renewable: string,
    renewalFrequency: string,
    applicationMode: string,
    documents: seq<string>,
    challenges: string,
    followUps: int)

  datatype Status = Draft | Submitted

  /** The three derived columns: total_compliance_cost, total_compliance_time, risk_score. */
  datatype Metrics = Metrics(totalCost: real, totalTime: int, riskScore: real)

  datatype Row = Row(
    interviewId: string,
    answers: map<string, Scalar>,    // the scalar questionnaire columns, by column name
    isicCodes: ListColumn<string>,
    procedureData: ListColumn<Procedure>,
    reformPriorities: ListColumn<string>,
    metrics: Metrics,
    status: Status,
    submissionDate: Timestamp,
    lastModified: Timestamp,
    createdBy: Option<string>,
    currentSection: string,
    draftProgress: real)

  /** The `responses` table, by `interview_id` (a UNIQUE column). */
  type Store = map<string, Row>

  /** Every row sits under its own interview_id. */
  ghost predicate WellKeyed(s: Store) {
    forall k :: k in s ==> s[k].interviewId == k
  }

  /** Storing a row under its own id, or under the id of the row it replaces, keeps the table well keyed. */
  lemma StoreKeepsWellKeyed(s: Store, id: string, row: Row)
    requires row.interviewId == id || (id in s && row.interviewId == s[id].interviewId)
    ensures WellKeyed(s) ==> WellKeyed(s[id := row])
  {
  }

  /**
   The scalar questionnaire columns `save_draft` writes, each with the default
   it substitutes when the form lacks the key (app.py:414-444).
   */
  const AnswerDefaults: map<string, Scalar> := map[
    "interviewer_name" := SText(""),
    "interview_date" := SText(""),
    "start_time" := SText(""),
    "end_time" := SText(""),
    "business_name" := SText(""),
    "district" := SText(""),
    "physical_address" := SText(""),
    "contact_person" := SText(""),
    "email" := SText(""),
    "phone" := SText(""),
    "primary_sector" := SText(""),
    "legal_status" := SText(""),
    "business_size" := SText(""),
    "ownership_structure" := SText(""),
    "gender_owner" := SText(""),
    "business_activities" := SText(""),
    "year_established" := SInt(0),
    "turnover_range" := SText(""),
    "employees_fulltime" := SInt(0),
    "employees_parttime" := SInt(0),
    "completion_time_local" := SReal(0.0),
    "completion_time_national" := SReal(0.0),
    "completion_time_dk" := SReal(0.0),
    "compliance_cost_percentage" := SReal(0.0),
    "permit_comparison_national" := SInt(0),
    "permit_comparison_local" := SInt(0),
    "cost_comparison_national" := SInt(0),
    "cost_comparison_local" := SInt(0),
    "business_climate_rating" := SInt(0)
  ]

  /** A scalar column as a query reads it: NULL when the row has no such value. */
  function Field(r: Row, column: string): Scalar {
    Lookup(r.answers, column).GetOr(SNull)
  }

  /**
   The in-memory form dictionary `save_draft` receives: its scalar keys, the
   procedure and ISIC lists the section screens put there ([] when absent),
   and the reform priorities, a list or the text a draft load left there.
   */
  datatype FormData = FormData(
    answers: map<string, Scalar>,
    procedures: seq<Procedure>,
    isicCodes: seq<string>,
    reformPriorities: ReformsValue)

  /** The columns of a row, for stating what an operation leaves alone. */
  datatype Column =
    | AnswerCol(name: string)
    | IsicCodesCol
    | ProcedureDataCol
    | ReformPrioritiesCol
    | MetricsCol
    | StatusCol
    | SubmissionDateCol
    | LastModifiedCol
    | CreatedByCol
    | CurrentSectionCol
    | DraftProgressCol

  /** `a` and `b` are the same row except, at most, in the columns of `touched`. */
  ghost predicate Agree(a: Row, b: Row, touched: set<Column>) {
    && a.interviewId == b.interviewId
    && (forall n :: AnswerCol(n) !in touched ==> Lookup(a.answers, n) == Lookup(b.answers, n))
    && (IsicCodesCol !in touched ==> a.isicCodes == b.isicCodes)
    && (ProcedureDataCol !in touched ==> a.procedureData == b.procedureData)
    && (ReformPrioritiesCol !in touched ==> a.reformPriorities == b.reformPriorities)
    && (MetricsCol !in touched ==> a.metrics == b.metrics)
    && (StatusCol !in touched ==> a.status == b.status)
    && (SubmissionDateCol !in touched ==> a.submissionDate == b.submissionDate)
    && (LastModifiedCol !in touched ==> a.lastModified == b.lastModified)
    && (CreatedByCol !in touched ==> a.createdBy == b.createdBy)
    && (CurrentSectionCol !in touched ==> a.currentSection == b.currentSection)
    && (DraftProgressCol !in touched ==> a.draftProgress == b.draftProgress)
  }

  /** `after` holds the same interviews as `before`, and all but `id` are untouched. */
  ghost predicate OthersUntouched(before: Store, after: Store, id: string) {
    && after.Keys == before.Keys
    && forall k :: k in before && k != id ==> after[k] == before[k]
  }

  /** What UPDATE and DELETE statements return through `execute_query` / the try blocks. */
  datatype Written = Written(ok: bool, store: Store)
}

=== FILE: reforms.dfy ===
/**
 The reform-priority list Section D of app.py builds: the ticked options in
 the order they are offered, followed by the non-blank lines of the custom
 text box, each stripped of surrounding whitespace.
 */
module Reforms {
  import opened Sequences

  /** Python's `str.isspace` for one character. */
  predicate IsSpace(c: char) {
    || ('\U{0009}' <= c <= '\U{000D}')
    || ('\U{001C}' <= c <= '\U{0020}')
    || c == '\U{0085}' || c == '\U{00A0}' || c == '\U{1680}'
    || ('\U{2000}' <= c <= '\U{200A}')
    || c == '\U{2028}' || c == '\U{2029}' || c == '\U{202F}' || c == '\U{205F}' || c == '\U{3000}'
  }

  predicate AllSpace(s: string) {
    forall i :: 0 <= i < |s| ==> IsSpace(s[i])
  }

  /** `s.lstrip()` */
  function TrimStart(s: string): (r: string)
    ensures |r| <= |s| && r == s[|s| - |r|..]
    ensures AllSpace(s[..|s| - |r|])
    ensures r != [] ==> !IsSpace(r[0])
  {
    if s != [] && IsSpace(s[0]) then
      var r := TrimStart(s[1..]);
      assert s[..|s| - |r|] == [s[0]] + s[1..][..|s[1..]| - |r|];
      r
    else s
  }

  /** `s.rstrip()` */
  function TrimEnd(s: string): (r: string)
    ensures |r| <= |s| && r == s[..|r|]
    ensures AllSpace(s[|r|..])
    ensures r != [] ==> !IsSpace(r[|r| - 1])
  {
    if s != [] && IsSpace(s[|s| - 1]) then
      var r := TrimEnd(s[..|s| - 1]);
      assert s[|r|..] == s[..|s| - 1][|r|..] + [s[|s| - 1]];
      r
    else s
  }

  /** No whitespace at either end. */
  predicate Stripped(s: string) {
    s != [] ==> !IsSpace(s[0]) && !IsSpace(s[|s| - 1])
  }

  /** `s.strip()`: `s` without its leading and trailing whitespace. */
  function Strip(s: string): (r: string)
    ensures |r| <= |s|
    ensures Stripped(r)
    ensures r == [] <==> AllSpace(s)
  {
    var t := TrimStart(s);
    var r := TrimEnd(t);
    assert r == [] ==> AllSpace(s) by {
      if r == [] {
        assert t[|r|..] == t;
        assert s[..|s| - |t|] == s;
      }
    }
    r
  }

  /** `r` is one slice of `s` with only whitespace before and after it. */
  ghost predicate SpaceAround(s: string, r: string) {
    exists a :: 0 <= a <= |s| - |r| && r == s[a..a + |r|] && AllSpace(s[..a]) && AllSpace(s[a + |r|..])
  }

  /** What `strip` keeps is one slice of the text, with only whitespace around it. */
  lemma StripIsSlice(s: string)
    ensures SpaceAround(s, Strip(s))
  {
    var t := TrimStart(s);
    var r := TrimEnd(t);
    TrimmedSlice(s, t, r);
    assert Strip(s) == r;
  }

  /** A prefix cut of whitespace followed by a suffix cut of whitespace leaves one slice. */
  lemma TrimmedSlice(s: string, t: string, r: string)
    requires |t| <= |s| && t == s[|s| - |t|..] && AllSpace(s[..|s| - |t|])
    requires |r| <= |t| && r == t[..|r|] && AllSpace(t[|r|..])
    ensures SpaceAround(s, r)
  {
    var a := |s| - |t|;
    assert s[a..a + |r|] == r;
    assert s[a + |r|..] == t[|r|..];
  }

  /** A stripped text is its own strip; in particular stripping twice is stripping once. */
  lemma StrippedIsFixed(s: string)
    requires Stripped(s)
    ensures Strip(s) == s
  {
    if s != [] {
      assert TrimStart(s) == s;
      assert TrimEnd(s) == s;
    }
  }

  /** `text.split('\n')` and its general form: the pieces between separators. */
  function Split(s: string, sep: char): (pieces: seq<string>)
    ensures |pieces| >= 1
    ensures forall i :: 0 <= i < |pieces| ==> sep !in pieces[i]
  {
    if s == [] then [""]
    else
      var rest := Split(s[1..], sep);
      if s[0] == sep then [""] + rest
      else
        assert forall i :: 1 <= i < |rest| ==> ([[s[0]] + rest[0]] + rest[1..])[i] == rest[i];
        [[s[0]] + rest[0]] + rest[1..]
  }

  /** `sep.join(pieces)` */
  function Join(pieces: seq<string>, sep: char): string
    requires |pieces| >= 1
  {
    if |pieces| == 1 then pieces[0] else pieces[0] + [sep] + Join(pieces[1..], sep)
  }

  /** Splitting loses nothing: joining the pieces gives the text back. */
  lemma {:induction false} JoinSplit(s: string, sep: char)
    ensures Join(Split(s, sep), sep) == s
  {
    if s != [] {
      var rest := Split(s[1..], sep);
      JoinSplit(s[1..], sep);
      if s[0] != sep {
        var pieces := Split(s, sep);
        assert pieces[1..] == rest[1..];
        if |rest| > 1 {
          assert Join(rest, sep) == rest[0] + [sep] + Join(rest[1..], sep);
        }
      }
    }
  }

  /** There is one piece more than there are separators. */
  lemma {:induction false} SplitCount(s: string, sep: char)
    ensures |Split(s, sep)| == Count(s, sep) + 1
  {
    if s != [] {
      SplitCount(s[1..], sep);
    }
  }

  predicate NonBlank(s: string) {
    s != ""
  }

  /** `[r.strip() for r in lines if r.strip()]` */
  function StripNonBlank(lines: seq<string>): (r: seq<string>)
    ensures |r| <= |lines|
    ensures forall i :: 0 <= i < |r| ==> r[i] != "" && Stripped(r[i])
    ensures forall i :: 0 <= i < |lines| && Strip(lines[i]) != "" ==> Strip(lines[i]) in r
    ensures forall i :: 0 <= i < |r| ==> exists j :: 0 <= j < |lines| && r[i] == Strip(lines[j])
  {
    Filter(Map(lines, Strip), NonBlank)
  }

  /** Cleaning works line by line, so it keeps the lines' order. */
  lemma StripNonBlankAppend(a: seq<string>, b: seq<string>)
    ensures StripNonBlank(a + b) == StripNonBlank(a) + StripNonBlank(b)
  {
    MapAppend(a, b, Strip);
    FilterAppend(Map(a, Strip), Map(b, Strip), NonBlank);
  }

  /**
   The custom recommendations: nothing for an empty box, otherwise each
   non-blank line, stripped, in order.
   */
  function CustomReforms(text: string): (r: seq<string>)
    ensures forall i :: 0 <= i < |r| ==> r[i] != "" && Stripped(r[i]) && '\n' !in r[i]
    ensures forall i :: 0 <= i < |Split(text, '\n')| && Strip(Split(text, '\n')[i]) != "" ==>
      Strip(Split(text, '\n')[i]) in r
    ensures |r| <= Count(text, '\n') + 1
  {
    SplitCount(text, '\n');
    if text == "" then []
    else
      var lines := Split(text, '\n');
      StripNonBlankKeepsOut(lines, '\n');
      StripNonBlank(lines)
  }

  /** Stripping adds no character, so a character no line holds is in no cleaned line. */
  lemma StripNonBlankKeepsOut(lines: seq<string>, c: char)
    requires forall i :: 0 <= i < |lines| ==> c !in lines[i]
    ensures forall i :: 0 <= i < |StripNonBlank(lines)| ==> c !in StripNonBlank(lines)[i]
  {
    var r := StripNonBlank(lines);
    forall i | 0 <= i < |r| ensures c !in r[i] {
      var j :| 0 <= j < |lines| && r[i] == Strip(lines[j]);
      StripSlice(lines[j]);
    }
  }

  /** A stripped line holds only characters of the line. */
  lemma StripSlice(s: string)
    ensures forall c :: c in Strip(s) ==> c in s
  {
    var t := TrimStart(s);
    SliceMembers(s, |s| - |t|, |s|);
    SliceMembers(t, 0, |TrimEnd(t)|);
  }

  lemma SliceMembers(s: string, a: nat, b: nat)
    requires a <= b <= |s|
    ensures forall c :: c in s[a..b] ==> c in s
  {
    forall c | c in s[a..b] ensures c in s {
      var k :| 0 <= k < b - a && s[a..b][k] == c;
      assert s[a + k] == c;
    }
  }

  /** A text made of whitespace only is still whitespace after any cut. */
  lemma SpaceOnlyPiece(s: string, piece: string)
    requires AllSpace(s)
    requires forall c :: c in piece ==> c in s
    ensures AllSpace(piece)
  {
    forall k | 0 <= k < |piece| ensures IsSpace(piece[k]) {
      assert piece[k] in s;
    }
  }

  /** A text made only of blank lines adds nothing. */
  lemma BlankTextAddsNothing(lines: seq<string>)
    requires forall i :: 0 <= i < |lines| ==> AllSpace(lines[i])
    ensures StripNonBlank(lines) == []
  {
    FilterNone(Map(lines, Strip), NonBlank);
  }

  /** `reform_options`, in the order the checkboxes appear. */
  const ReformOptions: seq<string> := [
    "Simplify application procedures",
    "Reduce number of required documents",
    "Standardize forms across agencies",
    "Create single-window clearance system",
    "Set maximum processing time limits",
    "Implement online tracking systems",
    "Lower official fees for small businesses",
    "Provide fee waivers for startups",
    "Full online application system",
    "Digital document submission",
    "Publish clear requirements online",
    "Provide status updates automatically",
    "Better inter-agency coordination",
    "Training for regulatory staff"
  ]

  /** The ticked options, in the order `options` offers them. */
  function Ticked(options: seq<string>, ticked: set<string>): seq<string> {
    Filter(options, InSet(ticked))
  }

  function InSet(ticked: set<string>): string -> bool {
    (o: string) => o in ticked
  }

  /** The ticked options, in the order `options` offers them, then the custom lines. */
  function Selected(options: seq<string>, ticked: set<string>, custom: string): (r: seq<string>)
    ensures var k := |Ticked(options, ticked)|;
      && k <= |r|
      && r[..k] == Ticked(options, ticked)
      && r[k..] == CustomReforms(custom)
    ensures forall x :: x in r <==> (x in options && x in ticked) || x in CustomReforms(custom)
  {
    var chosen := Ticked(options, ticked);
    var lines := CustomReforms(custom);
    var r := chosen + lines;
    assert r[..|chosen|] == chosen && r[|chosen|..] == lines;
    assert forall x :: x in chosen <==> x in options && x in ticked by {
      forall x ensures x in chosen <==> x in options && x in ticked {
        if x in options && x in ticked {
          var i :| 0 <= i < |options| && options[i] == x;
        }
        if x in chosen {
          var i :| 0 <= i < |chosen| && chosen[i] == x;
          assert InSet(ticked)(chosen[i]);
        }
      }
    }
    r
  }

  /**
   `selected_reforms` as Section D stores it: the ticked options in option
   order, then the custom lines.
   */
  function SelectedReforms(ticked: set<string>, custom: string): seq<string> {
    Selected(ReformOptions, ticked, custom)
  }

  /** With no option ticked, the list is exactly the custom lines. */
  lemma NothingTicked(options: seq<string>, custom: string)
    ensures Selected(options, {}, custom) == CustomReforms(custom)
  {
    FilterNone(options, InSet({}));
  }

  /** Nothing ticked and an empty or blank box give an empty list, which leaves section D incomplete. */
  lemma NothingSelected(options: seq<string>, custom: string)
    requires AllSpace(custom)
    ensures Selected(options, {}, custom) == []
  {
    NothingTicked(options, custom);
    var lines := Split(custom, '\n');
    forall i | 0 <= i < |lines| ensures AllSpace(lines[i]) {
      SplitPiecesFromText(custom, '\n', i);
      SpaceOnlyPiece(custom, lines[i]);
    }
    BlankTextAddsNothing(lines);
  }

  /** Every piece of a split is made of characters of the text. */
  lemma {:induction false} SplitPiecesFromText(s: string, sep: char, i: nat)
    requires i < |Split(s, sep)|
    ensures forall c :: c in Split(s, sep)[i] ==> c in s
  {
    if s != [] {
      var rest := Split(s[1..], sep);
      if s[0] == sep {
        if i > 0 {
          SplitPiecesFromText(s[1..], sep, i - 1);
        }
      } else if i == 0 {
        SplitPiecesFromText(s[1..], sep, 0);
      } else {
        SplitPiecesFromText(s[1..], sep, i);
      }
    }
  }
}

=== FILE: sequences.dfy ===
/**
 Generic sequence helpers: the row filter of a `WHERE` clause, a descending sort
 for `ORDER BY ... DESC` and `sort_values(ascending=False)`, and sums.
 */
module Sequences {

  /** The elements of `xs` that `keep` accepts, in their original order. */
  function Filter<T>(xs: seq<T>, keep: T -> bool): (r: seq<T>)
    ensures |r| <= |xs|
    ensures forall i :: 0 <= i < |r| ==> r[i] in xs
    ensures forall i :: 0 <= i < |xs| && keep(xs[i]) ==> xs[i] in r
    ensures forall i :: 0 <= i < |r| ==> keep(r[i])
  {
    if xs == [] then []
    else (if keep(xs[0]) then [xs[0]] else []) + Filter(xs[1..], keep)
  }

  lemma {:induction false} FilterAppend<T>(a: seq<T>, b: seq<T>, keep: T -> bool)
    ensures Filter(a + b, keep) == Filter(a, keep) + Filter(b, keep)
  {
    if a == [] {
      assert a + b == b;
    } else {
      assert (a + b)[1..] == a[1..] + b;
      FilterAppend(a[1..], b, keep);
    }
  }

  /** A filter that accepts nothing yields nothing. */
  lemma {:induction false} FilterNone<T>(xs: seq<T>, keep: T -> bool)
    requires forall i :: 0 <= i < |xs| ==> !keep(xs[i])
    ensures Filter(xs, keep) == []
  {
    if xs != [] {
      FilterNone(xs[1..], keep);
    }
  }

  /** The first element `Filter` keeps is the first element of `xs` that `keep` accepts. */
  lemma {:induction false} FilterHead<T>(xs: seq<T>, keep: T -> bool)
    requires Filter(xs, keep) != []
    ensures exists k :: (0 <= k < |xs| && xs[k] == Filter(xs, keep)[0]
      && (forall j :: 0 <= j < k ==> !keep(xs[j])))
  {
    if keep(xs[0]) {
      assert Filter(xs, keep)[0] == xs[0];
    } else {
      assert Filter(xs, keep) == Filter(xs[1..], keep);
      FilterHead(xs[1..], keep);
      var k :| 0 <= k < |xs[1..]| && xs[1..][k] == Filter(xs[1..], keep)[0]
        && (forall j :: 0 <= j < k ==> !keep(xs[1..][j]));
      assert forall j :: 0 <= j < k + 1 ==> !keep(xs[j]) by {
        forall j | 0 <= j < k + 1 ensures !keep(xs[j]) {
          if j > 0 {
            assert xs[j] == xs[1..][j - 1];
          }
        }
      }
      assert xs[k + 1] == Filter(xs, keep)[0];
    }
  }

  /** `f` applied to every element of `xs`. */
  function Map<T, U>(xs: seq<T>, f: T -> U): (r: seq<U>)
    ensures |r| == |xs|
    ensures forall i :: 0 <= i < |xs| ==> r[i] == f(xs[i])
  {
    seq(|xs|, i requires 0 <= i < |xs| => f(xs[i]))
  }

  lemma MapAppend<T, U>(a: seq<T>, b: seq<T>, f: T -> U)
    ensures Map(a + b, f) == Map(a, f) + Map(b, f)
  {
  }

  /** The predicate that accepts what `keep` rejects. */
  function Not<T>(keep: T -> bool): T -> bool {
    (x: T) => !keep(x)
  }

  /** Splitting by `keep` and its negation loses and invents nothing. */
  lemma {:induction false} FilterPartition<T>(xs: seq<T>, keep: T -> bool)
    ensures multiset(Filter(xs, keep)) + multiset(Filter(xs, Not(keep))) == multiset(xs)
  {
    if xs != [] {
      var x := xs[0];
      var tail := xs[1..];
      FilterPartition(tail, keep);
      var k := if keep(x) then [x] else [];
      var d := if Not(keep)(x) then [x] else [];
      assert Filter(xs, keep) == k + Filter(tail, keep);
      assert Filter(xs, Not(keep)) == d + Filter(tail, Not(keep));
      assert xs == [x] + tail;
      PartitionStep(x, k, d, Filter(tail, keep), Filter(tail, Not(keep)), tail);
    }
  }

  /** One element sent to exactly one side extends a partition of the rest. */
  lemma PartitionStep<T>(x: T, k: seq<T>, d: seq<T>, fk: seq<T>, fd: seq<T>, tail: seq<T>)
    requires (k == [x] && d == []) || (k == [] && d == [x])
    requires multiset(fk) + multiset(fd) == multiset(tail)
    ensures multiset(k + fk) + multiset(d + fd) == multiset([x] + tail)
  {
  }

  /** The pieces `f` gives for the elements of `xs`, one after the other. */
  function Concat<T, U>(xs: seq<T>, f: T -> seq<U>): seq<U> {
    if xs == [] then [] else f(xs[0]) + Concat(xs[1..], f)
  }

  /** Concatenation works element by element, in order. */
  lemma {:induction false} ConcatAppend<T, U>(a: seq<T>, b: seq<T>, f: T -> seq<U>)
    ensures Concat(a + b, f) == Concat(a, f) + Concat(b, f)
  {
    if a == [] {
      assert a + b == b;
    } else {
      assert (a + b)[1..] == a[1..] + b;
      ConcatAppend(a[1..], b, f);
    }
  }

  /** An element with an empty piece adds nothing to a concatenation. */
  lemma ConcatSkipEmpty<T, U>(a: seq<T>, x: T, b: seq<T>, f: T -> seq<U>)
    requires f(x) == []
    ensures Concat(a + [x] + b, f) == Concat(a + b, f)
  {
    ConcatAppend(a + [x], b, f);
    ConcatAppend(a, [x], f);
    ConcatAppend(a, b, f);
    assert Concat([x], f) == f(x) + Concat([x][1..], f);
    assert [x][1..] == [];
  }

  /** Every element of a concatenation sits in the piece of some element. */
  lemma {:induction false} ConcatFrom<T, U>(xs: seq<T>, f: T -> seq<U>, k: int)
    requires 0 <= k < |Concat(xs, f)|
    ensures exists i, j :: 0 <= i < |xs| && 0 <= j < |f(xs[i])| && Concat(xs, f)[k] == f(xs[i])[j]
  {
    assert xs != [];
    var head := f(xs[0]);
    var rest := Concat(xs[1..], f);
    if k < |head| {
      assert Concat(xs, f)[k] == head[k];
    } else {
      ConcatFrom(xs[1..], f, k - |head|);
      var i, j :| 0 <= i < |xs[1..]| && 0 <= j < |f(xs[1..][i])| && rest[k - |head|] == f(xs[1..][i])[j];
      assert xs[1..][i] == xs[i + 1];
      assert Concat(xs, f)[k] == f(xs[i + 1])[j];
    }
  }

  /** The number of occurrences of `x` in `xs`. */
  function Count<T(==)>(xs: seq<T>, x: T): nat {
    if xs == [] then 0 else (if xs[0] == x then 1 else 0) + Count(xs[1..], x)
  }

  /** In a sequence without repetitions, an element occurs once or not at all. */
  lemma {:induction false} CountDistinct<T>(xs: seq<T>, x: T)
    requires forall i, j :: 0 <= i < j < |xs| ==> xs[i] != xs[j]
    ensures Count(xs, x) == if x in xs then 1 else 0
  {
    if xs != [] {
      CountDistinct(xs[1..], x);
      if xs[0] == x {
        assert x !in xs[1..] by {
          forall j | 0 <= j < |xs[1..]| ensures xs[1..][j] != x {
            assert xs[1..][j] == xs[j + 1];
          }
        }
      }
    }
  }

  /** Non-increasing by `key`. */
  ghost predicate SortedDesc<T>(xs: seq<T>, key: T -> real) {
    forall i, j :: 0 <= i < j < |xs| ==> key(xs[i]) >= key(xs[j])
  }

  /** Puts `x` in front of the first element whose key is not larger. */
  function InsertDesc<T>(x: T, xs: seq<T>, key: T -> real): (r: seq<T>)
    ensures multiset(r) == multiset(xs) + multiset{x}
    ensures |r| == |xs| + 1
  {
    if xs == [] then [x]
    else if key(x) >= key(xs[0]) then [x] + xs
    else
      assert xs == [xs[0]] + xs[1..];
      [xs[0]] + InsertDesc(x, xs[1..], key)
  }

  /** Inserting into a sorted sequence keeps it sorted. */
  lemma {:induction false} InsertDescSorted<T>(x: T, xs: seq<T>, key: T -> real)
    requires SortedDesc(xs, key)
    ensures SortedDesc(InsertDesc(x, xs, key), key)
  {
    if xs == [] {
    } else if key(x) >= key(xs[0]) {
      HeadBounds(xs, key);
      SortedCons(x, xs, key);
    } else {
      SortedTail(xs, key);
      InsertDescSorted(x, xs[1..], key);
      InsertBelowHead(x, xs, key);
      SortedCons(xs[0], InsertDesc(x, xs[1..], key), key);
    }
  }

  /** The head of a sorted sequence has the largest key. */
  lemma HeadBounds<T>(xs: seq<T>, key: T -> real)
    requires xs != [] && SortedDesc(xs, key)
    ensures forall k :: 0 <= k < |xs| ==> key(xs[k]) <= key(xs[0])
  {
    forall k | 0 < k < |xs| ensures key(xs[k]) <= key(xs[0]) {
    }
  }

  lemma SortedTail<T>(xs: seq<T>, key: T -> real)
    requires xs != [] && SortedDesc(xs, key)
    ensures SortedDesc(xs[1..], key)
  {
    var tail := xs[1..];
    forall i, j | 0 <= i < j < |tail| ensures key(tail[i]) >= key(tail[j]) {
      assert tail[i] == xs[i + 1] && tail[j] == xs[j + 1];
    }
  }

  /** An element that belongs after the head leaves the head the largest. */
  lemma InsertBelowHead<T>(x: T, xs: seq<T>, key: T -> real)
    requires xs != [] && SortedDesc(xs, key) && key(x) < key(xs[0])
    ensures forall k :: 0 <= k < |InsertDesc(x, xs[1..], key)| ==> key(InsertDesc(x, xs[1..], key)[k]) <= key(xs[0])
  {
    var tail := xs[1..];
    var rest := InsertDesc(x, tail, key);
    TailBounds(xs, key);
    ConsBounded(x, tail, key, key(xs[0]));
    assert multiset(rest) == multiset([x] + tail);
    BoundedPermutation(rest, [x] + tail, key, key(xs[0]));
  }

  lemma TailBounds<T>(xs: seq<T>, key: T -> real)
    requires xs != [] && SortedDesc(xs, key)
    ensures forall k :: 0 <= k < |xs[1..]| ==> key(xs[1..][k]) <= key(xs[0])
  {
    forall k | 0 <= k < |xs[1..]| ensures key(xs[1..][k]) <= key(xs[0]) {
      assert xs[1..][k] == xs[k + 1];
    }
  }

  lemma ConsBounded<T>(x: T, tail: seq<T>, key: T -> real, b: real)
    requires key(x) <= b
    requires forall k :: 0 <= k < |tail| ==> key(tail[k]) <= b
    ensures forall k :: 0 <= k < |[x] + tail| ==> key(([x] + tail)[k]) <= b
  {
    forall k | 0 < k < |[x] + tail| ensures key(([x] + tail)[k]) <= b {
      assert ([x] + tail)[k] == tail[k - 1];
    }
  }

  /** An element no smaller than a sorted sequence's keys may go in front of it. */
  lemma SortedCons<T>(y: T, ys: seq<T>, key: T -> real)
    requires SortedDesc(ys, key)
    requires forall k :: 0 <= k < |ys| ==> key(ys[k]) <= key(y)
    ensures SortedDesc([y] + ys, key)
  {
    var r := [y] + ys;
    forall i, j | 0 <= i < j < |r| ensures key(r[i]) >= key(r[j]) {
      assert r[j] == ys[j - 1];
      if i > 0 {
        assert r[i] == ys[i - 1];
      }
    }
  }

  /** A bound on every key of a sequence bounds every key of its permutations. */
  lemma BoundedPermutation<T>(r: seq<T>, s: seq<T>, key: T -> real, b: real)
    requires multiset(r) == multiset(s)
    requires forall k :: 0 <= k < |s| ==> key(s[k]) <= b
    ensures forall k :: 0 <= k < |r| ==> key(r[k]) <= b
  {
    forall k | 0 <= k < |r| ensures key(r[k]) <= b {
      assert r[k] in multiset(s);
      var m :| 0 <= m < |s| && s[m] == r[k];
    }
  }

  /** Two sequences with the same multiset hold the same elements. */
  lemma SameMembers<T>(a: seq<T>, b: seq<T>)
    requires multiset(a) == multiset(b)
    ensures forall i :: 0 <= i < |a| ==> a[i] in b
    ensures forall i :: 0 <= i < |b| ==> b[i] in a
  {
    forall i | 0 <= i < |a| ensures a[i] in b {
      assert a[i] in multiset(a);
    }
    forall i | 0 <= i < |b| ensures b[i] in a {
      assert b[i] in multiset(b);
    }
  }

  /** Insertion sort, non-increasing by `key`. */
  function SortDesc<T>(xs: seq<T>, key: T -> real): (r: seq<T>)
    ensures SortedDesc(r, key)
    ensures multiset(r) == multiset(xs)
    ensures |r| == |xs|
    ensures forall i :: 0 <= i < |r| ==> r[i] in xs
    ensures forall i :: 0 <= i < |xs| ==> xs[i] in r
  {
    if xs == [] then []
    else
      assert xs == [xs[0]] + xs[1..];
      var r := InsertDesc(xs[0], SortDesc(xs[1..], key), key);
      InsertDescSorted(xs[0], SortDesc(xs[1..], key), key);
      SameMembers(r, xs);
      r
  }

  /**
   The elements `has` accepts, non-increasing by `key`, then the others in
   their original order: how pandas sorts a column with NaN values last.
   */
  function SortDescMissingLast<T>(xs: seq<T>, has: T -> bool, key: T -> real): (r: seq<T>)
    ensures multiset(r) == multiset(xs)
    ensures forall i, j :: 0 <= i < j < |r| && has(r[j]) ==> has(r[i]) && key(r[i]) >= key(r[j])
  {
    var lacks := Not(has);
    var known := SortDesc(Filter(xs, has), key);
    var unknown := Filter(xs, lacks);
    FilterPartition(xs, has);
    SortedKeepsFilter(Filter(xs, has), has, key);
    SortedThenMissing(known, unknown, has, key);
    known + unknown
  }

  lemma SortedKeepsFilter<T>(xs: seq<T>, has: T -> bool, key: T -> real)
    requires forall i :: 0 <= i < |xs| ==> has(xs[i])
    ensures forall i :: 0 <= i < |SortDesc(xs, key)| ==> has(SortDesc(xs, key)[i])
  {
    var s := SortDesc(xs, key);
    forall i | 0 <= i < |s| ensures has(s[i]) {
      var j :| 0 <= j < |xs| && xs[j] == s[i];
    }
  }

  lemma SortedThenMissing<T>(known: seq<T>, unknown: seq<T>, has: T -> bool, key: T -> real)
    requires SortedDesc(known, key)
    requires forall i :: 0 <= i < |known| ==> has(known[i])
    requires forall i :: 0 <= i < |unknown| ==> !has(unknown[i])
    ensures forall i, j :: 0 <= i < j < |known + unknown| && has((known + unknown)[j]) ==>
      has((known + unknown)[i]) && key((known + unknown)[i]) >= key((known + unknown)[j])
  {
    var r := known + unknown;
    forall j | |known| <= j < |r| ensures !has(r[j]) {
      assert r[j] == unknown[j - |known|];
    }
    forall i, j | 0 <= i < j < |r| && has(r[j]) ensures has(r[i]) && key(r[i]) >= key(r[j]) {
      assert j < |known|;
      assert r[i] == known[i] && r[j] == known[j];
    }
  }

  /** Sum of `f` over the elements of `xs`. */
  function SumInt<T>(xs: seq<T>, f: T -> int): int {
    if xs == [] then 0 else f(xs[0]) + SumInt(xs[1..], f)
  }

  lemma {:induction false} SumIntAppend<T>(a: seq<T>, b: seq<T>, f: T -> int)
    ensures SumInt(a + b, f) == SumInt(a, f) + SumInt(b, f)
  {
    if a == [] {
      assert a + b == b;
    } else {
      assert (a + b)[1..] == a[1..] + b;
      SumIntAppend(a[1..], b, f);
    }
  }

  /** Reordering keeps every sum. */
  lemma {:induction false} SumIntPermutation<T>(a: seq<T>, b: seq<T>, f: T -> int)
    requires multiset(a) == multiset(b)
    ensures SumInt(a, f) == SumInt(b, f)
  {
    if a == [] {
      assert |b| == |multiset(b)|;
    } else {
      assert a[0] in multiset(b);
      var t :| 0 <= t < |b| && b[t] == a[0];
      var rest := b[..t] + b[t + 1..];
      assert b == b[..t] + [b[t]] + b[t + 1..];
      SumIntAppend(b[..t] + [b[t]], b[t + 1..], f);
      SumIntAppend(b[..t], [b[t]], f);
      SumIntAppend(b[..t], b[t + 1..], f);
      assert [b[t]][1..] == [];
      assert a == [a[0]] + a[1..];
      assert multiset(b) == multiset(b[..t]) + multiset([b[t]]) + multiset(b[t + 1..]);
      assert multiset(rest) == multiset(b[..t]) + multiset(b[t + 1..]);
      assert multiset(a) == multiset([a[0]]) + multiset(a[1..]);
      assert multiset(a[1..]) == multiset(a) - multiset{a[0]};
      assert multiset(rest) == multiset(b) - multiset{b[t]};
      SumIntPermutation(a[1..], rest, f);
    }
  }
}
